=== FILE: README.md ===
# LoveSync, modelled in Dafny

LoveSync is a couples app: a React client (timeline of shared memories, gift store, chat,
mood check-ins, period tracker, profile) and a Hono server on Supabase (sign-up helpers,
image storage, timeline routes). This project models the application's deterministic rules
as pure Dafny functions over sequences, maps, records and strings, and proves what the
code promises about them. Network replies, database answers, storage and signing results,
the clock and the signed-in user are all parameters.

One module per source file (plus a few shared ones):

| module | models |
|---|---|
| `Optional`, `Strings`, `Seqs`, `Sorting`, `Json` | JavaScript's `undefined`/`null`, string and array built-ins (`trim`, `toLowerCase`, `toUpperCase`, `split`, `join`, `includes`, `filter`, numeric `sort`) and truthiness of request-body values |
| `Identity` | the user record and the sender/creator stamp attached to new items |
| `AddMemory`, `PhotoRemoval`, `MediaGrid` | the add-memory sheet of `Timeline.tsx`: selection cap, removal and progress reindexing, upload progress codes, URL aggregation, status, submit guard, photo grid |
| `GiftCatalogue`, `GiftCart` | `GiftStore.tsx`: filtering and sorting products, the cart, the wishlist, totals, purchase |
| `GiftFinder` | the gift filter of `features/GiftStore.tsx` |
| `MemoryStorage`, `ServerRoutes`, `TimelineEndpoints` | the server: image validation, storage paths, URL resolution and deletion, the upload and check-username routes, the timeline routes |
| `OnboardingFlow`, `SignupForm`, `AppFlow`, `ConnectPartner` | the sign-up screens, the three-step wizard, the page-level state machine, invite codes |
| `ClassNames`, `Tabs` | `clsx`/`cva` and the tabs component |
| `DayCount`, `PeriodTracker`, `EventFeed` | day differences, cycle phases, the sample timeline's filter, icons, colours and date labels |
| `Dashboard`, `Profile`, `Chat`, `DemoChat`, `TimelineMemories` | greeting and avatar fallbacks, mood payload, stats, join-code guard, notification switches, both chat screens, the memories gallery |

## Model

| member | source | states |
|---|---|---|
| Strings.Trim | src/components/onboarding/SignupForm.tsx:58 | the result is a slice of the input with only whitespace before and after it, never longer than the input, starting and ending with a non-whitespace character unless empty, and empty exactly when the input is all JavaScript whitespace |
| Strings.TrimIdempotent | src/supabase/functions/server/timeline-endpoints.tsx:116-117 | trimming an already trimmed string changes nothing |
| Strings.TrimUnique | src/components/onboarding/SignupForm.tsx:58 | any slice of the input with only whitespace around it that starts and ends with a non-whitespace character, or is empty for an all-whitespace input, is the trimmed string |
| Strings.Lower | src/components/OnboardingFlow.tsx:323 | in the model, lower-casing maps each character on its own, keeps the length and leaves no upper-case ASCII letter |
| Strings.Upper | src/components/Profile.tsx:583 | in the model, upper-casing maps each character on its own, keeps the length and leaves no lower-case ASCII letter |
| Strings.UpperIdempotent | src/components/Profile.tsx:583 | upper-casing twice is upper-casing once |
| Strings.UpperOfLower | src/components/onboarding/ConnectPartner.tsx:18 | upper-casing forgets whether a letter was lower-cased first |
| Strings.Utf16Length | src/supabase/functions/server/index.tsx:142 | `length` is at least the character count, and equals it when every character is in the Basic Multilingual Plane |
| Strings.ContainsAt | src/components/GiftStore.tsx:286-289 | `includes` holds whenever the substring occurs at some position |
| Strings.Contains | src/components/GiftStore.tsx:286-288 | an occurrence needs room, and the empty string occurs in every string |
| Strings.ContainsOccurs | src/components/features/GiftStore.tsx:97 | `includes` holds exactly when the substring occurs at some position of the string |
| Strings.Split | src/components/Dashboard.tsx:210 | `split` yields at least one part, no part holds the separator, and the first part is the prefix up to the first separator |
| Strings.JoinSplit | src/components/Dashboard.tsx:210 | joining the parts of a split with the same separator gives back the original string |
| Strings.SplitJoin | src/components/ui/cva.ts:8 | splitting a join of separator-free parts gives back the parts |
| Strings.SplitAfterPart | src/supabase/functions/server/memory-storage.tsx:78 | a separator-free prefix followed by the separator splits off as the first part |
| Strings.SplitWithoutSeparator | src/components/Dashboard.tsx:227 | a string without the separator splits into itself |
| Strings.FirstToken | src/components/Dashboard.tsx:210 | the first part of a split: a prefix of the input free of the separator, followed in the input by the separator when shorter |
| Strings.NatToString | src/supabase/functions/server/memory-storage.tsx:75-78 | the decimal rendering of a number is non-empty and all digits, and starts with `0` only for the number 0, so it has no leading zero |
| Strings.ParseNatToString | src/supabase/functions/server/memory-storage.tsx:78 | reading the decimal rendering back gives the number |
| Seqs.Filter | src/components/TimelineMemories.tsx:80 | `filter` never lengthens the list |
| Seqs.FilterMembers | src/components/TimelineMemories.tsx:80 | an element is kept exactly when it is in the list and satisfies the predicate |
| Seqs.FilterConcat | src/components/features/Timeline.tsx:92 | filtering distributes over concatenation, so the kept elements stay in order |
| Seqs.FilterKeepsAll | src/components/features/GiftStore.tsx:96-100 | a filter every element passes returns the list unchanged |
| Seqs.FilterKeepsNone | src/supabase/functions/server/memory-storage.tsx:164 | a filter no element passes returns the empty list |
| Seqs.FilterMultiset | src/components/GiftStore.tsx:280-290 | filtering keeps every copy of an accepted element and none of a rejected one |
| Seqs.FilterLength | src/components/TimelineMemories.tsx:97 | the length of a filter is the number of elements satisfying the predicate |
| Seqs.Take | src/components/Timeline.tsx:159-160 | `slice(0, n)`: the first `min(n, length)` elements |
| Sorting.Insert | src/components/GiftStore.tsx:294-308 | inserting into a list sorted by a key keeps it sorted and adds exactly the new element |
| Sorting.SortBy | src/components/GiftStore.tsx:294-308 | sorting with a numeric comparator gives a list ordered by the key that is a permutation of the input |
| Sorting.SortKeepsElements | src/components/GiftStore.tsx:294-308 | an element is in the sorted list exactly when it is in the input |
| Identity.OrElse | src/components/Timeline.tsx:338-339 | `a \|\| b` is the value when present and non-empty, else the fallback |
| Identity.StampFor | src/components/Timeline.tsx:336-340 | the creator stamp carries the user's id; its name is the user's name when set and non-empty, else the username, else "You"; its username is the username when set and non-empty, else "user"; neither is ever empty, and without a user the stamp is "You" and "user" |
| MediaGrid.LayoutOf | src/components/Timeline.tsx:591-616 | no photos show nothing, one photo shows alone, otherwise the first up to four photos are tiles in order and only the fourth carries a "+n" overlay, with n the photos not shown |
| MediaGrid.EveryPhotoAccounted | src/components/Timeline.tsx:603-613 | the tiles shown plus the overlay's number always equal the number of photos |
| AddMemory.SelectImages | src/components/Timeline.tsx:155-161 | an empty selection changes nothing; otherwise the list is the old list followed by the new files, cut to five, so existing photos keep their positions and the list never exceeds five |
| AddMemory.NeedsCompression | src/components/Timeline.tsx:229-233 | every file the server would refuse for its size is compressed before upload |
| AddMemory.AddPreview | src/components/Timeline.tsx:166-168 | a read that delivers a data URL appends it and the preview list is cut to five; a read that delivers nothing leaves the list alone |
| AddMemory.ProgressTrace | src/components/Timeline.tsx:225-287 | one photo's progress starts at 0, passes 10 exactly when the photo is over 2 MiB, rises strictly below 100 and ends at 100 on success and -1 on any failure |
| AddMemory.SlotResult | src/components/Timeline.tsx:272-286 | an upload yields a URL exactly when its response was ok |
| AddMemory.FinalProgress | src/components/Timeline.tsx:271-287 | once the batch settles, every photo's slot holds 100 if it uploaded and -1 if not, and no other slot exists |
| AddMemory.LabelFor | src/components/Timeline.tsx:271-287 | a slot reads "Failed" exactly at -1, "Done" exactly at 100, and 0% when absent |
| AddMemory.LabelsAfterBatch | src/components/Timeline.tsx:271-287 | after a batch each photo's label is "Done" or "Failed" according to its own upload |
| AddMemory.CollectUrls | src/components/Timeline.tsx:292-293 | the URL list is never longer than the results |
| AddMemory.CollectUrlsCount | src/components/Timeline.tsx:292-293 | nothing is dropped exactly when every upload delivered, and nothing is kept exactly when none did |
| AddMemory.CollectUrlsMembers | src/components/Timeline.tsx:293 | a URL is in the list exactly when some upload delivered it |
| AddMemory.CollectUrlsConcat | src/components/Timeline.tsx:293 | the list keeps the photos' order: collecting distributes over concatenation |
| AddMemory.ClassifyBatch | src/components/Timeline.tsx:297-303 | "all uploaded" exactly when every upload delivered, "failed" exactly when none did, and "partial" only for a count strictly between |
| AddMemory.Classify | src/components/Timeline.tsx:297-303 | "all uploaded" exactly when the counts agree, "failed" exactly when nothing uploaded out of a non-empty selection, and "partial" only for a positive count different from the selection |
| AddMemory.BuildRequest | src/components/Timeline.tsx:202-204 | a blank title or description stops the submit; otherwise the body carries the untrimmed fields, the URLs, `isMilestone` exactly for the milestone type, `isPrivate` false, and omits an empty location |
| AddMemory.AfterCreate | src/components/Timeline.tsx:330-357 | the event the server created goes in front of the list, every field as the server returned it except that it carries the uploaded URLs and the creator stamp; the older events stay, and the sheet resets; a failed create changes nothing |
| AddMemory.CollectOneGap | src/components/Timeline.tsx:293 | worked example: a failed upload between two delivered ones leaves exactly those two URLs, in order |
| AddMemory.TwoOfThreeUploaded | src/components/Timeline.tsx:292-324 | worked example: three photos of which the middle one fails: the request carries the other two URLs in order |
| PhotoRemoval.DropIndex | src/components/Timeline.tsx:182-183 | dropping an in-range position shortens the list by one, keeps the order of the rest and shifts later elements down by one; an out-of-range position changes nothing |
| PhotoRemoval.ReindexProgress | src/components/Timeline.tsx:184-198 | key `index` goes, keys above it move down by one, keys below stay, and every value travels with its key |
| PhotoRemoval.RemoveImage | src/components/Timeline.tsx:175-199 | position `index` is dropped from the photo list and from the preview list, each shifting its later elements down and an index past a list's end leaving that list alone, with no assumption that the two lists are equally long; every remaining photo's progress entry moves with it |
| GiftCatalogue.FindProduct | src/components/GiftStore.tsx:346 | the first product with the id, or none exactly when no product has it |
| GiftCatalogue.FindCategory | src/components/GiftStore.tsx:289 | the first category with the id, or none exactly when no category has it |
| GiftCatalogue.MatchesQuery | src/components/GiftStore.tsx:285-290 | the empty query matches every product, and a product whose category is unknown matches only on its name or description |
| GiftCatalogue.Kept | src/components/GiftStore.tsx:280-290 | with neither a category nor a query every product is kept, and a selected category keeps only its own products |
| GiftCatalogue.FilterProducts | src/components/GiftStore.tsx:276-311 | the result holds exactly the products that pass the category and the search filters, as many times as listed, ordered for the chosen sort (ascending price, descending price, descending rating, or descending review count) |
| GiftCatalogue.NoFilterListsAll | src/components/GiftStore.tsx:276-308 | with no category, no query and the default order every product is listed, most reviewed first |
| GiftCatalogue.OtherCategoryHidden | src/components/GiftStore.tsx:280-282 | a product of another category is never listed while a category is selected |
| GiftCart.AddToCart | src/components/GiftStore.tsx:317-322 | the entry becomes the old quantity, or 0, plus the quantity; every other entry is unchanged |
| GiftCart.RemoveFromCart | src/components/GiftStore.tsx:324-334 | a quantity above one goes down by one, otherwise the key is deleted; no other key changes |
| GiftCart.AddThenRemove | src/components/GiftStore.tsx:317-334 | adding one and removing one of a product gives back the same valid cart |
| GiftCart.CartStaysValid | src/components/GiftStore.tsx:317-334 | from a cart whose quantities are all at least one, any sequence of one-item adds, removes and purchases keeps them so |
| GiftCart.SumByRemove | src/components/GiftStore.tsx:344-353 | the sum over the cart is any one entry's term plus the sum over the other entries, whichever entry is taken first |
| GiftCart.ItemCount | src/components/GiftStore.tsx:351-353 | the empty cart holds no items, and a valid cart holds at least one item per entry |
| GiftCart.CartTotal | src/components/GiftStore.tsx:344-349 | a cart holding only products the catalogue does not list costs nothing |
| GiftCart.UnitPrice | src/components/GiftStore.tsx:346-347 | a listed product's price, and 0 for an id the catalogue does not list |
| GiftCart.SumByUpdate | src/components/GiftStore.tsx:344-353 | setting one entry replaces that entry's term of the sum and keeps the others |
| GiftCart.ItemCountAfterAdd | src/components/GiftStore.tsx:351-353 | adding a quantity raises the item count by that quantity |
| GiftCart.TotalAfterAdd | src/components/GiftStore.tsx:344-349 | adding a quantity raises the total by that quantity times the product's price |
| GiftCart.ItemCountAfterRemove | src/components/GiftStore.tsx:351-353 | removing one lowers the item count by one, and changes nothing for an absent product |
| GiftCart.TotalAfterRemove | src/components/GiftStore.tsx:344-349 | removing one lowers the total by the product's price, and changes nothing for an absent product |
| GiftCart.UnknownAddsNothing | src/components/GiftStore.tsx:347 | an id the catalogue does not list contributes nothing to the total |
| GiftCart.ToggleWishlist | src/components/GiftStore.tsx:336-342 | a listed id is removed, every copy of it, and an unlisted id is appended at the end; other ids are kept |
| GiftCart.ToggleKeepsNoDuplicates | src/components/GiftStore.tsx:336-342 | toggling keeps a duplicate-free wishlist duplicate-free |
| GiftCart.FilterKeepsNoDuplicates | src/components/GiftStore.tsx:339 | filtering a duplicate-free list leaves it duplicate-free |
| GiftCart.ToggleTwice | src/components/GiftStore.tsx:336-342 | toggling twice restores the wishlist exactly for an unlisted id; for a listed id it keeps the same ids without duplicates and moves the id to the end |
| GiftCart.GiftMessage | src/components/GiftStore.tsx:377 | the note names the buyer's name when set and non-empty, else the username when set and non-empty, else "Someone special"; the sender named is never empty |
| GiftCart.HandlePurchase | src/components/GiftStore.tsx:356-397 | no partner, then no user, stops the purchase; a successful purchase deletes that product's whole cart entry and nothing else; a failed one keeps the cart |
| GiftCart.PurchaseClearsLine | src/components/GiftStore.tsx:387-391 | after a successful purchase the item count drops by the product's whole quantity |
| GiftFinder.FilteredGifts | src/components/features/GiftStore.tsx:96-100 | a gift is kept exactly when its lower-cased name contains the lower-cased query and the category is "all" or the gift's own |
| GiftFinder.Shown | src/components/features/GiftStore.tsx:96-100 | the empty query with "all" shows every gift, and a shown gift's name is at least as long as the query |
| GiftFinder.FilterKeepsOrder | src/components/features/GiftStore.tsx:96 | the result is an order-preserving subsequence: filtering distributes over concatenation |
| GiftFinder.EmptyQueryShowsAll | src/components/features/GiftStore.tsx:96-100 | the empty query with category "all" shows every gift |
| GiftFinder.DescriptionNotSearched | src/components/features/GiftStore.tsx:97 | a query found only in a description does not show the gift |
| MemoryStorage.ValidateImage | src/supabase/functions/server/memory-storage.tsx:211-224 | a file is valid exactly when it is at most 10 MiB and of one of the four image types; an oversized file reports the size error whatever its type |
| MemoryStorage.SizeLimitIsInclusive | src/supabase/functions/server/memory-storage.tsx:212-217 | worked example: exactly 10 MiB is accepted, one byte more is not |
| MemoryStorage.Sanitize | src/supabase/functions/server/memory-storage.tsx:77 | the sanitised name has the same length, keeps `[a-zA-Z0-9.-]` and replaces every other character with '_' |
| MemoryStorage.SanitizeIdempotent | src/supabase/functions/server/memory-storage.tsx:77 | sanitising twice is sanitising once, and no sanitised name contains '/' |
| MemoryStorage.StoragePath | src/supabase/functions/server/memory-storage.tsx:78 | the path starts with the user id and the memory id, each followed by `/`, and ends with the sanitised file name |
| MemoryStorage.StoragePathSegments | src/supabase/functions/server/memory-storage.tsx:78 | with '/'-free ids the path splits into exactly the user id, the memory id and the file segment |
| MemoryStorage.FileSegmentStamp | src/supabase/functions/server/memory-storage.tsx:75-78 | the file segment starts with the timestamp's digits up to the first '_', and they read back as the timestamp |
| MemoryStorage.UploadMemoryImage | src/supabase/functions/server/memory-storage.tsx:74-117 | a storage error or a signing error is reported with its message; a success returns the built path and the URL signing gave for it |
| MemoryStorage.ResolveUrls | src/supabase/functions/server/memory-storage.tsx:121-154 | the empty list gives no URLs, and there are never more URLs than entries |
| MemoryStorage.ResolvedUrlOrigin | src/supabase/functions/server/memory-storage.tsx:129-147 | every URL returned is an entry that already was a URL, or what signing made of a stored path |
| MemoryStorage.ResolveUrlsConcat | src/supabase/functions/server/memory-storage.tsx:129-147 | resolution works entry by entry, so the order of the entries is kept |
| MemoryStorage.UrlsPassThrough | src/supabase/functions/server/memory-storage.tsx:131-134 | a list of URLs comes back unchanged |
| MemoryStorage.NothingSkipped | src/supabase/functions/server/memory-storage.tsx:140-146 | when every signing succeeds, no entry is skipped |
| MemoryStorage.DeletionPaths | src/supabase/functions/server/memory-storage.tsx:157-174 | the bucket is asked to remove exactly the entries that are not URLs, and nothing is sent when none remain |
| ServerRoutes.ValidateValue | src/supabase/functions/server/index.tsx:95-98 | a text field standing in for the image fails validation on its type |
| ServerRoutes.UploadImage | src/supabase/functions/server/index.tsx:73-126 | no user gives 401; then a missing image gives 400; then a missing memory id gives 400; then an image failing validation gives 400 with the validation message; a valid image whose storage or signing fails gives 500 with that message, and one stored and signed gives its URL and the path built from the user, the memory id, the time and the file name |
| ServerRoutes.OversizeReportedFirst | src/supabase/functions/server/index.tsx:95-98 | an oversized file with a bad type is refused for its size |
| ServerRoutes.CheckUsername | src/supabase/functions/server/index.tsx:138-196 | a name under three UTF-16 units is refused for its length, then one with a character outside `[a-zA-Z0-9_]`; a name is available exactly when it passes both checks and the lookup found no row or failed with the no-row or the missing-table code |
| ServerRoutes.WellFormedNameIsLookedUp | src/supabase/functions/server/index.tsx:182-187 | a well-formed name is reported taken when a row matches and available when none does |
| ServerRoutes.LengthCheckedFirst | src/supabase/functions/server/index.tsx:142-154 | worked example: a two-letter name with a bad character is refused for its length |
| ServerRoutes.EmojiCountsTwice | src/supabase/functions/server/index.tsx:142-154 | worked example: a letter and an emoji pass the length check and fail the character check |
| TimelineEndpoints.Normalize | src/supabase/functions/server/timeline-endpoints.tsx:112-125 | the record exists exactly when title and description are strings and the location can be trimmed; it holds the trimmed title and description, the type or "memory", the media array or [], the trimmed location or null when blank, `Boolean(isMilestone)`, and `is_private` exactly when given |
| TimelineEndpoints.WithoutPrivate | src/supabase/functions/server/timeline-endpoints.tsx:141 | the retry record is the original record minus the `is_private` key |
| TimelineEndpoints.CreateEvent | src/supabase/functions/server/timeline-endpoints.tsx:78-174 | no user gives 401; a missing title, description or date gives 400; a successful first insert answers with its row; an insert error other than `is_private` gives 500 with "Failed to create timeline event: " and the database message, as does a failed retry; a created row always comes from the normalised record, directly or from the retry without `is_private` |
| TimelineEndpoints.RetryRecovers | src/supabase/functions/server/timeline-endpoints.tsx:136-157 | when the first insert fails on `is_private` and the retry succeeds, the route answers with the retried row |
| TimelineEndpoints.FirstInsertAnswers | src/supabase/functions/server/timeline-endpoints.tsx:127-168 | when the first insert succeeds, the route answers with that row |
| TimelineEndpoints.OtherErrorsNotRetried | src/supabase/functions/server/timeline-endpoints.tsx:133-160 | for a valid request, an insert error not about `is_private` answers 500 with the prefixed database message, and the answer does not depend on what the database would say to a second attempt |
| TimelineEndpoints.SheetBodyAccepted | src/components/Timeline.tsx:316-327 | a request the add-memory sheet builds, with a date, passes the route's guard and normalises without throwing |
| TimelineEndpoints.SheetToRecordText | src/supabase/functions/server/timeline-endpoints.tsx:116-120 | a memory from the sheet is stored with its trimmed title and description, and a location exactly when the typed one is not blank |
| TimelineEndpoints.SheetToRecordFlags | src/supabase/functions/server/timeline-endpoints.tsx:119-123 | a memory from the sheet is stored with its URLs in order, the milestone flag of its type and an explicit "not private" |
| TimelineEndpoints.ProcessEvent | src/supabase/functions/server/timeline-endpoints.tsx:56-66 | an event with a non-empty media list gets the resolution of that list, never longer; an event without media is returned as it is; every other field is kept |
| TimelineEndpoints.ProcessEvents | src/supabase/functions/server/timeline-endpoints.tsx:56-69 | one output per event, in order, and none for a null result |
| TimelineEndpoints.UrlsAlreadyResolved | src/supabase/functions/server/timeline-endpoints.tsx:56-66 | events whose media are all URLs come back unchanged |
| OnboardingFlow.NormalizeUsername | src/components/OnboardingFlow.tsx:323 | the normalised name holds only `[a-z0-9_]`, is never longer than what was typed, and keeps every copy of each `[a-z0-9_]` character of the lower-cased input and nothing else |
| OnboardingFlow.NormalizeConcat | src/components/OnboardingFlow.tsx:323 | normalising works character by character, so the kept characters stay in the order typed |
| OnboardingFlow.NormalizeIdempotent | src/components/OnboardingFlow.tsx:323 | normalising twice is normalising once |
| OnboardingFlow.NormalNameKept | src/components/OnboardingFlow.tsx:323 | a name already in `[a-z0-9_]` is kept as typed |
| OnboardingFlow.NormalizedPassesServerCharacters | src/supabase/functions/server/index.tsx:149-154 | every normalised name passes the server's character check |
| OnboardingFlow.CheckStatuses | src/components/OnboardingFlow.tsx:53-101 | a name under three units resets the status and sends nothing; otherwise "Checking..." is followed by a settled status: the server's availability and message for an answer, unavailable with "Unable to check username" for a reply that is not ok, and unavailable with "Network error" when the request fails |
| OnboardingFlow.CheckAgreesWithServer | src/components/OnboardingFlow.tsx:79-85 | a well-formed name the server finds free ends available; one it finds taken ends unavailable with the server's message |
| OnboardingFlow.SignUpGuard | src/components/OnboardingFlow.tsx:119-128 | an empty name, username, e-mail or password gives the missing-fields error; otherwise only a known-unavailable name blocks, an unknown one does not |
| OnboardingFlow.EnabledButtonSends | src/components/OnboardingFlow.tsx:423 | a click on the enabled button with every field filled always sends |
| OnboardingFlow.SignInGuard | src/components/OnboardingFlow.tsx:161-165 | sign-in proceeds exactly when e-mail and password are both non-empty |
| OnboardingFlow.Press | src/components/OnboardingFlow.tsx:245-540 | a button the current screen shows leads to the screen it names (create account and the sign-up link to sign-up, the sign-in button and link to sign-in, back to welcome); a button the screen does not show changes nothing |
| OnboardingFlow.ScreensConnected | src/components/OnboardingFlow.tsx:245-540 | the sign-up form links to sign-in and the sign-in form back to sign-up, the two welcome buttons open the two forms, and from any screen back then a welcome button reaches either form |
| OnboardingFlow.ScreenFor | src/components/OnboardingFlow.tsx:574-583 | "signup" and "signin" draw their forms, and every other value draws welcome |
| SignupForm.HandleInputChange | src/components/onboarding/SignupForm.tsx:52-54 | the named field takes the value and no other field changes |
| SignupForm.EachFieldOnce | src/components/onboarding/SignupForm.tsx:34-50 | every field is asked for by exactly one of the three steps |
| SignupForm.CanContinue | src/components/onboarding/SignupForm.tsx:56-59 | the step's button is enabled exactly when every field of the step is non-blank after trimming |
| SignupForm.AllFilled | src/components/onboarding/SignupForm.tsx:58 | holds exactly when every listed field is non-blank after trimming |
| SignupForm.CanContinueByStep | src/components/onboarding/SignupForm.tsx:34-59 | step 0 needs the phone number, step 1 the name and username, step 2 the birth date and gender |
| SignupForm.WhitespaceDoesNotContinue | src/components/onboarding/SignupForm.tsx:58 | the first step continues exactly when the phone number has a non-whitespace character |
| SignupForm.HandleNext | src/components/onboarding/SignupForm.tsx:61-67 | below the last step the step advances and nothing is handed on; at the last step the step stays and the form is handed on |
| SignupForm.Apply | src/components/onboarding/SignupForm.tsx:52-67 | any input keeps the step within the three |
| SignupForm.ApplyAll | src/components/onboarding/SignupForm.tsx:52-67 | any sequence of inputs keeps the step within the three |
| SignupForm.EditKeepsEarlierSteps | src/components/onboarding/SignupForm.tsx:52-59 | editing a field of the current step leaves the earlier steps' guards as they were |
| SignupForm.ApplyKeepsConsistent | src/components/onboarding/SignupForm.tsx:52-67 | each input keeps the earlier steps filled in and anything handed on complete |
| SignupForm.EditKeepsConsistent | src/components/onboarding/SignupForm.tsx:52-54 | an edit keeps the wizard consistent |
| SignupForm.ContinueKeepsConsistent | src/components/onboarding/SignupForm.tsx:56-67 | pressing the enabled button keeps the wizard consistent |
| SignupForm.EveryStepFilled | src/components/onboarding/SignupForm.tsx:34-59 | a form that passes every step's guard has every field filled in |
| SignupForm.WizardInvariant | src/components/onboarding/SignupForm.tsx:52-67 | whatever the user does, the step never goes back and the wizard stays consistent |
| SignupForm.OnlyCompleteFormsHandedOn | src/components/onboarding/SignupForm.tsx:61-67 | from the empty form, whatever is handed to `onComplete` has every field filled in |
| AppFlow.GetStarted | src/pages/Index.tsx:13-15 | get-started moves to sign-up and keeps the data |
| AppFlow.SignupComplete | src/pages/Index.tsx:17-20 | completing sign-up stores the data and moves to the partner screen |
| AppFlow.PartnerConnected | src/pages/Index.tsx:22-24 | connecting moves to the dashboard and keeps the data |
| AppFlow.BackToWelcome | src/pages/Index.tsx:26-29 | going back returns to the initial state, with the data cleared |
| AppFlow.Render | src/pages/Index.tsx:33-53 | the page is blank exactly on the partner or dashboard state without data |
| AppFlow.HandleKeepsInvariant | src/pages/Index.tsx:13-53 | every event keeps "partner and dashboard have data, welcome has none" |
| AppFlow.InvariantAlong | src/pages/Index.tsx:13-53 | the invariant holds along any sequence of events |
| AppFlow.ReachableNeverBlank | src/pages/Index.tsx:13-55 | in every reachable state the partner and dashboard screens have the user's data, so the page is never blank |
| AppFlow.DashboardShowsSignupData | src/pages/Index.tsx:17-53 | the dashboard shows the data of a sign-up completion on the way, or the data already present on the partner screen |
| AppFlow.DashboardIsFinal | src/pages/Index.tsx:51-53 | no event leads away from the dashboard |
| ConnectPartner.InviteCode | src/components/onboarding/ConnectPartner.tsx:18 | the code is "LOVE", the upper-cased username and "2024"; with the model's length-keeping case mapping it is eight characters longer than the username |
| ConnectPartner.CodeCarriesUsername | src/components/onboarding/ConnectPartner.tsx:18 | the middle of the code is exactly the upper-cased username |
| ConnectPartner.CaseInsensitive | src/components/onboarding/ConnectPartner.tsx:18 | usernames that differ only in case give the same code |
| ConnectPartner.DistinctNamesDistinctCodes | src/components/onboarding/ConnectPartner.tsx:18 | usernames with different upper-case forms give different codes |
| ConnectPartner.InviteLink | src/components/onboarding/ConnectPartner.tsx:19 | the link is the join address followed by the code |
| ClassNames.FlattenConcat | src/components/ui/cva.ts:6 | `flat()` distributes over concatenation |
| ClassNames.Clsx | src/components/ui/cva.ts:4-9 | only falsy arguments give the empty class string, and a single string argument comes back as it is |
| ClassNames.Cva | src/components/ui/cva.ts:15-40 | without props the class string is the base class alone |
| ClassNames.FlattenWithoutLists | src/components/ui/cva.ts:6 | `flat()` leaves a list without arrays unchanged |
| ClassNames.DropsFalsy | src/components/ui/cva.ts:7 | a falsy argument anywhere contributes nothing to `clsx` |
| ClassNames.FlattensOneLevel | src/components/ui/cva.ts:6 | an array argument of plain values counts as its elements given one by one |
| ClassNames.DeeperArraysUseCommas | src/components/ui/cva.ts:6-8 | worked example: an array nested two levels is rendered with commas, not spaces |
| ClassNames.ClsxOfWords | src/components/ui/cva.ts:4-9 | non-empty space-free class names are joined in order with single spaces, and splitting the result at spaces gives them back |
| ClassNames.Chosen | src/components/ui/cva.ts:28 | a truthy prop wins, else the default, else nothing |
| ClassNames.VariantClasses | src/components/ui/cva.ts:27-32 | at most one class per variant table, never an empty one |
| ClassNames.VariantClassesFromTables | src/components/ui/cva.ts:29-30 | tables whose classes hold no space contribute only space-free classes |
| ClassNames.VariantClassesConcat | src/components/ui/cva.ts:27-32 | the tables contribute independently and in order |
| ClassNames.WithoutProps | src/components/ui/cva.ts:23 | without props the result is the base class |
| ClassNames.WithoutVariants | src/components/ui/cva.ts:23 | without variant tables the result is the base class followed by `className` |
| ClassNames.Layout | src/components/ui/cva.ts:25-38 | with space-free classes the result splits into the base first, the chosen variant classes in table order, and `className` last when given |
| ClassNames.EmptyPropFallsBack | src/components/ui/cva.ts:28 | an empty-string prop falls back to the default exactly as if it were not given |
| ClassNames.SameChoices | src/components/ui/cva.ts:28-31 | a variant prop set to the empty string picks the same classes as a prop left out |
| Tabs.InitialInternal | src/components/ui/tabs.tsx:18 | the internal value starts at the default value, or "" without one |
| Tabs.Current | src/components/ui/tabs.tsx:19 | a given value wins, even an empty one; otherwise the internal value |
| Tabs.HandleValueChange | src/components/ui/tabs.tsx:21-26 | the internal value changes only when uncontrolled, and the callback, when given, always receives the new value |
| Tabs.DataState | src/components/ui/tabs.tsx:59-70 | "active" exactly when the trigger's value is the current one, else "inactive" |
| Tabs.ClickEffects | src/components/ui/tabs.tsx:61-64 | a click runs the trigger's own `onClick`, when given, before the change |
| Tabs.UncontrolledClickSelects | src/components/ui/tabs.tsx:18-89 | uncontrolled, a click makes its trigger active and its panel the only one drawn |
| Tabs.ControlledClickOnlyReports | src/components/ui/tabs.tsx:19-26 | controlled, a click changes nothing drawn and only reports the value |
| Tabs.StartsOnDefault | src/components/ui/tabs.tsx:18-19 | before any click the uncontrolled tabs show the default value |
| Tabs.AtMostOnePanel | src/components/ui/tabs.tsx:86-89 | among panels with distinct values at most one is drawn |
| DayCount.Abs | src/components/features/PeriodTracker.tsx:22 | `Math.abs`: the distance from zero |
| DayCount.CeilDays | src/components/features/PeriodTracker.tsx:22-23 | the least number of whole days covering the gap |
| DayCount.FloorDays | src/components/Timeline.tsx:385 | the number of whole days that fit in the gap |
| DayCount.Symmetric | src/components/features/PeriodTracker.tsx:22 | the day count does not depend on which time comes first |
| DayCount.CeilIsFloorRoundedUp | src/components/features/PeriodTracker.tsx:23 | rounding up exceeds rounding down by one exactly when the gap is not a whole number of days |
| PeriodTracker.DaysSinceLastPeriod | src/components/features/PeriodTracker.tsx:20-24 | the least number of whole days covering the time since the last period (`Math.ceil`): never negative, enough to cover the gap, one fewer would not, and at least one once any time has passed |
| PeriodTracker.DaysUntilNext | src/components/features/PeriodTracker.tsx:26 | negative exactly when overdue, and together with the days since it makes up the cycle |
| PeriodTracker.PhaseOf | src/components/features/PeriodTracker.tsx:29-41 | menstrual up to day 5, follicular 6 to 13, ovulation 14 to 16, luteal after, each exactly on its range |
| PeriodTracker.PhaseMonotone | src/components/features/PeriodTracker.tsx:32-40 | a later day never maps to an earlier phase |
| PeriodTracker.PhasesAreIntervals | src/components/features/PeriodTracker.tsx:32-40 | a day between two days of the same phase has that phase |
| PeriodTracker.PhaseAdvancesWithTime | src/components/features/PeriodTracker.tsx:20-41 | a later reading of the clock never shows an earlier phase |
| EventFeed.FilterEvents | src/components/features/Timeline.tsx:90-92 | "all" shows every event, any other filter the events of that type |
| EventFeed.FilterByType | src/components/features/Timeline.tsx:90-92 | an event is shown exactly when its type matches, and the order is kept |
| EventFeed.EventIcon | src/components/features/Timeline.tsx:94-105 | letters and messages, and only they, share the message icon; gift, location, milestone and photo each get their own icon and no other type does; "mood" and every type without a case get the heart |
| EventFeed.EventColor | src/components/features/Timeline.tsx:107-116 | a special event is "romantic" whatever its type, no other event is, and unknown types get the muted colour |
| EventFeed.Bucket | src/components/features/Timeline.tsx:123-126 | 0 days is "Today", 1 "Yesterday", 2 to 6 "n days ago", a week or more the calendar date |
| EventFeed.FormatDate | src/components/features/Timeline.tsx:118-127 | as written, "Today" only for zero elapsed time, and the calendar date exactly when more than six whole days have passed |
| EventFeed.FormatDateRoundsUp | src/components/features/Timeline.tsx:118-127 | as written, "Today" appears only for the very same millisecond, and anything up to a day old reads "Yesterday" |
| EventFeed.FormatDateFixedCountsWholeDays | src/components/features/Timeline.tsx:118-127 | counting whole days, less than a day is "Today", one to two days "Yesterday", and n whole days "n days ago" |
| Dashboard.GreetingName | src/components/Dashboard.tsx:206-221 | the first space-separated word of a non-blank name, else of the metadata name, else the e-mail before '@', else "there" |
| Dashboard.GreetingIsOneWord | src/components/Dashboard.tsx:208-214 | a greeting taken from a name never contains a space |
| Dashboard.LeadingSpaceGreetsNobody | src/components/Dashboard.tsx:208-209 | a name starting with a space greets with the empty word, since it is split untrimmed |
| Dashboard.FirstUpper | src/components/Dashboard.tsx:238 | the first character upper-cased, or nothing for the empty string |
| Dashboard.AvatarInitial | src/components/Dashboard.tsx:236-247 | the first character of the name upper-cased, else of the metadata name, else of the e-mail, else "U"; with the model's one-to-one case mapping it is always one character |
| Dashboard.AvatarMatchesGreeting | src/components/Dashboard.tsx:206-247 | the avatar shows the greeting's first letter upper-cased whenever the greeting is a non-empty word |
| Dashboard.PartnerLabel | src/components/Dashboard.tsx:225-229 | the first word of a non-blank partner name, else the e-mail before '@' when not empty, else "your partner" |
| Dashboard.PartnerLabelWithoutName | src/components/Dashboard.tsx:225-229 | without a name the label is never empty, and an e-mail without '@' is used whole |
| Dashboard.MoodPayload | src/components/Dashboard.tsx:136-142 | a set activity wins over the mood in both the message and the status |
| Dashboard.MessageNamesStatus | src/components/Dashboard.tsx:139-141 | the message always contains the reported status in lower case |
| Dashboard.ActivityTiles | src/components/Dashboard.tsx:499-506 | with a partner, messages and gifts both ways; alone, check-ins and memories |
| Profile.JoinCodeInput | src/components/Profile.tsx:583 | each typed character upper-cased in place; in the model the code keeps its length and holds no lower-case ASCII letter |
| Profile.JoinGuard | src/components/Profile.tsx:138-141 | an error, and no request, exactly when the code is shorter than six UTF-16 units, including the empty code |
| Profile.EnabledConnectPassesGuard | src/components/Profile.tsx:138-141 | whenever the Connect button is enabled its click gets past the guard |
| Profile.SixCharactersSuffice | src/components/Profile.tsx:138-141 | six letters or digits, typed in either case, pass the guard |
| Profile.InviteButton | src/components/Profile.tsx:442-447 | an existing code is shown again, otherwise a new one is requested |
| Profile.SetNotification | src/components/Profile.tsx:697-699 | only the flipped switch changes |
| Profile.SwitchesKeepKeys | src/components/Profile.tsx:682-699 | switches drawn from the settings' own keys never add or drop a setting |
| Profile.UntouchedSwitchKept | src/components/Profile.tsx:682-699 | a switch nobody touches keeps its position |
| Chat.SendMessage | src/components/Chat.tsx:93-134 | a request is sent exactly when there is a partner and the message is not a blank text; a saved message is appended with the sender stamp, the input cleared and the palette closed; otherwise nothing changes |
| Chat.Sends | src/components/Chat.tsx:95 | nothing is sent without a partner; a sticker or other non-text message is sent whenever there is one; a text is sent exactly when it is not blank |
| Chat.SendOnlyAppends | src/components/Chat.tsx:130 | a send never changes or reorders the messages already shown |
| Chat.SendText | src/components/Chat.tsx:151-153 | a blank text sends nothing and changes nothing |
| Chat.SendSticker | src/components/Chat.tsx:155-157 | with a partner a sticker is sent with its label as content, the type "sticker" and its id; without one nothing is sent or changed |
| Chat.StickerEmoji | src/components/Chat.tsx:300 | never empty, and the fallback face for an id the palette does not have |
| Chat.Find | src/components/Chat.tsx:300 | the first sticker with the id gives its emoji, and a missing sticker or an empty emoji the fallback |
| Chat.PaletteStickersShowTheirEmoji | src/components/Chat.tsx:39-48 | every palette sticker is shown with its own emoji |
| Chat.SentMessageIsOwn | src/components/Chat.tsx:123-134 | a message one sends is drawn as one's own when the server records the sender |
| DemoChat.SendMessage | src/components/features/Chat.tsx:60-72 | a blank message does nothing; otherwise a text message from "me" is appended and the input cleared |
| DemoChat.SendMood | src/components/features/Chat.tsx:75-86 | a mood message with the emoji and empty text is appended, and the input is kept |
| DemoChat.OnlyAppends | src/components/features/Chat.tsx:60-86 | any sequence of sends keeps the old messages as a prefix, and everything added is from "me" |
| DemoChat.SentTextsAreNotBlank | src/components/features/Chat.tsx:61-65 | a sent text message is never blank |
| TimelineMemories.EventsWithImages | src/components/TimelineMemories.tsx:80 | exactly the events with a non-empty media list |
| TimelineMemories.GridKeepsOrder | src/components/TimelineMemories.tsx:80 | the grid keeps the events' order |
| TimelineMemories.PhotoCount | src/components/TimelineMemories.tsx:97 | the number above the grid is the number of events with photos |
| TimelineMemories.CountIsPerEvent | src/components/TimelineMemories.tsx:97 | one event with several photos counts once |
| TimelineMemories.Tile | src/components/TimelineMemories.tsx:128-137 | a grid tile shows the event's first photo and the several-photos badge exactly when it has more than one |
| TimelineMemories.Grid | src/components/TimelineMemories.tsx:128-137 | one tile per event with photos, in order |
| TimelineMemories.ListMedia | src/components/TimelineMemories.tsx:240-263 | the list view shows nothing exactly for an event without photos, and otherwise accounts for every photo |
| TimelineMemories.BadgeMatchesListLayout | src/components/TimelineMemories.tsx:240-263 | the grid's badge appears exactly when the list view uses the multi-photo grid |

## Findings

| source | as written | input that shows it | evidently intended | confidence | as-written member | corrected member |
|---|---|---|---|---|---|---|
| src/components/features/Timeline.tsx:120-121 | the day count rounds the elapsed time up | an event 1 ms old: the label is "Yesterday", and "Today" only ever appears for the very same millisecond | whole days elapsed, rounded down, as `formatEventDate` in src/components/Timeline.tsx:385 does | not executed | EventFeed.FormatDateRoundsUp | EventFeed.FormatDateFixedCountsWholeDays |

## Left out

- Network, database, storage and authentication calls: their answers are inputs (`Reply`, `Insert`, `Lookup`, the `sign` and `stored` functions, the signed-in user).
- Concurrency and timers: the parallel uploads, the 30-second abort, chat polling and the username debounce. Only the settled results are modelled, and a photo's slot is written only by its own upload.
- Image compression (`compressImage`): canvas and float scaling. Only the 2 MiB threshold that decides it is modelled. The code gives the image's loader no error handler; this model does not depend on it.
- The clock and locale formatting: `Date.now()`, `toLocaleDateString` and `toLocaleTimeString`, and the price's `toLocaleString`. Times are inputs in milliseconds. The "calendar date" label is a constant, and `formatMessageTime` is left out.
- Floating point: the cycle progress percentage and the progress bar. Product ratings are held in tenths of a star as integers. A NaN day count cannot occur from integer inputs.
- Browser side effects: local storage, clipboard and share, `alert`, revoking object URLs, and styling.
- `Strings.Lower`, `Strings.Upper`: only ASCII letters change case; JavaScript also maps other Unicode letters, and some of them change length (`"ß".toUpperCase()` is `"SS"`). The length-keeping clauses hold of the model only.
- `MemoryStorage.Sanitize`: characters are replaced one per Dafny character. JavaScript replaces each UTF-16 unit, so a supplementary character there becomes two '_'.
- `MemoryStorage.UploadMemoryImage`: the bucket is assumed to report the path it was given. The unused file-extension computation of memory-storage.tsx:76 is left out.
- `ServerRoutes.UploadImage`: the 500 reply for an exception is one `ServerError` without its message. A `memoryId` form field holding a file (which `formData.get` can return and the route uses as a string) is not modelled; the memory id is text or absent.
- `ServerRoutes.CheckUsername`: when the lookup throws, the route's `catch` answers 500 with `available: false` and "Internal server error checking username". Only the lookup's returned answers (a row, no row, or an error code) are modelled, not a thrown exception.
- `TimelineEndpoints.CreateEvent`: the 500 reply for a thrown exception (a body that is not JSON, or a title that is not a string) carries the prefix "Failed to create timeline event: " without the exception's own message, which comes from the runtime.
- `TimelineEndpoints.ProcessEvents`: a thrown exception while listing, which answers 500, is left out.
- `MemoryStorage.ResolveUrls`: when a storage call throws instead of returning an error, the source's `catch` gives `[]` for the whole list. The model has only the per-entry error, which skips that one entry, and does not model the thrown case.
- `GiftCart.CartTotal`, `GiftCart.ItemCount`: the sums are ghost definitions over the map, so the lemmas about them are specifications. Object key order is not modelled, and the sum's order is shown not to matter.
- `Sorting.SortBy`: ECMAScript's sort is stable. The contract states order and permutation but not stability.
- `GiftCatalogue.FilterProducts`: with no category and no query the source sorts the `products` state array itself in place, so the order ties keep on the next filtering depends on earlier sorts. The model sorts a copy and does not track that history; since ties are not ordered by the contract, nothing stated depends on it.
- `ClassNames.Cva`: props are modelled as string-valued only, and object arguments to `clsx` are not rendered.
- `Profile.JoinCodeInput`: the field's eight-character `maxLength` is enforced by the browser and left out. That the typed code keeps its length holds of the model's ASCII case mapping, not of JavaScript's `toUpperCase` on every letter.
- `ConnectPartner.InviteCode`: "eight characters longer than the username" holds of the model's case mapping; in JavaScript a username such as "ß" grows when upper-cased.
- `Dashboard.AvatarInitial`: "always one character" holds of the model's case mapping; in JavaScript upper-casing one character can give two.
- `PhotoRemoval.RemoveImage`: the photo list and the preview list lose the same position. Previews arrive from asynchronous reads that can finish out of order or deliver nothing, while the remove button passes a preview's position, so the removed photo need not be the one whose preview was shown. The model does not promise that they match.
- `Dashboard.FirstUpper`: `charAt(0)` of a supplementary character is half a surrogate pair; here it is the whole character.
- `TimelineMemories.PhotoCount`: the label says "photos" but counts events with photos. The source does this and the model keeps it; it is a wording choice, not a finding.
- `EventFeed.FormatDate`: as written, with the rounding the finding describes. The rest of the model uses neither version.

=== FILE: add_memory.dfy ===
/**
 * The "add memory" sheet of the timeline screen (src/components/Timeline.tsx):
 * choosing at most five photos, removing one photo together with its preview and its
 * progress entry, the per-photo progress codes of an upload, reducing the settled
 * uploads to the list of URLs, classifying the batch, and the submit guard, request
 * and state change. Uploads themselves are outside the model: each photo's upload
 * arrives as an `UploadOutcome`.
 */
module AddMemory {
  import opened Optional
  import opened Strings
  import opened Seqs
  import Identity
  import MemoryStorage

  const MaxImages: nat := 5

  /** Photos larger than this many bytes are re-encoded before upload. */
  const CompressThreshold: int := 2 * 1024 * 1024

  function Min(a: int, b: int): int {
    if a <= b then a else b
  }

  // ---------------------------------------------------------------------------
  // Selecting and removing photos

  /** `handleImageSelect`: an empty selection changes nothing; otherwise at most five of the
      new files are appended and the list is cut to five. Existing photos keep their places. */
  function SelectImages<F>(prev: seq<F>, files: seq<F>): (r: seq<F>)
    ensures |files| == 0 ==> r == prev
    ensures |files| > 0 ==> |r| == Min(MaxImages, |prev| + Min(MaxImages, |files|))
    ensures |files| > 0 ==> |r| <= MaxImages
    ensures forall i :: 0 <= i < |r| && i < |prev| ==> r[i] == prev[i]
    ensures forall i :: |prev| <= i < |r| ==> r[i] == files[i - |prev|]
  {
    if |files| == 0 then prev else Take(prev + Take(files, MaxImages), MaxImages)
  }

  /** A file read's `onload`: a delivered data URL is appended and the list is cut to five;
      a read that delivers nothing (`None`, or an empty result) leaves the list alone. */
  function AddPreview(prev: seq<string>, result: Option<string>): (r: seq<string>)
    ensures (result.None? || result.value == "") ==> r == prev
    ensures result.Some? && result.value != "" ==> |r| == Min(MaxImages, |prev| + 1)
    ensures result.Some? && result.value != "" && |prev| < MaxImages ==> r == prev + [result.value]
    ensures result.Some? && result.value != "" && |prev| >= MaxImages ==> r == prev[..MaxImages]
  {
    if result.None? || result.value == "" then prev else Take(prev + [result.value], MaxImages)
  }

  // ---------------------------------------------------------------------------
  // Uploading

  predicate NeedsCompression(size: int)
    ensures size > MemoryStorage.MaxImageBytes ==> NeedsCompression(size)
  {
    size > CompressThreshold
  }

  /** How one photo's upload settled: a URL from an ok response, a non-ok response, an ok
      response whose body could not be read, or an exception (abort on the 30-second
      timeout, network failure). */
  datatype UploadOutcome = Delivered(url: string) | Refused | Unreadable | Aborted

  /** The progress values written to one photo's slot, in order. The codes before the last
      step are 0, 10 (only when compressing), 20, 30 and 80; the last is 100 or -1. */
  function ProgressTrace(size: int, outcome: UploadOutcome): (trace: seq<int>)
    ensures |trace| >= 4 && trace[0] == 0
    ensures 10 in trace <==> NeedsCompression(size)
    ensures trace[|trace| - 1] == (if outcome.Delivered? then 100 else -1)
    ensures forall i, j :: 0 <= i < j < |trace| - 1 ==> trace[i] < trace[j]
    ensures forall i :: 0 <= i < |trace| - 1 ==> 0 <= trace[i] < 100
  {
    var start := [0] + (if NeedsCompression(size) then [10] else []) + [20, 30];
    start + match outcome
      case Delivered(_) => [80, 100]
      case Refused => [80, -1]
      case Unreadable => [80, -1]
      case Aborted => [-1]
  }

  /** What one upload contributes to `Promise.all`: its URL or null. */
  function SlotResult(outcome: UploadOutcome): (r: Option<string>)
    ensures r.Some? <==> outcome.Delivered?
  {
    if outcome.Delivered? then Some(outcome.url) else None
  }

  /** The progress map once every upload of the batch has settled. Each slot is written
      only by its own upload, so the final value of slot `i` is the last step of its trace. */
  function FinalProgress(sizes: seq<int>, outcomes: seq<UploadOutcome>): (m: map<int, int>)
    requires |sizes| == |outcomes|
    ensures forall i :: i in m <==> 0 <= i < |outcomes|
    ensures forall i :: 0 <= i < |outcomes| ==> (m[i] == 100 <==> outcomes[i].Delivered?)
    ensures forall i :: 0 <= i < |outcomes| ==> (m[i] == -1 <==> !outcomes[i].Delivered?)
  {
    map i | 0 <= i < |outcomes| :: var t := ProgressTrace(sizes[i], outcomes[i]); t[|t| - 1]
  }

  datatype ProgressLabel = Failed | Done | Percent(value: int)

  /** The text beside a photo's bar: `progress = uploadProgress[index] || 0`, then -1 reads
      "Failed", 100 reads "Done", anything else its percentage. */
  function LabelFor(progress: map<int, int>, index: int): (l: ProgressLabel)
    ensures index !in progress ==> l == Percent(0)
    ensures index in progress && progress[index] == -1 <==> l.Failed?
    ensures index in progress && progress[index] == 100 <==> l.Done?
  {
    var p := if index in progress then progress[index] else 0;
    if p == -1 then Failed else if p == 100 then Done else Percent(p)
  }

  /** After a batch settles, every photo reads either "Done" or "Failed", according to
      whether its upload delivered a URL. */
  lemma LabelsAfterBatch(sizes: seq<int>, outcomes: seq<UploadOutcome>, i: int)
    requires |sizes| == |outcomes| && 0 <= i < |outcomes|
    ensures LabelFor(FinalProgress(sizes, outcomes), i) == (if outcomes[i].Delivered? then Done else Failed)
  {
  }

  /** The URL list: the results with every null dropped, in the photos' order. */
  function CollectUrls(results: seq<Option<string>>): (urls: seq<string>)
    ensures |urls| <= |results|
  {
    if |results| == 0 then []
    else (if results[0].Some? then [results[0].value] else []) + CollectUrls(results[1..])
  }

  /** Every upload delivered exactly when nothing was dropped, and none did exactly when
      nothing was kept. */
  lemma {:induction false} CollectUrlsCount(results: seq<Option<string>>)
    ensures |CollectUrls(results)| == |results| <==> forall i :: 0 <= i < |results| ==> results[i].Some?
    ensures |CollectUrls(results)| == 0 <==> forall i :: 0 <= i < |results| ==> results[i].None?
    decreases |results|
  {
    if |results| > 0 {
      var rest := results[1..];
      CollectUrlsCount(rest);
      assert forall i :: 1 <= i < |results| ==> results[i] == rest[i - 1];
      assert forall i :: 0 <= i < |rest| ==> rest[i] == results[i + 1];
    }
  }

  /** A URL is collected exactly when some upload delivered it. */
  lemma {:induction false} CollectUrlsMembers(results: seq<Option<string>>, u: string)
    ensures u in CollectUrls(results) <==> Some(u) in results
    decreases |results|
  {
    if |results| > 0 {
      CollectUrlsMembers(results[1..], u);
      assert results == [results[0]] + results[1..];
    }
  }

  /** The URL list keeps the order of the photos: collecting distributes over concatenation. */
  lemma {:induction false} CollectUrlsConcat(a: seq<Option<string>>, b: seq<Option<string>>)
    ensures CollectUrls(a + b) == CollectUrls(a) + CollectUrls(b)
    decreases |a|
  {
    if |a| == 0 {
      assert a + b == b;
    } else {
      CollectUrlsConcat(a[1..], b);
      assert (a + b)[0] == a[0];
      assert (a + b)[1..] == a[1..] + b;
      var head := if a[0].Some? then [a[0].value] else [];
      assert CollectUrls(a + b) == head + CollectUrls(a[1..] + b);
      assert CollectUrls(a) == head + CollectUrls(a[1..]);
      assert head + (CollectUrls(a[1..]) + CollectUrls(b)) == (head + CollectUrls(a[1..])) + CollectUrls(b);
    }
  }

  datatype BatchOutcome = AllUploaded | SomeUploaded(uploaded: nat, selected: nat) | NoneUploaded

  /** The status line after the batch, checked in the source's order. */
  function Classify(uploaded: nat, selected: nat): (o: BatchOutcome)
    ensures o == AllUploaded <==> uploaded == selected
    ensures o == NoneUploaded <==> uploaded == 0 && selected != 0
    ensures o.SomeUploaded? ==> 0 < o.uploaded && o.uploaded != o.selected
  {
    if uploaded == selected then AllUploaded
    else if uploaded > 0 then SomeUploaded(uploaded, selected)
    else NoneUploaded
  }

  /** For a non-empty batch the three outcomes mean: every upload delivered, some but not
      all did, none did. */
  lemma ClassifyBatch(outcomes: seq<UploadOutcome>)
    requires |outcomes| > 0
    ensures var results := seq(|outcomes|, i requires 0 <= i < |outcomes| => SlotResult(outcomes[i]));
            var c := Classify(|CollectUrls(results)|, |outcomes|);
            && (c.AllUploaded? <==> forall i :: 0 <= i < |outcomes| ==> outcomes[i].Delivered?)
            && (c.NoneUploaded? <==> forall i :: 0 <= i < |outcomes| ==> !outcomes[i].Delivered?)
            && (c.SomeUploaded? ==> 0 < c.uploaded < c.selected == |outcomes|)
  {
    var results := seq(|outcomes|, i requires 0 <= i < |outcomes| => SlotResult(outcomes[i]));
    assert forall i :: 0 <= i < |outcomes| ==> (results[i].Some? <==> outcomes[i].Delivered?);
    CollectUrlsCount(results);
  }

  // ---------------------------------------------------------------------------
  // Submitting

  datatype Draft = Draft(title: string, description: string, eventDate: string, locationName: string, kind: string)

  /** The JSON body posted to create the event; `locationName` is omitted when empty. */
  datatype CreateRequest = CreateRequest(
    eventType: string,
    title: string,
    description: string,
    eventDate: string,
    locationName: Option<string>,
    isMilestone: bool,
    mediaUrls: seq<string>,
    isPrivate: bool)

  /** The guard and the request body of `handleAddMemory`. A blank title or description
      stops everything before any upload starts; otherwise the fields go out untrimmed. */
  function BuildRequest(draft: Draft, urls: seq<string>): (r: Option<CreateRequest>)
    ensures r.None? <==> IsBlank(draft.title) || IsBlank(draft.description)
    ensures r.Some? ==> (r.value.isMilestone <==> draft.kind == "milestone")
    ensures r.Some? ==> r.value.mediaUrls == urls && !r.value.isPrivate
    ensures r.Some? ==> r.value.title == draft.title && r.value.description == draft.description
    ensures r.Some? ==> (r.value.locationName.None? <==> draft.locationName == "")
  {
    if IsBlank(draft.title) || IsBlank(draft.description) then None
    else Some(CreateRequest(
      draft.kind, draft.title, draft.description, draft.eventDate,
      if draft.locationName == "" then None else Some(draft.locationName),
      draft.kind == "milestone", urls, false))
  }

  /** A timeline entry as the screen holds it. */
  datatype Event = Event(id: string, title: string, mediaUrls: seq<string>, createdBy: Identity.Stamp)

  datatype Sheet = Sheet(draft: Draft, images: seq<string>, previews: seq<string>, progress: map<int, int>, open: bool)

  datatype Screen = Screen(events: seq<Event>, sheet: Sheet)

  function EmptyDraft(today: string): Draft {
    Draft("", "", today, "", "memory")
  }

  /** The end of `handleAddMemory`. When the server returns the created event, it is put at
      the top of the list with the uploaded URLs and the creator stamp, and the sheet is reset
      and closed; otherwise nothing visible changes and the draft stays for another try. */
  function AfterCreate(screen: Screen, urls: seq<string>, user: Option<Identity.User>,
                       created: Option<Event>, today: string): (s: Screen)
    ensures created.None? ==> s == screen
    ensures created.Some? ==> |s.events| == |screen.events| + 1 && s.events[1..] == screen.events
    ensures created.Some? ==> s.events[0].id == created.value.id && s.events[0].mediaUrls == urls
    ensures created.Some? ==> s.events[0].createdBy == Identity.StampFor(user)
    ensures created.Some? ==>
              s.events[0].(mediaUrls := created.value.mediaUrls, createdBy := created.value.createdBy) == created.value
    ensures created.Some? ==> s.sheet == Sheet(EmptyDraft(today), [], [], map[], false)
  {
    match created
    case None => screen
    case Some(e) =>
      var shown := e.(mediaUrls := urls, createdBy := Identity.StampFor(user));
      Screen([shown] + screen.events, Sheet(EmptyDraft(today), [], [], map[], false))
  }

  lemma CollectOneGap(u1: string, u3: string)
    ensures CollectUrls([Some(u1), None, Some(u3)]) == [u1, u3]
  {
    var tail := [None, Some(u3)];
    assert [Some(u3)][1..] == [];
    assert tail[1..] == [Some(u3)];
    assert CollectUrls(tail) == [u3];
    assert [Some(u1), None, Some(u3)][1..] == tail;
  }

  /** Three photos of which two upload: the request carries exactly those two URLs, in order. */
  lemma TwoOfThreeUploaded(draft: Draft, u1: string, u3: string)
    requires !IsBlank(draft.title) && !IsBlank(draft.description)
    ensures var results := [SlotResult(Delivered(u1)), SlotResult(Aborted), SlotResult(Delivered(u3))];
            var r := BuildRequest(draft, CollectUrls(results));
            r.Some? && r.value.mediaUrls == [u1, u3]
  {
    var results := [SlotResult(Delivered(u1)), SlotResult(Aborted), SlotResult(Delivered(u3))];
    assert results == [Some(u1), None, Some(u3)];
    CollectOneGap(u1, u3);
  }
}

=== FILE: app_flow.dfy ===
/**
 * The top-level page (src/pages/Index.tsx): the four app states, the handlers that move
 * between them, and which screen is drawn for each.
 */
module AppFlow {
  import opened Optional
  import SignupForm

  datatype AppState = Welcome | Signup | Connect | Dashboard

  datatype App = App(state: AppState, userData: Option<SignupForm.UserData>)

  const Initial: App := App(Welcome, None)

  /** `handleGetStarted`. */
  function GetStarted(a: App): (r: App)
    ensures r.state == Signup && r.userData == a.userData
  {
    a.(state := Signup)
  }

  /** `handleSignupComplete(data)`: the data is kept and the partner screen comes next. */
  function SignupComplete(a: App, data: SignupForm.UserData): (r: App)
    ensures r == App(Connect, Some(data))
  {
    App(Connect, Some(data))
  }

  /** `handlePartnerConnected`. */
  function PartnerConnected(a: App): (r: App)
    ensures r.state == Dashboard && r.userData == a.userData
  {
    a.(state := Dashboard)
  }

  /** `handleBackToWelcome`: back to the start, forgetting the data. */
  function BackToWelcome(a: App): (r: App)
    ensures r == Initial
  {
    App(Welcome, None)
  }

  /** The screen drawn for a state: the partner and dashboard screens need the user data and
      draw nothing without it. */
  datatype Screen = WelcomeScreen | SignupScreen | ConnectScreen(d: SignupForm.UserData)
                  | DashboardScreen(d: SignupForm.UserData) | Blank

  function Render(a: App): (s: Screen)
    ensures s.Blank? <==> (a.state == Connect || a.state == Dashboard) && a.userData.None?
  {
    match a.state
    case Welcome => WelcomeScreen
    case Signup => SignupScreen
    case Connect => if a.userData.Some? then ConnectScreen(a.userData.value) else Blank
    case Dashboard => if a.userData.Some? then DashboardScreen(a.userData.value) else Blank
  }

  /** What the drawn screen can do: each handler is passed only to the screen that calls it. */
  datatype Event = GetStartedPressed | SignupCompleted(data: SignupForm.UserData) | BackPressed | Connected

  function Handle(a: App, e: Event): App {
    match (Render(a), e)
    case (WelcomeScreen, GetStartedPressed) => GetStarted(a)
    case (SignupScreen, SignupCompleted(data)) => SignupComplete(a, data)
    case (SignupScreen, BackPressed) => BackToWelcome(a)
    case (ConnectScreen(_), Connected) => PartnerConnected(a)
    case _ => a
  }

  function HandleAll(a: App, events: seq<Event>): App
    decreases |events|
  {
    if |events| == 0 then a else HandleAll(Handle(a, events[0]), events[1..])
  }

  /** The data is present on the partner and dashboard screens, and absent on the welcome
      screen. */
  predicate Invariant(a: App) {
    && ((a.state == Connect || a.state == Dashboard) ==> a.userData.Some?)
    && (a.state == Welcome ==> a.userData.None?)
  }

  /** Every event keeps the invariant. */
  lemma HandleKeepsInvariant(a: App, e: Event)
    requires Invariant(a)
    ensures Invariant(Handle(a, e))
  {
  }

  /** In every state the app can reach, the partner and dashboard screens have the user's
      data, so the page is never blank. */
  lemma {:induction false} ReachableNeverBlank(events: seq<Event>)
    ensures Invariant(HandleAll(Initial, events))
    ensures !Render(HandleAll(Initial, events)).Blank?
  {
    InvariantAlong(Initial, events);
  }

  lemma {:induction false} InvariantAlong(a: App, events: seq<Event>)
    requires Invariant(a)
    ensures Invariant(HandleAll(a, events))
    decreases |events|
  {
    if |events| > 0 {
      HandleKeepsInvariant(a, events[0]);
      InvariantAlong(Handle(a, events[0]), events[1..]);
    }
  }

  /** The dashboard is reached only through the sign-up and partner screens: the data it
      shows is what one of the sign-up completions on the way handed on, or, when the walk
      starts on the partner screen, the data already there. */
  lemma {:induction false} DashboardShowsSignupData(a: App, events: seq<Event>)
    requires Invariant(a)
    requires a.state != Dashboard
    requires HandleAll(a, events).state == Dashboard
    ensures || (exists k :: 0 <= k < |events| && events[k].SignupCompleted?
                           && HandleAll(a, events).userData == Some(events[k].data))
            || (a.state == Connect && HandleAll(a, events).userData == a.userData)
    decreases |events|
  {
    if |events| == 0 {
    } else {
      var next := Handle(a, events[0]);
      if next.state == Dashboard {
        assert HandleAll(a, events) == next by {
          DashboardIsFinal(next, events[1..]);
        }
      } else {
        DashboardShowsSignupData(next, events[1..]);
        if next.state == Connect && HandleAll(next, events[1..]).userData == next.userData {
          if a.state == Signup && events[0].SignupCompleted? {
            assert events[0].data == next.userData.value;
          }
        } else {
          var k :| 0 <= k < |events| - 1 && events[1..][k].SignupCompleted?
                   && HandleAll(next, events[1..]).userData == Some(events[1..][k].data);
          assert events[k + 1] == events[1..][k];
        }
      }
    }
  }

  /** No screen leads away from the dashboard. */
  lemma {:induction false} DashboardIsFinal(a: App, events: seq<Event>)
    requires a.state == Dashboard
    ensures HandleAll(a, events) == a
    decreases |events|
  {
    if |events| > 0 {
      assert Handle(a, events[0]) == a;
      DashboardIsFinal(a, events[1..]);
    }
  }
}

=== FILE: chat.dfy ===
/**
 * The couple's chat (src/components/Chat.tsx): when a message is sent, what the request
 * carries, how the sent message joins the list, and how stickers and ownership are shown.
 * The server's answer is an input.
 */
module Chat {
  import opened Optional
  import opened Strings
  import Identity

  datatype Sticker = Sticker(id: string, emoji: string, name: string)

  /** The sticker palette. */
  const MoodStickers: seq<Sticker> := [
    Sticker("happy", "\U{1F60A}", "Happy"),
    Sticker("love", "\U{1F495}", "Love"),
    Sticker("kiss", "\U{1F618}", "Kiss"),
    Sticker("hug", "\U{1F917}", "Hug"),
    Sticker("excited", "\U{1F929}", "Excited"),
    Sticker("heart_eyes", "\U{1F60D}", "Heart Eyes"),
    Sticker("thinking", "\U{1F914}", "Thinking"),
    Sticker("sleepy", "\U{1F634}", "Sleepy")
  ]

  const FallbackEmoji: string := "\U{1F60A}"

  /** The body of the send request. */
  datatype MessageRequest = MessageRequest(content: string, kind: string, mediaUrl: Option<string>, stickerId: Option<string>)

  /** A message in the list; `sender` is what the client attaches to its own sent messages. */
  datatype Message = Message(id: string, senderId: string, kind: string, content: string,
                             stickerId: Option<string>, sender: Option<Identity.Stamp>)

  /** `sendMessage`'s guard: nothing is sent without a partner, nor a text message that is
      blank once trimmed. Other kinds may have empty content. */
  predicate Sends(content: string, kind: string, hasPartner: bool)
    ensures Sends(content, kind, hasPartner) ==> hasPartner
    ensures kind != "text" ==> (Sends(content, kind, hasPartner) <==> hasPartner)
    ensures kind == "text" && hasPartner ==> (Sends(content, kind, hasPartner) <==> Trim(content) != "")
  {
    hasPartner && !(IsBlank(content) && kind == "text")
  }

  /** How the send request settled. */
  datatype Reply = Saved(message: Message) | Refused | Thrown

  datatype ChatState = ChatState(messages: seq<Message>, newMessage: string, showStickers: bool)

  /** `sendMessage`: the request sent, if any, and the state afterwards. A saved message is
      appended with the sender's details; the input is cleared and the palette closed. A
      refused or failed send changes nothing. */
  function SendMessage(s: ChatState, content: string, kind: string, mediaUrl: Option<string>,
                       stickerId: Option<string>, hasPartner: bool, user: Option<Identity.User>,
                       reply: Reply): (r: (Option<MessageRequest>, ChatState))
    ensures r.0.Some? <==> Sends(content, kind, hasPartner)
    ensures r.0.Some? ==> r.0.value == MessageRequest(content, kind, mediaUrl, stickerId)
    ensures !Sends(content, kind, hasPartner) || !reply.Saved? ==> r.1 == s
    ensures Sends(content, kind, hasPartner) && reply.Saved? ==>
              && r.1.messages == s.messages + [reply.message.(sender := Some(Identity.StampFor(user)))]
              && r.1.newMessage == "" && !r.1.showStickers
  {
    if !Sends(content, kind, hasPartner) then (None, s)
    else
      var request := MessageRequest(content, kind, mediaUrl, stickerId);
      match reply
      case Saved(m) =>
        (Some(request), ChatState(s.messages + [m.(sender := Some(Identity.StampFor(user)))], "", false))
      case _ => (Some(request), s)
  }

  /** A send never changes or reorders the messages already shown. */
  lemma SendOnlyAppends(s: ChatState, content: string, kind: string, mediaUrl: Option<string>,
                        stickerId: Option<string>, hasPartner: bool, user: Option<Identity.User>, reply: Reply)
    ensures var after := SendMessage(s, content, kind, mediaUrl, stickerId, hasPartner, user, reply).1;
            s.messages <= after.messages && |after.messages| <= |s.messages| + 1
  {
  }

  /** `handleSendText`. */
  function SendText(s: ChatState, hasPartner: bool, user: Option<Identity.User>, reply: Reply): (r: (Option<MessageRequest>, ChatState))
    ensures IsBlank(s.newMessage) ==> r == (None, s)
  {
    SendMessage(s, s.newMessage, "text", None, None, hasPartner, user, reply)
  }

  /** `handleSendSticker`: the label as content, the kind "sticker" and the sticker's id. */
  function SendSticker(s: ChatState, sticker: Sticker, hasPartner: bool, user: Option<Identity.User>,
                       reply: Reply): (r: (Option<MessageRequest>, ChatState))
    ensures hasPartner ==> r.0 == Some(MessageRequest(sticker.name, "sticker", None, Some(sticker.id)))
    ensures !hasPartner ==> r == (None, s)
  {
    SendMessage(s, sticker.name, "sticker", None, Some(sticker.id), hasPartner, user, reply)
  }

  /** The emoji a sticker message shows: the palette's emoji for its id, or the smiling face
      for an id the palette does not have. */
  function StickerEmoji(stickerId: Option<string>): (e: string)
    ensures e != ""
    ensures (stickerId.None? || forall i :: 0 <= i < |MoodStickers| ==> MoodStickers[i].id != stickerId.value) ==> e == FallbackEmoji
  {
    Find(MoodStickers, stickerId)
  }

  /** The first sticker with the id, if any, gives its emoji; a missing sticker or an empty
      emoji gives the fallback. */
  function Find(stickers: seq<Sticker>, stickerId: Option<string>): (e: string)
    ensures e != ""
    ensures (stickerId.None? || forall i :: 0 <= i < |stickers| ==> stickers[i].id != stickerId.value) ==> e == FallbackEmoji
    ensures forall i :: (0 <= i < |stickers| && stickerId == Some(stickers[i].id)
                         && forall j :: 0 <= j < i ==> stickers[j].id != stickers[i].id) ==>
                        e == (if stickers[i].emoji != "" then stickers[i].emoji else FallbackEmoji)
    decreases |stickers|
  {
    if |stickers| == 0 then FallbackEmoji
    else if stickerId == Some(stickers[0].id) then
      (if stickers[0].emoji != "" then stickers[0].emoji else FallbackEmoji)
    else Find(stickers[1..], stickerId)
  }

  /** Every sticker on the palette is shown with its own emoji. */
  lemma PaletteStickersShowTheirEmoji(i: nat)
    requires i < |MoodStickers|
    ensures StickerEmoji(Some(MoodStickers[i].id)) == MoodStickers[i].emoji
  {
    var s := MoodStickers[i];
    assert s.emoji != "";
    forall j | 0 <= j < i
      ensures MoodStickers[j].id != s.id
    {
      PaletteIdsDistinct(j, i);
    }
  }

  /** No two palette stickers share an id: their lengths or first letters differ. */
  lemma PaletteIdsDistinct(j: nat, k: nat)
    requires j < k < |MoodStickers|
    ensures MoodStickers[j].id != MoodStickers[k].id
  {
    var a, b := MoodStickers[j].id, MoodStickers[k].id;
    assert |a| != |b| || a[0] != b[0];
  }

  /** A message is drawn as one's own exactly when its sender is the signed-in user. */
  predicate IsOwn(m: Message, userId: string) {
    m.senderId == userId
  }

  /** The messages one sends are drawn as one's own, when the server records the sender. */
  lemma SentMessageIsOwn(s: ChatState, content: string, kind: string, hasPartner: bool,
                         u: Identity.User, m: Message)
    requires Sends(content, kind, hasPartner) && m.senderId == u.id
    ensures var after := SendMessage(s, content, kind, None, None, hasPartner, Some(u), Saved(m)).1;
            IsOwn(after.messages[|after.messages| - 1], u.id)
            && after.messages[|after.messages| - 1].sender.value.id == Some(u.id)
  {
  }
}

=== FILE: class_names.dfy ===
/**
 * The class-name helpers (src/components/ui/cva.ts): `clsx`, which flattens its arguments
 * one level, drops the falsy ones and joins the rest with spaces, and `cva`, which builds a
 * class list from a base class, a variant table with defaults, and the caller's props.
 */
module ClassNames {
  import opened Optional
  import opened Strings
  import opened Seqs

  // ---------------------------------------------------------------------------
  // clsx

  /** The values a class argument can take. */
  datatype ClassValue =
    | Str(s: string)
    | Num(n: int)
    | Flag(b: bool)
    | Undefined
    | Null
    | List(items: seq<ClassValue>)
    | Obj

  /** `Boolean(v)`; `NaN` is not modelled. */
  predicate Truthy(v: ClassValue) {
    match v
    case Str(s) => s != ""
    case Num(n) => n != 0
    case Flag(b) => b
    case Undefined => false
    case Null => false
    case List(_) => true
    case Obj => true
  }

  function IntToString(n: int): string {
    if n < 0 then "-" + NatToString(-n) else NatToString(n)
  }

  /** How `Array.prototype.join` renders an element: `null` and `undefined` as nothing, an
      array as its elements joined with commas, an object as `[object Object]`. */
  function Text(v: ClassValue): string
    decreases v
  {
    match v
    case Str(s) => s
    case Num(n) => IntToString(n)
    case Flag(b) => if b then "true" else "false"
    case Undefined => ""
    case Null => ""
    case List(items) => Join(Texts(items), ',')
    case Obj => "[object Object]"
  }

  function Texts(vs: seq<ClassValue>): (r: seq<string>)
    ensures |r| == |vs|
    ensures forall i :: 0 <= i < |vs| ==> r[i] == Text(vs[i])
    decreases vs
  {
    if |vs| == 0 then [] else [Text(vs[0])] + Texts(vs[1..])
  }

  /** `Array.prototype.flat()`: the elements of each array argument are spliced in; arrays
      nested deeper stay arrays. */
  function Flatten(vs: seq<ClassValue>): seq<ClassValue>
    decreases |vs|
  {
    if |vs| == 0 then []
    else (if vs[0].List? then vs[0].items else [vs[0]]) + Flatten(vs[1..])
  }

  /** `clsx(...classes)`: nothing but falsy arguments gives the empty class string, and a
      single string argument comes back as it is. */
  function Clsx(classes: seq<ClassValue>): (r: string)
    ensures (forall i :: 0 <= i < |classes| ==> !Truthy(classes[i])) ==> r == ""
    ensures |classes| == 1 && classes[0].Str? ==> r == classes[0].s
  {
    NothingTruthy(classes);
    OneString(classes);
    Join(Texts(Filter(Flatten(classes), Truthy)), ' ')
  }

  /** A single string argument is its own flattening, kept when non-empty. */
  lemma OneString(classes: seq<ClassValue>)
    ensures |classes| == 1 && classes[0].Str? ==> Join(Texts(Filter(Flatten(classes), Truthy)), ' ') == classes[0].s
  {
    if |classes| == 1 && classes[0].Str? {
      var c := classes[0];
      assert classes[1..] == [];
      assert Flatten(classes) == [c];
      assert [c][1..] == [];
      var kept := Filter([c], Truthy);
      assert kept == (if Truthy(c) then [c] else []);
      if Truthy(c) {
        assert Texts(kept) == [c.s];
      } else {
        assert c.s == "";
      }
    }
  }

  /** Falsy arguments are never arrays, so flattening keeps them and filtering drops all. */
  lemma NothingTruthy(classes: seq<ClassValue>)
    ensures (forall i :: 0 <= i < |classes| ==> !Truthy(classes[i])) ==> Filter(Flatten(classes), Truthy) == []
  {
    if forall i :: 0 <= i < |classes| ==> !Truthy(classes[i]) {
      FlattenWithoutLists(classes);
      FilterKeepsNone(classes, Truthy);
    }
  }

  lemma {:induction false} FlattenConcat(a: seq<ClassValue>, b: seq<ClassValue>)
    ensures Flatten(a + b) == Flatten(a) + Flatten(b)
    decreases |a|
  {
    if |a| == 0 {
      assert a + b == b;
    } else {
      FlattenConcat(a[1..], b);
      assert (a + b)[0] == a[0];
      assert (a + b)[1..] == a[1..] + b;
      var head := if a[0].List? then a[0].items else [a[0]];
      assert Flatten(a + b) == head + Flatten(a[1..] + b);
      assert Flatten(a) == head + Flatten(a[1..]);
      assert head + (Flatten(a[1..]) + Flatten(b)) == (head + Flatten(a[1..])) + Flatten(b);
    }
  }

  lemma {:induction false} FlattenWithoutLists(vs: seq<ClassValue>)
    requires forall i :: 0 <= i < |vs| ==> !vs[i].List?
    ensures Flatten(vs) == vs
    decreases |vs|
  {
    if |vs| > 0 {
      FlattenWithoutLists(vs[1..]);
      assert [vs[0]] + vs[1..] == vs;
    }
  }

  /** A falsy argument anywhere contributes nothing. */
  lemma DropsFalsy(a: seq<ClassValue>, v: ClassValue, b: seq<ClassValue>)
    requires !Truthy(v)
    ensures Clsx(a + [v] + b) == Clsx(a + b)
  {
    var fa, fb := Flatten(a), Flatten(b);
    FlattenWithoutLists([v]);
    assert Flatten(a + [v]) == fa + [v] by {
      FlattenConcat(a, [v]);
    }
    assert Flatten(a + [v] + b) == (fa + [v]) + fb by {
      FlattenConcat(a + [v], b);
    }
    assert Flatten(a + b) == fa + fb by {
      FlattenConcat(a, b);
    }
    assert Filter(fa + [v], Truthy) == Filter(fa, Truthy) by {
      FilterConcat(fa, [v], Truthy);
      assert Filter([v], Truthy) == [];
    }
    FilterConcat(fa + [v], fb, Truthy);
    FilterConcat(fa, fb, Truthy);
  }

  /** An array argument whose elements are not arrays counts as its elements given one by
      one. */
  lemma FlattensOneLevel(a: seq<ClassValue>, items: seq<ClassValue>, b: seq<ClassValue>)
    requires forall i :: 0 <= i < |items| ==> !items[i].List?
    ensures Clsx(a + [List(items)] + b) == Clsx(a + items + b)
  {
    FlattenConcat(a + [List(items)], b);
    FlattenConcat(a, [List(items)]);
    FlattenConcat(a + items, b);
    FlattenConcat(a, items);
    FlattenWithoutLists(items);
    assert Flatten([List(items)]) == items;
  }

  /** An array nested two levels deep is not flattened: it is rendered with commas. */
  lemma DeeperArraysUseCommas()
    ensures Clsx([List([List([Str("a"), Str("b")])])]) == "a,b"
  {
    var inner := List([Str("a"), Str("b")]);
    assert Flatten([List([inner])]) == [inner];
    assert Filter([inner], Truthy) == [inner];
    assert Texts([Str("a"), Str("b")]) == ["a", "b"];
  }

  function Strs(words: seq<string>): (r: seq<ClassValue>)
    ensures |r| == |words|
    ensures forall i :: 0 <= i < |r| ==> r[i] == Str(words[i])
  {
    seq(|words|, i requires 0 <= i < |words| => Str(words[i]))
  }

  /** Plain class names render as themselves. */
  lemma TextsOfStrs(words: seq<string>)
    ensures Texts(Strs(words)) == words
  {
    var vs := Strs(words);
    forall i | 0 <= i < |words|
      ensures Texts(vs)[i] == words[i]
    {
      assert vs[i] == Str(words[i]);
    }
  }

  /** Plain class names are joined in order with single spaces, and splitting the result at
      the spaces gives them back. */
  lemma ClsxOfWords(words: seq<string>)
    requires |words| >= 1
    requires forall i :: 0 <= i < |words| ==> words[i] != "" && ' ' !in words[i]
    ensures Clsx(Strs(words)) == Join(words, ' ')
    ensures Split(Clsx(Strs(words)), ' ') == words
  {
    var vs := Strs(words);
    var flat := Flatten(vs);
    assert flat == vs by {
      FlattenWithoutLists(vs);
    }
    var kept := Filter(flat, Truthy);
    assert kept == vs by {
      assert forall i :: 0 <= i < |vs| ==> Truthy(vs[i]);
      FilterKeepsAll(vs, Truthy);
    }
    assert Texts(kept) == words by {
      TextsOfStrs(words);
    }
    assert Clsx(vs) == Join(Texts(kept), ' ');
    SplitJoin(words, ' ');
  }

  // ---------------------------------------------------------------------------
  // cva

  /** The variant tables, in the order `Object.entries` lists them, and the defaults. */
  datatype Options = Options(variants: Option<seq<(string, map<string, string>)>>,
                             defaultVariants: Option<map<string, string>>)

  /** The caller's props; only string-valued props are modelled. */
  type Props = map<string, string>

  /** The value chosen for a variant: the prop when it is truthy, else the default, with ""
      standing for a falsy result. */
  function Chosen(key: string, props: Props, defaults: Option<map<string, string>>): (v: string)
    ensures key in props && props[key] != "" ==> v == props[key]
    ensures (key !in props || props[key] == "") && defaults.Some? && key in defaults.value ==> v == defaults.value[key]
    ensures (key !in props || props[key] == "") && (defaults.None? || key !in defaults.value) ==> v == ""
  {
    if key in props && props[key] != "" then props[key]
    else if defaults.Some? && key in defaults.value then defaults.value[key]
    else ""
  }

  /** The class one variant table contributes: the entry for the chosen value, when there is
      one and it is not empty. */
  function VariantClass(entry: (string, map<string, string>), props: Props,
                        defaults: Option<map<string, string>>): seq<string>
  {
    var value := Chosen(entry.0, props, defaults);
    if value != "" && value in entry.1 && entry.1[value] != "" then [entry.1[value]] else []
  }

  /** The classes the variant tables contribute, table by table. */
  function VariantClasses(entries: seq<(string, map<string, string>)>, props: Props,
                          defaults: Option<map<string, string>>): (r: seq<string>)
    ensures |r| <= |entries|
    ensures forall i :: 0 <= i < |r| ==> r[i] != ""
    decreases |entries|
  {
    if |entries| == 0 then []
    else VariantClass(entries[0], props, defaults) + VariantClasses(entries[1..], props, defaults)
  }

  /** Every contributed class is one of the tables' entries, so classes free of spaces
      stay free of spaces. */
  lemma {:induction false} VariantClassesFromTables(entries: seq<(string, map<string, string>)>, props: Props,
                                                    defaults: Option<map<string, string>>)
    requires forall j, v :: 0 <= j < |entries| && v in entries[j].1.Values ==> ' ' !in v
    ensures forall i :: 0 <= i < |VariantClasses(entries, props, defaults)| ==> ' ' !in VariantClasses(entries, props, defaults)[i]
    decreases |entries|
  {
    if |entries| > 0 {
      var first := VariantClass(entries[0], props, defaults);
      var rest := VariantClasses(entries[1..], props, defaults);
      assert forall j, v :: 0 <= j < |entries| - 1 && v in entries[1..][j].1.Values ==> ' ' !in v by {
        assert forall j :: 0 <= j < |entries| - 1 ==> entries[1..][j] == entries[j + 1];
      }
      VariantClassesFromTables(entries[1..], props, defaults);
      if |first| == 1 {
        assert first[0] in entries[0].1.Values;
      }
      assert VariantClasses(entries, props, defaults) == first + rest;
    }
  }

  /** The tables contribute independently, in their order. */
  lemma {:induction false} VariantClassesConcat(a: seq<(string, map<string, string>)>,
                                                b: seq<(string, map<string, string>)>,
                                                props: Props, defaults: Option<map<string, string>>)
    ensures VariantClasses(a + b, props, defaults) == VariantClasses(a, props, defaults) + VariantClasses(b, props, defaults)
    decreases |a|
  {
    if |a| == 0 {
      assert a + b == b;
    } else {
      VariantClassesConcat(a[1..], b, props, defaults);
      assert (a + b)[0] == a[0] && (a + b)[1..] == a[1..] + b;
      var head := VariantClass(a[0], props, defaults);
      var ra := VariantClasses(a[1..], props, defaults);
      var rb := VariantClasses(b, props, defaults);
      assert VariantClasses(a + b, props, defaults) == head + (ra + rb);
      assert VariantClasses(a, props, defaults) == head + ra;
      assert head + (ra + rb) == (head + ra) + rb;
    }
  }

  /** The caller's extra class, when the props carry one. */
  function ClassNameOf(props: Option<Props>): ClassValue {
    if props.Some? && "className" in props.value then Str(props.value["className"]) else Undefined
  }

  /** The class string `cva(base, options)(props)` returns. */
  function Cva(base: string, options: Option<Options>, props: Option<Props>): (r: string)
    ensures props.None? ==> r == base
  {
    if props.None? then
      DropsFalsy([Str(base)], Undefined, []);
      assert [Str(base)] + [Undefined] + [] == [Str(base), Undefined];
      Clsx([Str(base), Undefined])
    else if options.None? || options.value.variants.None? then Clsx([Str(base), ClassNameOf(props)])
    else
      var p := props.value;
      var chosen := VariantClasses(options.value.variants.value, p, options.value.defaultVariants);
      var last := if "className" in p && p["className"] != "" then [p["className"]] else [];
      Clsx(Strs([base] + chosen + last))
  }

  /** Without props the result is the base class alone. */
  lemma WithoutProps(base: string, options: Option<Options>)
    ensures Cva(base, options, None) == base
  {
    FlattenWithoutLists([Str(base), Undefined]);
    if base == "" {
      assert Filter([Str(base), Undefined], Truthy) == [];
    } else {
      assert Filter([Str(base), Undefined], Truthy) == [Str(base)];
    }
  }

  /** Without variant tables the result is the base class and then `className`. */
  lemma WithoutVariants(base: string, className: string, defaults: Option<map<string, string>>)
    requires base != "" && className != ""
    ensures Cva(base, Some(Options(None, defaults)), Some(map["className" := className])) == base + " " + className
  {
    var vs := [Str(base), Str(className)];
    assert Flatten(vs) == vs by {
      FlattenWithoutLists(vs);
    }
    FilterKeepsAll(vs, Truthy);
    assert Texts(vs) == [base, className];
    assert Join([base, className], ' ') == base + " " + className;
  }

  /** With tables and plain class names, the result lists the base class first, then the
      class of each table in the tables' order, then `className`. */
  lemma Layout(base: string, options: Options, props: Props)
    requires options.variants.Some?
    requires base != "" && ' ' !in base
    requires "className" in props ==> ' ' !in props["className"]
    requires forall j, v :: 0 <= j < |options.variants.value| && v in options.variants.value[j].1.Values ==> ' ' !in v
    ensures var classes := VariantClasses(options.variants.value, props, options.defaultVariants);
            Split(Cva(base, Some(options), Some(props)), ' ')
            == [base] + classes + (if "className" in props && props["className"] != "" then [props["className"]] else [])
  {
    var chosen := VariantClasses(options.variants.value, props, options.defaultVariants);
    var last := if "className" in props && props["className"] != "" then [props["className"]] else [];
    var words := [base] + chosen + last;
    VariantClassesFromTables(options.variants.value, props, options.defaultVariants);
    forall i | 0 <= i < |words|
      ensures words[i] != "" && ' ' !in words[i]
    {
      if 1 <= i < 1 + |chosen| {
        assert words[i] == chosen[i - 1];
      }
    }
    ClsxOfWords(words);
  }

  /** An empty-string prop falls back to the default, exactly as if it were not given. */
  lemma EmptyPropFallsBack(base: string, options: Options, props: Props, key: string)
    requires key != "className"
    ensures Cva(base, Some(options), Some(props[key := ""])) == Cva(base, Some(options), Some(props - {key}))
  {
    if options.variants.Some? {
      SameChoices(options.variants.value, props, key, options.defaultVariants);
    }
  }

  lemma {:induction false} SameChoices(entries: seq<(string, map<string, string>)>, props: Props, key: string,
                                       defaults: Option<map<string, string>>)
    ensures VariantClasses(entries, props[key := ""], defaults) == VariantClasses(entries, props - {key}, defaults)
    decreases |entries|
  {
    if |entries| > 0 {
      SameChoices(entries[1..], props, key, defaults);
      assert Chosen(entries[0].0, props[key := ""], defaults) == Chosen(entries[0].0, props - {key}, defaults);
    }
  }
}

=== FILE: connect_partner.dfy ===
/**
 * The partner invitation (src/components/onboarding/ConnectPartner.tsx): the invite code
 * built from the username, and the link that carries it.
 */
module ConnectPartner {
  import opened Strings

  const CodePrefix: string := "LOVE"
  const CodeSuffix: string := "2024"
  const JoinBase: string := "https://lovesync.app/join/"

  /** `LOVE${username.toUpperCase()}2024`. */
  function InviteCode(username: string): (code: string)
    ensures |code| == |username| + 8
    ensures CodePrefix <= code
    ensures code[|code| - 4..] == CodeSuffix
  {
    CodePrefix + Upper(username) + CodeSuffix
  }

  /** The middle of a code is the upper-cased username, so the code gives it back up to
      case. */
  lemma CodeCarriesUsername(username: string)
    ensures var code := InviteCode(username); code[4..|code| - 4] == Upper(username)
  {
    var code := InviteCode(username);
    assert code == CodePrefix + Upper(username) + CodeSuffix;
  }

  /** Usernames that differ only in the case of their letters get the same code. */
  lemma CaseInsensitive(a: string, b: string)
    requires |a| == |b| && forall i :: 0 <= i < |a| ==> UpperChar(a[i]) == UpperChar(b[i])
    ensures InviteCode(a) == InviteCode(b)
  {
    assert Upper(a) == Upper(b);
  }

  /** Different usernames, ignoring case, get different codes. */
  lemma DistinctNamesDistinctCodes(a: string, b: string)
    requires Upper(a) != Upper(b)
    ensures InviteCode(a) != InviteCode(b)
  {
    if InviteCode(a) == InviteCode(b) {
      CodeCarriesUsername(a);
      CodeCarriesUsername(b);
    }
  }

  /** `https://lovesync.app/join/${inviteCode}`. */
  function InviteLink(username: string): (link: string)
    ensures JoinBase <= link
    ensures link[|JoinBase|..] == InviteCode(username)
  {
    JoinBase + InviteCode(username)
  }
}

=== FILE: dashboard.dfy ===
/**
 * The home screen's derived text (src/components/Dashboard.tsx): the greeting name, the
 * avatar initial and the partner's label, each chosen by a chain of fallbacks; the mood
 * update sent when a mood is picked; and which activity counts are shown.
 */
module Dashboard {
  import opened Optional
  import opened Strings
  import Identity

  /** `x && x.trim()`: present and not blank. */
  predicate HasText(x: Option<string>) {
    x.Some? && !IsBlank(x.value)
  }

  /** `x` is truthy. */
  predicate NonEmpty(x: Option<string>) {
    x.Some? && x.value != ""
  }

  /** The name in the greeting: the first space-separated word of the profile name, else of
      the metadata name, else the part of the e-mail before '@', else "there". The name is
      split untrimmed, so a leading space yields an empty word. */
  function GreetingName(user: Option<Identity.User>): (r: string)
    ensures user.Some? && HasText(user.value.name) ==> r == FirstToken(user.value.name.value, ' ')
    ensures user.Some? && !HasText(user.value.name) && HasText(user.value.metadataName) ==>
              r == FirstToken(user.value.metadataName.value, ' ')
    ensures user.Some? && !HasText(user.value.name) && !HasText(user.value.metadataName) && NonEmpty(user.value.email) ==>
              r == FirstToken(user.value.email.value, '@')
    ensures r == "there" <== user.None? || (!HasText(user.value.name) && !HasText(user.value.metadataName) && !NonEmpty(user.value.email))
  {
    if user.Some? && HasText(user.value.name) then FirstToken(user.value.name.value, ' ')
    else if user.Some? && HasText(user.value.metadataName) then FirstToken(user.value.metadataName.value, ' ')
    else if user.Some? && NonEmpty(user.value.email) then FirstToken(user.value.email.value, '@')
    else "there"
  }

  /** The greeting uses one word: it never contains a space when it comes from a name. */
  lemma GreetingIsOneWord(user: Option<Identity.User>)
    requires user.Some? && (HasText(user.value.name) || HasText(user.value.metadataName))
    ensures ' ' !in GreetingName(user)
  {
  }

  /** A profile name with a leading space greets with the empty word. */
  lemma LeadingSpaceGreetsNobody(u: Identity.User)
    requires HasText(u.name) && u.name.value[0] == ' '
    ensures GreetingName(Some(u)) == ""
  {
  }

  /** `s.charAt(0).toUpperCase()`. */
  function FirstUpper(s: string): (r: string)
    ensures s == [] ==> r == []
    ensures s != [] ==> r == [UpperChar(s[0])]
  {
    Upper(if s == [] then [] else [s[0]])
  }

  /** The avatar letter, by the same precedence as the greeting, from the whole name; "U"
      without any name or e-mail. */
  function AvatarInitial(user: Option<Identity.User>): (r: string)
    ensures user.Some? && HasText(user.value.name) ==> r == FirstUpper(user.value.name.value)
    ensures user.Some? && !HasText(user.value.name) && HasText(user.value.metadataName) ==>
              r == FirstUpper(user.value.metadataName.value)
    ensures user.Some? && !HasText(user.value.name) && !HasText(user.value.metadataName) && NonEmpty(user.value.email) ==>
              r == FirstUpper(user.value.email.value)
    ensures user.None? || (!HasText(user.value.name) && !HasText(user.value.metadataName) && !NonEmpty(user.value.email))
            ==> r == "U"
    ensures |r| == 1
  {
    if user.Some? && HasText(user.value.name) then FirstUpper(user.value.name.value)
    else if user.Some? && HasText(user.value.metadataName) then FirstUpper(user.value.metadataName.value)
    else if user.Some? && NonEmpty(user.value.email) then FirstUpper(user.value.email.value)
    else "U"
  }

  /** The avatar shows the greeting's first letter in upper case whenever the greeting is a
      non-empty word taken from the user. */
  lemma AvatarMatchesGreeting(u: Identity.User)
    requires HasText(u.name) || HasText(u.metadataName) || NonEmpty(u.email)
    requires GreetingName(Some(u)) != ""
    ensures AvatarInitial(Some(u)) == [UpperChar(GreetingName(Some(u))[0])]
  {
  }

  /** The partner's label: the first word of a non-blank name, else the part of the e-mail
      before '@' when that is not empty, else "your partner". */
  function PartnerLabel(name: Option<string>, email: Option<string>): (r: string)
    ensures HasText(name) ==> r == FirstToken(name.value, ' ')
    ensures !HasText(name) && email.Some? && FirstToken(email.value, '@') != "" ==> r == FirstToken(email.value, '@')
    ensures !HasText(name) && (email.None? || FirstToken(email.value, '@') == "") ==> r == "your partner"
  {
    if HasText(name) then FirstToken(name.value, ' ')
    else if email.Some? && FirstToken(email.value, '@') != "" then FirstToken(email.value, '@')
    else "your partner"
  }

  /** Without a usable name the label is never empty. */
  lemma PartnerLabelWithoutName(email: Option<string>)
    ensures PartnerLabel(None, email) != ""
    ensures email.Some? && '@' !in email.value && email.value != "" ==> PartnerLabel(None, email) == email.value
  {
    if email.Some? && '@' !in email.value {
      SplitWithoutSeparator(email.value, '@');
    }
  }

  // ---------------------------------------------------------------------------
  // Mood update

  datatype Mood = Mood(name: string, emoji: string, scale: int)

  datatype MoodUpdate = MoodUpdate(mood: string, emoji: string, message: string, moodScale: int, activityStatus: string)

  /** The body `handleMoodSubmit` posts: the activity, when one is set, wins over the mood
      in both the message and the status. */
  function MoodPayload(mood: Mood, currentActivity: string): (p: MoodUpdate)
    ensures p.mood == mood.name && p.emoji == mood.emoji && p.moodScale == mood.scale
    ensures currentActivity != "" ==> p.message == "Currently " + Lower(currentActivity) && p.activityStatus == currentActivity
    ensures currentActivity == "" ==> p.message == "Feeling " + Lower(mood.name) + " today!" && p.activityStatus == mood.name
  {
    MoodUpdate(mood.name, mood.emoji,
               if currentActivity != "" then "Currently " + Lower(currentActivity) else "Feeling " + Lower(mood.name) + " today!",
               mood.scale,
               if currentActivity != "" then currentActivity else mood.name)
  }

  /** The message always names what the status reports, in lower case. */
  lemma MessageNamesStatus(mood: Mood, currentActivity: string)
    ensures var p := MoodPayload(mood, currentActivity);
            exists pre, post :: p.message == pre + Lower(p.activityStatus) + post
  {
    var p := MoodPayload(mood, currentActivity);
    if currentActivity != "" {
      assert p.message == "Currently " + Lower(p.activityStatus) + "";
    } else {
      assert p.message == "Feeling " + Lower(p.activityStatus) + " today!";
    }
  }

  // ---------------------------------------------------------------------------
  // Activity stats

  datatype Stats = Stats(messages: nat, moodUpdates: nat, memories: nat, giftsGiven: nat, giftsReceived: nat)

  datatype Tile = Tile(count: nat, caption: string)

  /** The two activity tiles: with a partner, messages and gifts both ways; alone,
      check-ins and memories. */
  function ActivityTiles(stats: Stats, hasPartner: bool): (tiles: (Tile, Tile))
    ensures hasPartner ==> tiles == (Tile(stats.messages, "Messages"), Tile(stats.giftsGiven + stats.giftsReceived, "Gifts"))
    ensures !hasPartner ==> tiles == (Tile(stats.moodUpdates, "Check-ins"), Tile(stats.memories, "Memories"))
  {
    (Tile(if hasPartner then stats.messages else stats.moodUpdates, if hasPartner then "Messages" else "Check-ins"),
     Tile(if hasPartner then stats.giftsGiven + stats.giftsReceived else stats.memories,
          if hasPartner then "Gifts" else "Memories"))
  }
}

=== FILE: day_count.dfy ===
/**
 * Whole days between two instants, as the client screens compute them from millisecond
 * timestamps: the absolute difference divided by the length of a day, rounded up or down.
 */
module DayCount {

  const DayMs: nat := 1000 * 60 * 60 * 24

  function Abs(x: int): (r: nat)
    ensures r == x || r == -x
  {
    if x < 0 then -x else x
  }

  /** `Math.ceil(Math.abs(now - then) / day)`: the least number of whole days that covers
      the gap. */
  function CeilDays(nowMs: int, thenMs: int): (days: nat)
    ensures days * DayMs >= Abs(nowMs - thenMs)
    ensures days == 0 || (days - 1) * DayMs < Abs(nowMs - thenMs)
  {
    (Abs(nowMs - thenMs) + DayMs - 1) / DayMs
  }

  /** `Math.floor(Math.abs(now - then) / day)`: the number of whole days that fit in the
      gap. */
  function FloorDays(nowMs: int, thenMs: int): (days: nat)
    ensures days * DayMs <= Abs(nowMs - thenMs) < (days + 1) * DayMs
  {
    Abs(nowMs - thenMs) / DayMs
  }

  /** Neither count depends on which instant comes first. */
  lemma Symmetric(a: int, b: int)
    ensures CeilDays(a, b) == CeilDays(b, a) && FloorDays(a, b) == FloorDays(b, a)
  {
    assert Abs(a - b) == Abs(b - a);
  }

  /** The two counts agree on whole days and otherwise differ by one. */
  lemma CeilIsFloorRoundedUp(a: int, b: int)
    ensures Abs(a - b) % DayMs == 0 ==> CeilDays(a, b) == FloorDays(a, b)
    ensures Abs(a - b) % DayMs != 0 ==> CeilDays(a, b) == FloorDays(a, b) + 1
  {
    var d := Abs(a - b);
    var q := d / DayMs;
    var r := d % DayMs;
    assert d == q * DayMs + r;
    assert d + DayMs - 1 == q * DayMs + (r + DayMs - 1);
    if r == 0 {
      assert (q * DayMs + (DayMs - 1)) / DayMs == q;
    } else {
      assert (q * DayMs + (r + DayMs - 1)) / DayMs == q + 1;
    }
  }
}

=== FILE: demo_chat.dfy ===
/**
 * The sample chat screen (src/components/features/Chat.tsx): sending a text and sending a
 * mood, both of which only ever append to the list. The new message's id and time come
 * from the clock and are inputs.
 */
module DemoChat {
  import opened Optional
  import opened Strings

  datatype Sender = Me | Partner

  datatype DemoMessage = DemoMessage(id: string, text: string, sender: Sender, kind: string, emoji: Option<string>)

  datatype DemoChat = DemoChat(messages: seq<DemoMessage>, input: string)

  /** `sendMessage`: a blank input does nothing; otherwise the text, as typed, is appended
      as the user's and the input is cleared. */
  function SendMessage(c: DemoChat, id: string): (r: DemoChat)
    ensures IsBlank(c.input) ==> r == c
    ensures !IsBlank(c.input) ==> r.messages == c.messages + [DemoMessage(id, c.input, Me, "text", None)] && r.input == ""
  {
    if IsBlank(c.input) then c
    else DemoChat(c.messages + [DemoMessage(id, c.input, Me, "text", None)], "")
  }

  /** `sendMood`: a mood with an empty text is appended as the user's; the input is left as
      it is. */
  function SendMood(c: DemoChat, emoji: string, id: string): (r: DemoChat)
    ensures r.messages == c.messages + [DemoMessage(id, "", Me, "mood", Some(emoji))]
    ensures r.input == c.input
  {
    c.(messages := c.messages + [DemoMessage(id, "", Me, "mood", Some(emoji))])
  }

  /** What the user does: type, send the input, or send a mood. */
  datatype Action = Type(text: string) | Send(id: string) | Mood(emoji: string, moodId: string)

  function Step(c: DemoChat, a: Action): DemoChat {
    match a
    case Type(t) => c.(input := t)
    case Send(id) => SendMessage(c, id)
    case Mood(e, id) => SendMood(c, e, id)
  }

  function Run(c: DemoChat, actions: seq<Action>): DemoChat
    decreases |actions|
  {
    if |actions| == 0 then c else Run(Step(c, actions[0]), actions[1..])
  }

  /** However the user goes on, the earlier messages stay as they were, in their order, and
      every message added is the user's. */
  lemma {:induction false} OnlyAppends(c: DemoChat, actions: seq<Action>)
    ensures c.messages <= Run(c, actions).messages
    ensures forall i :: |c.messages| <= i < |Run(c, actions).messages| ==> Run(c, actions).messages[i].sender == Me
    ensures |Run(c, actions).messages| <= |c.messages| + |actions|
    decreases |actions|
  {
    if |actions| > 0 {
      var next := Step(c, actions[0]);
      OnlyAppends(next, actions[1..]);
    }
  }

  /** A sent text never has a blank body. */
  lemma SentTextsAreNotBlank(c: DemoChat, id: string)
    requires |SendMessage(c, id).messages| > |c.messages|
    ensures !IsBlank(SendMessage(c, id).messages[|c.messages|].text)
  {
  }
}

=== FILE: event_feed.dfy ===
/**
 * The sample timeline screen (src/components/features/Timeline.tsx): the type filter, the
 * icon and colour of an event, and the relative date label. The current time and each
 * event's time are inputs, in milliseconds.
 */
module EventFeed {
  import opened Seqs
  import opened DayCount

  datatype FeedEvent = FeedEvent(id: string, kind: string, title: string, special: bool)

  const All: string := "all"

  /** `filteredEvents`: every event for "all", otherwise the events of that type. */
  function FilterEvents(events: seq<FeedEvent>, filter: string): (shown: seq<FeedEvent>)
    ensures filter == All ==> shown == events
    ensures filter != All ==> shown == Filter(events, (e: FeedEvent) => e.kind == filter)
  {
    if filter == All then events else Filter(events, (e: FeedEvent) => e.kind == filter)
  }

  /** A filter keeps exactly the events of its type, in their order: filtering a list made
      of two parts filters each part. */
  lemma FilterByType(a: seq<FeedEvent>, b: seq<FeedEvent>, filter: string)
    ensures FilterEvents(a + b, filter) == FilterEvents(a, filter) + FilterEvents(b, filter)
    ensures forall e :: e in FilterEvents(a, filter) <==> e in a && (filter == All || e.kind == filter)
  {
    if filter != All {
      FilterConcat(a, b, (e: FeedEvent) => e.kind == filter);
      FilterMembers(a, (e: FeedEvent) => e.kind == filter);
    }
  }

  datatype Icon = MessageCircle | Gift | MapPin | Heart | Calendar | Camera

  /** `getEventIcon`: letters and messages share an icon, gifts, locations, milestones and
      photos each have their own, and moods and unknown types get the heart. */
  function EventIcon(kind: string): (icon: Icon)
    ensures kind == "letter" || kind == "message" <==> icon == MessageCircle
    ensures kind == "gift" <==> icon == Gift
    ensures kind == "location" <==> icon == MapPin
    ensures kind == "milestone" <==> icon == Calendar
    ensures kind == "photo" <==> icon == Camera
    ensures kind !in ["letter", "message", "gift", "location", "milestone", "photo"] <==> icon == Heart
  {
    match kind
    case "letter" => MessageCircle
    case "message" => MessageCircle
    case "gift" => Gift
    case "location" => MapPin
    case "mood" => Heart
    case "milestone" => Calendar
    case "photo" => Camera
    case _ => Heart
  }

  const Romantic: string := "romantic"

  /** `getEventColor`: a special event is always "romantic"; otherwise the colour goes by
      type, with a muted default. */
  function EventColor(kind: string, special: bool): (color: string)
    ensures special ==> color == Romantic
    ensures !special ==> color != Romantic
    ensures !special && kind !in ["letter", "gift", "location", "mood"] ==> color == "bg-muted text-muted-foreground"
  {
    if special then Romantic
    else match kind
      case "letter" => "bg-purple-light/20 text-purple"
      case "gift" => "bg-gold/20 text-yellow-700"
      case "location" => "bg-blue-100 text-blue-700"
      case "mood" => "bg-rose-light/20 text-rose"
      case _ => "bg-muted text-muted-foreground"
  }

  /** The relative date label; a week or more shows the calendar date instead. */
  datatype DateLabel = Today | Yesterday | DaysAgo(days: nat) | CalendarDate

  /** The label for a whole number of days. */
  function Bucket(days: nat): (tag: DateLabel)
    ensures tag == Today <==> days == 0
    ensures tag == Yesterday <==> days == 1
    ensures tag.DaysAgo? <==> 2 <= days < 7
    ensures tag.DaysAgo? ==> tag.days == days
    ensures tag == CalendarDate <==> days >= 7
  {
    if days == 0 then Today
    else if days == 1 then Yesterday
    else if days < 7 then DaysAgo(days)
    else CalendarDate
  }

  /** `formatDate` as written: the day count is rounded up. */
  function FormatDate(nowMs: int, dateMs: int): (tag: DateLabel)
    ensures tag == Today ==> nowMs == dateMs
    ensures tag == CalendarDate <==> Abs(nowMs - dateMs) > 6 * DayMs
  {
    Bucket(CeilDays(nowMs, dateMs))
  }

  /** As written, "Today" appears only for the very same millisecond, and anything up to a
      whole day old reads "Yesterday"; an event stamped one millisecond ago is an
      example. */
  lemma FormatDateRoundsUp(nowMs: int, dateMs: int)
    ensures FormatDate(nowMs, dateMs) == Today <==> nowMs == dateMs
    ensures 0 < Abs(nowMs - dateMs) <= DayMs ==> FormatDate(nowMs, dateMs) == Yesterday
    ensures FormatDate(1000, 999) == Yesterday
  {
  }

  /** `formatDate` counting whole days elapsed, as the main timeline's `formatEventDate`
      does. */
  function FormatDateFixed(nowMs: int, dateMs: int): DateLabel {
    Bucket(FloorDays(nowMs, dateMs))
  }

  /** Corrected, the label names the day the event fell in, counting whole days back: less
      than a day is "Today", one to two days "Yesterday", and n whole days "n days ago". */
  lemma FormatDateFixedCountsWholeDays(nowMs: int, dateMs: int, n: nat)
    ensures Abs(nowMs - dateMs) < DayMs <==> FormatDateFixed(nowMs, dateMs) == Today
    ensures DayMs <= Abs(nowMs - dateMs) < 2 * DayMs <==> FormatDateFixed(nowMs, dateMs) == Yesterday
    ensures 2 <= n < 7 && n * DayMs <= Abs(nowMs - dateMs) < (n + 1) * DayMs ==> FormatDateFixed(nowMs, dateMs) == DaysAgo(n)
  {
    var d := FloorDays(nowMs, dateMs);
    if 2 <= n < 7 && n * DayMs <= Abs(nowMs - dateMs) < (n + 1) * DayMs {
      WholeDaysUnique(d, n, Abs(nowMs - dateMs));
    }
  }

  /** Only one whole number of days brackets a gap. */
  lemma WholeDaysUnique(d: nat, n: nat, gap: nat)
    requires d * DayMs <= gap < (d + 1) * DayMs
    requires n * DayMs <= gap < (n + 1) * DayMs
    ensures d == n
  {
  }
}

=== FILE: gift_cart.dfy ===
/**
 * The cart and wishlist of the gift store (src/components/GiftStore.tsx): the cart is an
 * object from product id to quantity, the wishlist a list of product ids. The item count
 * and the total are sums over the cart's entries; a sum does not depend on the order
 * `Object.entries` yields them in, so the cart is a map and the sums pick entries in any
 * order.
 */
module GiftCart {
  import opened Optional
  import opened Seqs
  import opened GiftCatalogue
  import Identity

  type Cart = map<string, int>

  /** `addToCart(id, quantity)`: the entry becomes the old quantity (or 0) plus `quantity`. */
  function AddToCart(cart: Cart, id: string, quantity: int): (c: Cart)
    ensures id in c && c[id] == (if id in cart then cart[id] else 0) + quantity
    ensures forall k :: k != id ==> (k in c <==> k in cart)
    ensures forall k :: k != id && k in cart ==> c[k] == cart[k]
  {
    cart[id := (if id in cart then cart[id] else 0) + quantity]
  }

  /** `removeFromCart(id)`: a quantity above one goes down by one; otherwise the entry is
      deleted (which does nothing to an absent id). */
  function RemoveFromCart(cart: Cart, id: string): (c: Cart)
    ensures id in cart && cart[id] > 1 ==> id in c && c[id] == cart[id] - 1
    ensures !(id in cart && cart[id] > 1) ==> id !in c
    ensures forall k :: k != id ==> (k in c <==> k in cart)
    ensures forall k :: k != id && k in cart ==> c[k] == cart[k]
  {
    if id in cart && cart[id] > 1 then cart[id := cart[id] - 1] else cart - {id}
  }

  /** Every stored quantity is at least one. */
  predicate CartValid(cart: Cart) {
    forall k :: k in cart ==> cart[k] >= 1
  }

  /** Adding one and removing one of the same product gives back a valid cart unchanged. */
  lemma AddThenRemove(cart: Cart, id: string)
    requires CartValid(cart)
    ensures RemoveFromCart(AddToCart(cart, id, 1), id) == cart
  {
    var c := RemoveFromCart(AddToCart(cart, id, 1), id);
    assert c.Keys == cart.Keys;
  }

  /** The cart-changing actions of the screen. Every button adds with the default quantity
      of one; a successful purchase deletes the product's entry. */
  datatype CartAction = Add(id: string) | Remove(id: string) | Bought(id: string)

  function Step(cart: Cart, a: CartAction): Cart {
    match a
    case Add(id) => AddToCart(cart, id, 1)
    case Remove(id) => RemoveFromCart(cart, id)
    case Bought(id) => cart - {id}
  }

  function Run(cart: Cart, actions: seq<CartAction>): Cart
    decreases |actions|
  {
    if |actions| == 0 then cart else Run(Step(cart, actions[0]), actions[1..])
  }

  /** Starting from the empty cart, whatever the user does, no entry holds zero or less. */
  lemma {:induction false} CartStaysValid(cart: Cart, actions: seq<CartAction>)
    requires CartValid(cart)
    ensures CartValid(Run(cart, actions))
    decreases |actions|
  {
    if |actions| > 0 {
      var next := Step(cart, actions[0]);
      assert CartValid(next);
      CartStaysValid(next, actions[1..]);
    }
  }

  // ---------------------------------------------------------------------------
  // Sums over the cart

  /** The sum of `f(id, quantity)` over the cart's entries, taken in an arbitrary order. */
  ghost function SumBy(cart: Cart, f: (string, int) -> int): int
    decreases |cart|
  {
    if cart == map[] then 0 else var k :| k in cart; f(k, cart[k]) + SumBy(cart - {k}, f)
  }

  /** The order of summation does not matter: any entry can be taken out first. */
  lemma {:induction false} SumByRemove(cart: Cart, f: (string, int) -> int, k: string)
    requires k in cart
    ensures SumBy(cart, f) == f(k, cart[k]) + SumBy(cart - {k}, f)
    decreases |cart|
  {
    var j :| j in cart && SumBy(cart, f) == f(j, cart[j]) + SumBy(cart - {j}, f);
    if j != k {
      SumByRemove(cart - {j}, f, k);
      SumByRemove(cart - {k}, f, j);
      assert cart - {j} - {k} == cart - {k} - {j};
    }
  }

  /** Terms of at least one sum to at least the number of entries. */
  lemma {:induction false} SumByAtLeastSize(cart: Cart, f: (string, int) -> int)
    ensures (forall k :: k in cart ==> f(k, cart[k]) >= 1) ==> SumBy(cart, f) >= |cart|
    decreases |cart|
  {
    if cart != map[] && forall k :: k in cart ==> f(k, cart[k]) >= 1 {
      var j :| j in cart && SumBy(cart, f) == f(j, cart[j]) + SumBy(cart - {j}, f);
      SumByAtLeastSize(cart - {j}, f);
      assert |cart - {j}| == |cart| - 1;
    }
  }

  /** Terms that are all zero sum to zero. */
  lemma {:induction false} SumByZero(cart: Cart, f: (string, int) -> int)
    ensures (forall k :: k in cart ==> f(k, cart[k]) == 0) ==> SumBy(cart, f) == 0
    decreases |cart|
  {
    if cart != map[] && forall k :: k in cart ==> f(k, cart[k]) == 0 {
      var j :| j in cart && SumBy(cart, f) == f(j, cart[j]) + SumBy(cart - {j}, f);
      SumByZero(cart - {j}, f);
    }
  }

  /** `getCartItemCount`: the sum of the quantities. In a valid cart every entry holds at
      least one item, so there are at least as many items as entries. */
  ghost function ItemCount(cart: Cart): (n: int)
    ensures cart == map[] ==> n == 0
    ensures CartValid(cart) ==> n >= |cart|
  {
    SumByAtLeastSize(cart, Quantity);
    SumBy(cart, Quantity)
  }

  function Quantity(id: string, q: int): int {
    q
  }

  /** The price of a product, or nothing for an id the catalogue does not list. */
  function UnitPrice(products: seq<Product>, id: string): (price: int)
    ensures FindProduct(products, id).None? ==> price == 0
    ensures FindProduct(products, id).Some? ==> price == FindProduct(products, id).value.priceCents
  {
    match FindProduct(products, id)
    case Some(p) => p.priceCents
    case None => 0
  }

  /** `getCartTotal`: price times quantity summed over the entries; an unknown id adds 0,
      so a cart holding only products the catalogue does not list costs nothing. */
  ghost function CartTotal(cart: Cart, products: seq<Product>): (total: int)
    ensures (forall id :: id in cart ==> FindProduct(products, id).None?) ==> total == 0
  {
    SumByZero(cart, LineTotal(products));
    SumBy(cart, LineTotal(products))
  }

  /** One entry's contribution to the total. */
  function LineTotal(products: seq<Product>): (string, int) -> int {
    (id: string, q: int) => UnitPrice(products, id) * q
  }

  /** Setting one entry replaces that entry's term of the sum and keeps the others. */
  lemma SumByUpdate(cart: Cart, f: (string, int) -> int, k: string, v: int)
    ensures SumBy(cart[k := v], f) == SumBy(cart - {k}, f) + f(k, v)
    ensures k in cart ==> SumBy(cart[k := v], f) == SumBy(cart, f) - f(k, cart[k]) + f(k, v)
  {
    SumByRemove(cart[k := v], f, k);
    assert cart[k := v] - {k} == cart - {k};
    if k in cart {
      SumByRemove(cart, f, k);
    }
  }

  /** Adding `quantity` of a product raises the item count by `quantity`. */
  lemma ItemCountAfterAdd(cart: Cart, id: string, quantity: int)
    ensures ItemCount(AddToCart(cart, id, quantity)) == ItemCount(cart) + quantity
  {
    var before := if id in cart then cart[id] else 0;
    SumByUpdate(cart, Quantity, id, before + quantity);
    if id !in cart {
      assert cart - {id} == cart;
    }
  }

  /** Adding `quantity` of a product raises the total by `quantity` times its price. */
  lemma TotalAfterAdd(cart: Cart, products: seq<Product>, id: string, quantity: int)
    ensures CartTotal(AddToCart(cart, id, quantity), products)
            == CartTotal(cart, products) + UnitPrice(products, id) * quantity
  {
    var f := LineTotal(products);
    var price := UnitPrice(products, id);
    assert forall q :: f(id, q) == price * q;
    SumAfterAdd(cart, f, id, quantity, price);
  }

  /** Adding to one entry of a sum whose term for that entry is linear in the quantity. */
  lemma SumAfterAdd(cart: Cart, f: (string, int) -> int, id: string, quantity: int, price: int)
    requires forall q :: f(id, q) == price * q
    ensures SumBy(AddToCart(cart, id, quantity), f) == SumBy(cart, f) + price * quantity
  {
    if id in cart {
      var before := cart[id];
      assert AddToCart(cart, id, quantity) == cart[id := before + quantity];
      SumByUpdate(cart, f, id, before + quantity);
      assert f(id, before + quantity) == price * (before + quantity);
      assert f(id, before) == price * before;
      Distribute(price, before, quantity);
    } else {
      assert AddToCart(cart, id, quantity) == cart[id := quantity];
      SumByUpdate(cart, f, id, quantity);
      assert cart - {id} == cart;
      assert f(id, quantity) == price * quantity;
    }
  }

  lemma Distribute(a: int, b: int, c: int)
    ensures a * (b + c) == a * b + a * c
  {
  }

  /** Removing one of a product lowers the item count by one, and changes nothing for a
      product not in the cart. */
  lemma ItemCountAfterRemove(cart: Cart, id: string)
    requires CartValid(cart)
    ensures ItemCount(RemoveFromCart(cart, id)) == ItemCount(cart) - (if id in cart then 1 else 0)
  {
    if id in cart {
      SumByRemove(cart, Quantity, id);
      if cart[id] > 1 {
        SumByUpdate(cart, Quantity, id, cart[id] - 1);
      }
    } else {
      assert cart - {id} == cart;
    }
  }

  /** Removing one of a product lowers the total by its price, and changes nothing for a
      product not in the cart. */
  lemma TotalAfterRemove(cart: Cart, products: seq<Product>, id: string)
    requires CartValid(cart)
    ensures CartTotal(RemoveFromCart(cart, id), products)
            == CartTotal(cart, products) - (if id in cart then UnitPrice(products, id) else 0)
  {
    var f := LineTotal(products);
    var price := UnitPrice(products, id);
    assert forall q :: f(id, q) == price * q;
    SumAfterRemove(cart, f, id, price);
  }

  /** Removing one from an entry of a sum whose term for that entry is linear in the
      quantity. */
  lemma SumAfterRemove(cart: Cart, f: (string, int) -> int, id: string, price: int)
    requires CartValid(cart)
    requires forall q :: f(id, q) == price * q
    ensures SumBy(RemoveFromCart(cart, id), f) == SumBy(cart, f) - (if id in cart then price else 0)
  {
    if id in cart {
      if cart[id] > 1 {
        assert RemoveFromCart(cart, id) == cart[id := cart[id] - 1];
        SumByUpdate(cart, f, id, cart[id] - 1);
        Distribute(price, cart[id], -1);
      } else {
        assert RemoveFromCart(cart, id) == cart - {id};
        SumByRemove(cart, f, id);
        assert cart[id] == 1;
        assert f(id, 1) == price * 1;
      }
    } else {
      assert cart - {id} == cart;
    }
  }

  /** A product the catalogue does not list never changes the total. */
  lemma UnknownAddsNothing(cart: Cart, products: seq<Product>, id: string)
    requires forall i :: 0 <= i < |products| ==> products[i].id != id
    requires id in cart
    ensures CartTotal(cart, products) == CartTotal(cart - {id}, products)
  {
    SumByRemove(cart, LineTotal(products), id);
  }

  // ---------------------------------------------------------------------------
  // Wishlist

  /** `toggleWishlist(id)`: a listed id is removed (every copy), an unlisted one is appended. */
  function ToggleWishlist(wishlist: seq<string>, id: string): (r: seq<string>)
    ensures id in wishlist ==> id !in r && |r| < |wishlist|
    ensures id !in wishlist ==> r == wishlist + [id]
    ensures forall x :: x != id ==> (x in r <==> x in wishlist)
  {
    if id in wishlist then
      var r := Filter(wishlist, (x: string) => x != id);
      FilterMembers(wishlist, (x: string) => x != id);
      assert |r| < |wishlist| by {
        var i :| 0 <= i < |wishlist| && wishlist[i] == id;
        FilterLength(wishlist, (x: string) => x != id);
        CountBelowLength(wishlist, (x: string) => x != id, i);
      }
      r
    else wishlist + [id]
  }

  /** A sequence with an element failing `p` has fewer elements satisfying `p` than it has
      elements. */
  lemma {:induction false} CountBelowLength<T>(s: seq<T>, p: T -> bool, i: int)
    requires 0 <= i < |s| && !p(s[i])
    ensures Count(s, p) < |s|
    decreases |s|
  {
    if i > 0 {
      CountBelowLength(s[1..], p, i - 1);
    } else {
      CountAtMostLength(s[1..], p);
    }
  }

  lemma {:induction false} CountAtMostLength<T>(s: seq<T>, p: T -> bool)
    ensures Count(s, p) <= |s|
    decreases |s|
  {
    if |s| > 0 {
      CountAtMostLength(s[1..], p);
    }
  }

  /** Toggling keeps the wishlist free of duplicates. */
  lemma {:induction false} ToggleKeepsNoDuplicates(wishlist: seq<string>, id: string)
    requires NoDuplicates(wishlist)
    ensures NoDuplicates(ToggleWishlist(wishlist, id))
  {
    if id in wishlist {
      FilterKeepsNoDuplicates(wishlist, (x: string) => x != id);
    }
  }

  lemma {:induction false} FilterKeepsNoDuplicates<T>(s: seq<T>, p: T -> bool)
    requires NoDuplicates(s)
    ensures NoDuplicates(Filter(s, p))
    decreases |s|
  {
    if |s| > 0 {
      FilterKeepsNoDuplicates(s[1..], p);
      var rest := Filter(s[1..], p);
      FilterMembers(s[1..], p);
      assert s[0] !in s[1..];
      assert s[0] !in rest;
    }
  }

  /** Toggling twice restores an unlisted id's wishlist exactly, and a listed id's wishlist
      up to the id's place: the same ids, still without duplicates, with the id now last. */
  lemma ToggleTwice(wishlist: seq<string>, id: string)
    requires NoDuplicates(wishlist)
    ensures id !in wishlist ==> ToggleWishlist(ToggleWishlist(wishlist, id), id) == wishlist
    ensures var r := ToggleWishlist(ToggleWishlist(wishlist, id), id);
            && (forall x :: x in r <==> x in wishlist)
            && NoDuplicates(r)
            && (id in wishlist ==> r[|r| - 1] == id)
  {
    var once := ToggleWishlist(wishlist, id);
    ToggleKeepsNoDuplicates(wishlist, id);
    ToggleKeepsNoDuplicates(once, id);
    if id !in wishlist {
      FilterKeepsAll(wishlist, (x: string) => x != id);
      FilterConcat(wishlist, [id], (x: string) => x != id);
      assert Filter([id], (x: string) => x != id) == [];
    }
  }

  // ---------------------------------------------------------------------------
  // Purchase

  /** How the purchase request settled. */
  datatype Response = Ok | Rejected(error: string) | Thrown

  datatype Purchase =
    | NeedsPartner
    | NeedsUser
    | Sent(cart: Cart)
    | Failed(cart: Cart)

  /** The text of the note, naming its sender. */
  function Note(who: string): string {
    "A special gift from " + who + " with love \U{1F495}"
  }

  /** The note sent with the gift: the buyer's name, else username, else a fixed phrase. */
  function GiftMessage(user: Identity.User): (m: string)
    ensures exists who :: who != "" && m == Note(who)
    ensures Identity.Present(user.name) ==> m == Note(user.name.value)
    ensures !Identity.Present(user.name) && Identity.Present(user.username) ==> m == Note(user.username.value)
    ensures !Identity.Present(user.name) && !Identity.Present(user.username) ==> m == Note("Someone special")
  {
    Note(Identity.OrElse(user.name, Identity.OrElse(user.username, "Someone special")))
  }

  /** `handlePurchase`: without a partner, then without a user, nothing is sent. A request
      that succeeds deletes the product's cart entry whatever its quantity; any failure
      leaves the cart as it was. */
  function HandlePurchase(hasPartner: bool, user: Option<Identity.User>, productId: string,
                          cart: Cart, response: Response): (r: Purchase)
    ensures !hasPartner <==> r.NeedsPartner?
    ensures hasPartner && user.None? <==> r.NeedsUser?
    ensures r.Sent? <==> hasPartner && user.Some? && response.Ok?
    ensures r.Sent? ==> productId !in r.cart && forall k :: k != productId && k in cart ==> k in r.cart && r.cart[k] == cart[k]
    ensures r.Sent? ==> forall k :: k in r.cart ==> k in cart
    ensures r.Failed? ==> r.cart == cart
  {
    if !hasPartner then NeedsPartner
    else if user.None? then NeedsUser
    else if response.Ok? then Sent(cart - {productId})
    else Failed(cart)
  }

  /** After a successful purchase the item count drops by the product's whole quantity. */
  lemma PurchaseClearsLine(cart: Cart, user: Identity.User, productId: string)
    requires productId in cart
    ensures var r := HandlePurchase(true, Some(user), productId, cart, Ok);
            ItemCount(r.cart) == ItemCount(cart) - cart[productId]
  {
    SumByRemove(cart, Quantity, productId);
  }
}

=== FILE: gift_catalogue.dfy ===
/**
 * The product list of the gift store (src/components/GiftStore.tsx, `filterProducts`):
 * an optional category filter, a case-insensitive search over the product's name, its
 * description and its category's name, then a sort chosen by the user.
 */
module GiftCatalogue {
  import opened Optional
  import opened Strings
  import opened Seqs
  import opened Sorting

  /** A product. `rating` is a float in the source; here it is held in tenths of a star,
      which keeps its order. */
  datatype Product = Product(
    id: string,
    categoryId: string,
    name: string,
    description: string,
    priceCents: int,
    rating: int,
    reviewCount: int)

  datatype Category = Category(id: string, name: string)

  /** The first product with that id, if any. */
  function FindProduct(products: seq<Product>, id: string): (r: Option<Product>)
    ensures r.None? <==> forall i :: 0 <= i < |products| ==> products[i].id != id
    ensures r.Some? ==> r.value in products && r.value.id == id
    ensures forall i :: (0 <= i < |products| && products[i].id == id &&
                         forall j :: 0 <= j < i ==> products[j].id != id) ==> r == Some(products[i])
    decreases |products|
  {
    if |products| == 0 then None
    else if products[0].id == id then Some(products[0])
    else FindProduct(products[1..], id)
  }

  /** The first category with that id, if any. */
  function FindCategory(categories: seq<Category>, id: string): (r: Option<Category>)
    ensures r.None? <==> forall i :: 0 <= i < |categories| ==> categories[i].id != id
    ensures r.Some? ==> r.value in categories && r.value.id == id
    ensures forall i :: (0 <= i < |categories| && categories[i].id == id &&
                         forall j :: 0 <= j < i ==> categories[j].id != id) ==> r == Some(categories[i])
    decreases |categories|
  {
    if |categories| == 0 then None
    else if categories[0].id == id then Some(categories[0])
    else FindCategory(categories[1..], id)
  }

  /** The search test: the lower-cased query occurs in the lower-cased name, description or
      name of the product's category (a product whose category is unknown matches on name
      and description only). */
  predicate MatchesQuery(p: Product, query: string, categories: seq<Category>)
    ensures query == "" ==> MatchesQuery(p, query, categories)
    ensures MatchesQuery(p, query, categories) && FindCategory(categories, p.categoryId).None? ==>
              Contains(Lower(p.name), Lower(query)) || Contains(Lower(p.description), Lower(query))
  {
    var q := Lower(query);
    || Contains(Lower(p.name), q)
    || Contains(Lower(p.description), q)
    || (var c := FindCategory(categories, p.categoryId); c.Some? && Contains(Lower(c.value.name), q))
  }

  /** The two filters; an empty category or an empty query filters nothing. */
  predicate Kept(p: Product, category: string, query: string, categories: seq<Category>)
    ensures category == "" && query == "" ==> Kept(p, category, query, categories)
    ensures Kept(p, category, query, categories) && category != "" ==> p.categoryId == category
  {
    && (category != "" ==> p.categoryId == category)
    && (query != "" ==> MatchesQuery(p, query, categories))
  }

  datatype SortOrder = PriceLow | PriceHigh | Rating | Popular

  /** The comparators as keys sorted ascending: `a.price_cents - b.price_cents` for price-low,
      and the negated field for the three descending orders. */
  function SortKey(order: SortOrder): Product -> int {
    match order
    case PriceLow => (p: Product) => p.priceCents
    case PriceHigh => (p: Product) => -p.priceCents
    case Rating => (p: Product) => -p.rating
    case Popular => (p: Product) => -p.reviewCount
  }

  /** What each order promises, in the product's own fields. */
  predicate OrderedFor(s: seq<Product>, order: SortOrder) {
    match order
    case PriceLow => forall i, j :: 0 <= i < j < |s| ==> s[i].priceCents <= s[j].priceCents
    case PriceHigh => forall i, j :: 0 <= i < j < |s| ==> s[i].priceCents >= s[j].priceCents
    case Rating => forall i, j :: 0 <= i < j < |s| ==> s[i].rating >= s[j].rating
    case Popular => forall i, j :: 0 <= i < j < |s| ==> s[i].reviewCount >= s[j].reviewCount
  }

  /** `filterProducts`: the kept products, each as many times as the catalogue lists it, and
      nothing else, in the order the user chose. */
  function FilterProducts(products: seq<Product>, categories: seq<Category>,
                          category: string, query: string, order: SortOrder): (r: seq<Product>)
    ensures forall p :: multiset(r)[p] == if Kept(p, category, query, categories) then multiset(products)[p] else 0
    ensures forall p :: p in r <==> p in products && Kept(p, category, query, categories)
    ensures |r| <= |products|
    ensures OrderedFor(r, order)
  {
    var byCategory := if category != "" then Filter(products, (p: Product) => p.categoryId == category) else products;
    var bySearch := if query != "" then Filter(byCategory, (p: Product) => MatchesQuery(p, query, categories)) else byCategory;
    var r := SortBy(bySearch, SortKey(order));
    forall p ensures multiset(r)[p] == if Kept(p, category, query, categories) then multiset(products)[p] else 0 {
      if category != "" {
        FilterMultiset(products, (p: Product) => p.categoryId == category, p);
      }
      if query != "" {
        FilterMultiset(byCategory, (p: Product) => MatchesQuery(p, query, categories), p);
      }
    }
    forall p ensures p in r <==> p in products && Kept(p, category, query, categories) {
      assert p in r <==> multiset(r)[p] > 0;
      assert p in products <==> multiset(products)[p] > 0;
    }
    assert |r| <= |products| by {
      if category != "" {
        assert |byCategory| <= |products|;
      }
    }
    r
  }

  /** With no category, no query and the default order, every product is listed, most
      reviewed first. */
  lemma NoFilterListsAll(products: seq<Product>, categories: seq<Category>)
    ensures var r := FilterProducts(products, categories, "", "", Popular);
            multiset(r) == multiset(products)
            && forall i, j :: 0 <= i < j < |r| ==> r[i].reviewCount >= r[j].reviewCount
  {
    var r := FilterProducts(products, categories, "", "", Popular);
    forall p ensures multiset(r)[p] == multiset(products)[p] {
    }
  }

  /** A product of another category is never listed while a category is selected,
      whatever it matches. */
  lemma OtherCategoryHidden(products: seq<Product>, categories: seq<Category>,
                            category: string, query: string, order: SortOrder, p: Product)
    requires category != "" && p.categoryId != category
    ensures p !in FilterProducts(products, categories, category, query, order)
  {
  }
}

=== FILE: gift_finder.dfy ===
/**
 * The gift list of the stand-alone gift screen (src/components/features/GiftStore.tsx):
 * a gift is shown when its lower-cased name contains the lower-cased query and the chosen
 * category is "all" or the gift's own. Unlike the main store, descriptions are not searched.
 */
module GiftFinder {
  import opened Strings
  import opened Seqs

  datatype Gift = Gift(id: string, name: string, price: int, category: string, description: string)

  const AllCategories: string := "all"

  predicate Shown(g: Gift, query: string, category: string)
    ensures query == "" && category == AllCategories ==> Shown(g, query, category)
    ensures Shown(g, query, category) ==> |query| <= |g.name|
  {
    Contains(Lower(g.name), Lower(query)) && (category == AllCategories || g.category == category)
  }

  /** `filteredGifts`. */
  function FilteredGifts(gifts: seq<Gift>, query: string, category: string): (r: seq<Gift>)
    ensures |r| <= |gifts|
    ensures forall g :: g in r <==> g in gifts && Shown(g, query, category)
  {
    FilterMembers(gifts, (g: Gift) => Shown(g, query, category));
    Filter(gifts, (g: Gift) => Shown(g, query, category))
  }

  /** Filtering keeps the gifts' order: the list of a concatenation is the concatenation of
      the lists. */
  lemma FilterKeepsOrder(a: seq<Gift>, b: seq<Gift>, query: string, category: string)
    ensures FilteredGifts(a + b, query, category) == FilteredGifts(a, query, category) + FilteredGifts(b, query, category)
  {
    FilterConcat(a, b, (g: Gift) => Shown(g, query, category));
  }

  /** The empty query with category "all" shows every gift. */
  lemma EmptyQueryShowsAll(gifts: seq<Gift>)
    ensures FilteredGifts(gifts, "", AllCategories) == gifts
  {
    forall i | 0 <= i < |gifts|
      ensures Shown(gifts[i], "", AllCategories)
    {
      ContainsEmpty(Lower(gifts[i].name));
    }
    FilterKeepsAll(gifts, (g: Gift) => Shown(g, "", AllCategories));
  }

  /** A query found only in a gift's description does not show it. */
  lemma DescriptionNotSearched(g: Gift, query: string, category: string)
    requires Contains(Lower(g.description), Lower(query)) && !Contains(Lower(g.name), Lower(query))
    ensures g !in FilteredGifts([g], query, category)
  {
  }
}

=== FILE: identity.dfy ===
/**
 * The signed-in user's record as the client components receive it, and the
 * "sender/creator" stamp the timeline and chat screens attach to a newly created
 * item (src/components/Timeline.tsx and src/components/Chat.tsx build it the same way).
 */
module Identity {
  import opened Optional

  /** The fields of the loosely typed `user` object the components read. `None` stands for
      `undefined`/`null`; the source treats a present empty string the same way (`||`). */
  datatype User = User(
    id: string,
    name: Option<string>,
    username: Option<string>,
    email: Option<string>,
    metadataName: Option<string>)

  /** JavaScript's `||` on an optional string: the value when it is present and non-empty,
      else the fallback. */
  function OrElse(a: Option<string>, b: string): (r: string)
    ensures a.Some? && a.value != "" ==> r == a.value
    ensures (a.None? || a.value == "") ==> r == b
  {
    if a.Some? && a.value != "" then a.value else b
  }

  /** A value `||` treats as truthy: present and non-empty. */
  predicate Present(a: Option<string>) {
    a.Some? && a.value != ""
  }

  datatype Stamp = Stamp(id: Option<string>, name: string, username: string)

  /** The stamp of a new item: the user's id; as name the user's name, else the username,
      else "You"; as username the username, else "user". */
  function StampFor(user: Option<User>): (s: Stamp)
    ensures user.None? ==> s == Stamp(None, "You", "user")
    ensures user.Some? ==> s.id == Some(user.value.id)
    ensures s.name != "" && s.username != ""
    ensures user.Some? && user.value.username.Some? && user.value.username.value != "" ==>
              s.username == user.value.username.value
    ensures user.Some? && user.value.name.Some? && user.value.name.value != "" ==>
              s.name == user.value.name.value
    ensures user.Some? && !Present(user.value.name) && Present(user.value.username) ==>
              s.name == user.value.username.value
    ensures user.Some? && !Present(user.value.name) && !Present(user.value.username) ==>
              s.name == "You"
    ensures user.Some? && !Present(user.value.username) ==> s.username == "user"
  {
    match user
    case None => Stamp(None, "You", "user")
    case Some(u) => Stamp(Some(u.id), OrElse(u.name, OrElse(u.username, "You")), OrElse(u.username, "user"))
  }
}

=== FILE: json.dfy ===
/**
 * The JSON values a request body can carry once parsed, with JavaScript truthiness:
 * `undefined` stands for a key the body does not have.
 */
module Json {

  datatype Json =
    | Undefined
    | Null
    | Bool(b: bool)
    | Num(n: int)
    | Str(s: string)
    | Arr(items: seq<Json>)

  /** `Boolean(v)`: false for undefined, null, false, 0 and ""; true otherwise. */
  predicate Truthy(v: Json) {
    match v
    case Undefined => false
    case Null => false
    case Bool(b) => b
    case Num(n) => n != 0
    case Str(s) => s != ""
    case Arr(_) => true
  }

  /** `v?.trim()` succeeds only on a string and on a missing value; any other value has no
      `trim` method and the call throws. */
  predicate Trimmable(v: Json) {
    v.Undefined? || v.Null? || v.Str?
  }
}

=== FILE: media_grid.dfy ===
/**
 * How an event's photos are laid out in the list views of src/components/Timeline.tsx
 * and src/components/TimelineMemories.tsx (both files carry the same markup): one photo
 * is shown full width; otherwise the first four go in a 2x2 grid and the fourth tile
 * carries a "+N" overlay for the photos that did not fit.
 */
module MediaGrid {
  import opened Optional

  const MaxTiles: nat := 4

  /** One grid tile; `hidden` is the number printed on the "+N" overlay, if any. */
  datatype Tile = Tile(url: string, hidden: Option<nat>)

  datatype Layout = NoMedia | Single(url: string) | Grid(tiles: seq<Tile>)

  function LayoutOf(urls: seq<string>): (l: Layout)
    ensures l.NoMedia? <==> |urls| == 0
    ensures l.Single? <==> |urls| == 1
    ensures l.Single? ==> l.url == urls[0]
    ensures l.Grid? ==> |l.tiles| == (if |urls| < MaxTiles then |urls| else MaxTiles)
    ensures l.Grid? ==> forall i :: 0 <= i < |l.tiles| ==> l.tiles[i].url == urls[i]
    ensures l.Grid? ==> forall i :: 0 <= i < |l.tiles| ==>
              (l.tiles[i].hidden.Some? <==> i == MaxTiles - 1 && |urls| > MaxTiles)
  {
    if |urls| == 0 then NoMedia
    else if |urls| == 1 then Single(urls[0])
    else
      var shown := if |urls| < MaxTiles then |urls| else MaxTiles;
      Grid(seq(shown, i requires 0 <= i < shown =>
        Tile(urls[i], if i == MaxTiles - 1 && |urls| > MaxTiles then Some(|urls| - MaxTiles) else None)))
  }

  /** The photos shown plus the number on the overlay account for every photo exactly. */
  function Accounted(l: Layout): nat {
    match l
    case NoMedia => 0
    case Single(_) => 1
    case Grid(tiles) =>
      |tiles| + (if |tiles| == MaxTiles && tiles[MaxTiles - 1].hidden.Some? then tiles[MaxTiles - 1].hidden.value else 0)
  }

  lemma EveryPhotoAccounted(urls: seq<string>)
    ensures Accounted(LayoutOf(urls)) == |urls|
  {
  }
}

=== FILE: memory_storage.dfy ===
/**
 * The storage helpers of the server (src/supabase/functions/server/memory-storage.tsx):
 * validating an uploaded image, building its storage path from a sanitised file name,
 * turning stored paths into URLs, and choosing which paths to delete. The storage bucket
 * is outside the model: whether an upload or a signing request succeeds is an input.
 */
module MemoryStorage {
  import opened Optional
  import opened Strings
  import opened Seqs

  // ---------------------------------------------------------------------------
  // Validation

  const MaxImageBytes: int := 10 * 1024 * 1024

  const AllowedTypes: seq<string> := ["image/jpeg", "image/png", "image/gif", "image/webp"]

  const SizeError: string := "File size must be less than 10MB"
  const TypeError: string := "File must be JPEG, PNG, GIF, or WebP"

  datatype Validation = Valid | Invalid(error: string)

  /** `validateImageFile`: the size is checked first, then the type. */
  function ValidateImage(size: int, mimeType: string): (v: Validation)
    ensures v.Valid? <==> size <= MaxImageBytes && mimeType in AllowedTypes
    ensures size > MaxImageBytes ==> v == Invalid(SizeError)
    ensures size <= MaxImageBytes && mimeType !in AllowedTypes ==> v == Invalid(TypeError)
  {
    if size > MaxImageBytes then Invalid(SizeError)
    else if mimeType !in AllowedTypes then Invalid(TypeError)
    else Valid
  }

  /** Exactly ten mebibytes is still accepted; one byte more is not. */
  lemma SizeLimitIsInclusive()
    ensures ValidateImage(10 * 1024 * 1024, "image/png").Valid?
    ensures ValidateImage(10 * 1024 * 1024 + 1, "image/png") == Invalid(SizeError)
  {
  }

  // ---------------------------------------------------------------------------
  // Storage path

  /** The characters `[a-zA-Z0-9.-]` that survive sanitising. */
  predicate SafeChar(c: char) {
    IsAsciiUpper(c) || IsAsciiLower(c) || IsDigit(c) || c == '.' || c == '-'
  }

  /** `fileName.replace(/[^a-zA-Z0-9.-]/g, '_')`. */
  function Sanitize(fileName: string): (r: string)
    ensures |r| == |fileName|
    ensures forall i :: 0 <= i < |r| ==> r[i] == (if SafeChar(fileName[i]) then fileName[i] else '_')
  {
    seq(|fileName|, i requires 0 <= i < |fileName| => if SafeChar(fileName[i]) then fileName[i] else '_')
  }

  /** Sanitising a sanitised name changes nothing, and no sanitised name contains a path
      separator. */
  lemma SanitizeIdempotent(fileName: string)
    ensures Sanitize(Sanitize(fileName)) == Sanitize(fileName)
    ensures '/' !in Sanitize(fileName)
  {
    var r := Sanitize(fileName);
    assert forall i :: 0 <= i < |r| ==> r[i] != '/';
  }

  /** `${userId}/${memoryId}/${timestamp}_${sanitizedFileName}`; the timestamp is the
      upload time in milliseconds, an input here. */
  function StoragePath(userId: string, memoryId: string, timestamp: nat, fileName: string): (path: string)
    ensures userId + "/" + memoryId + "/" <= path
    ensures |path| >= |fileName| && path[|path| - |fileName|..] == Sanitize(fileName)
  {
    userId + "/" + memoryId + "/" + NatToString(timestamp) + "_" + Sanitize(fileName)
  }

  /** When the ids contain no '/', the path has exactly three segments: the user, the
      memory, and the file segment. */
  lemma {:induction false} StoragePathSegments(userId: string, memoryId: string, timestamp: nat, fileName: string)
    requires '/' !in userId && '/' !in memoryId
    ensures Split(StoragePath(userId, memoryId, timestamp, fileName), '/')
            == [userId, memoryId, NatToString(timestamp) + "_" + Sanitize(fileName)]
  {
    var stamp := NatToString(timestamp);
    var last := stamp + "_" + Sanitize(fileName);
    SanitizeIdempotent(fileName);
    assert '/' !in stamp by {
      assert forall i :: 0 <= i < |stamp| ==> IsDigit(stamp[i]);
    }
    assert '/' !in last;
    assert StoragePath(userId, memoryId, timestamp, fileName) == userId + ['/'] + (memoryId + ['/'] + last);
    SplitAfterPart(userId, memoryId + ['/'] + last, '/');
    SplitAfterPart(memoryId, last, '/');
    SplitWithoutSeparator(last, '/');
  }

  /** The file segment begins with the timestamp, up to the first '_', and it reads back as
      the same number. */
  lemma {:induction false} FileSegmentStamp(timestamp: nat, fileName: string)
    ensures var stamp := FirstToken(NatToString(timestamp) + "_" + Sanitize(fileName), '_');
            (forall i :: 0 <= i < |stamp| ==> IsDigit(stamp[i])) && ParseDigits(stamp) == timestamp
  {
    var stamp := NatToString(timestamp);
    assert '_' !in stamp by {
      assert forall i :: 0 <= i < |stamp| ==> IsDigit(stamp[i]);
    }
    assert stamp + "_" + Sanitize(fileName) == stamp + ['_'] + Sanitize(fileName);
    SplitAfterPart(stamp, Sanitize(fileName), '_');
    ParseNatToString(timestamp);
  }

  /** How the bucket answered a request: a value, or an error message. */
  datatype Answer = Done(value: string) | Error(message: string)

  datatype UploadResult = Uploaded(url: string, path: string) | UploadFailed(error: string)

  /** `uploadMemoryImage` after the path is built: a storage error or a signing error is
      reported with its message; otherwise the signed URL and the path come back. The
      bucket stores the file under the path it was given. */
  function UploadMemoryImage(userId: string, memoryId: string, timestamp: nat, fileName: string,
                             stored: Answer, signed: string -> Answer): (r: UploadResult)
    ensures stored.Error? ==> r == UploadFailed(stored.message)
    ensures stored.Done? && signed(StoragePath(userId, memoryId, timestamp, fileName)).Error? ==>
              r == UploadFailed(signed(StoragePath(userId, memoryId, timestamp, fileName)).message)
    ensures r.Uploaded? ==> r.path == StoragePath(userId, memoryId, timestamp, fileName)
                            && signed(r.path) == Done(r.url)
  {
    var path := StoragePath(userId, memoryId, timestamp, fileName);
    match stored
    case Error(m) => UploadFailed(m)
    case Done(_) =>
      match signed(path)
      case Error(m) => UploadFailed(m)
      case Done(url) => Uploaded(url, path)
  }

  // ---------------------------------------------------------------------------
  // Resolving and deleting stored images

  predicate IsUrl(path: string) {
    StartsWith(path, "http")
  }

  /** `getMemoryImageUrls`: an entry that already is a URL passes through; a storage path
      becomes its signed URL, or is skipped when signing fails. */
  function ResolveUrls(paths: seq<string>, sign: string -> Option<string>): (urls: seq<string>)
    ensures |urls| <= |paths|
    ensures paths == [] ==> urls == []
    decreases |paths|
  {
    if |paths| == 0 then []
    else
      var rest := ResolveUrls(paths[1..], sign);
      var p := paths[0];
      if IsUrl(p) then [p] + rest
      else match sign(p)
        case Some(u) => [u] + rest
        case None => rest
  }

  /** Every URL returned is either one of the entries, kept as a URL, or what signing made
      of a stored path. */
  lemma {:induction false} ResolvedUrlOrigin(paths: seq<string>, sign: string -> Option<string>, u: string)
    requires u in ResolveUrls(paths, sign)
    ensures (u in paths && IsUrl(u)) || exists p :: p in paths && !IsUrl(p) && sign(p) == Some(u)
    decreases |paths|
  {
    var p := paths[0];
    var rest := ResolveUrls(paths[1..], sign);
    if u in rest {
      ResolvedUrlOrigin(paths[1..], sign, u);
      if exists q :: q in paths[1..] && !IsUrl(q) && sign(q) == Some(u) {
        var q :| q in paths[1..] && !IsUrl(q) && sign(q) == Some(u);
        assert q in paths;
      } else {
        assert u in paths[1..];
        assert u in paths;
      }
    } else if IsUrl(p) {
      assert u == p;
    } else {
      assert sign(p) == Some(u);
    }
  }

  /** Resolving works entry by entry: the URLs of a concatenation are the concatenation
      of the URLs, so the order of the entries is kept. */
  lemma {:induction false} ResolveUrlsConcat(a: seq<string>, b: seq<string>, sign: string -> Option<string>)
    ensures ResolveUrls(a + b, sign) == ResolveUrls(a, sign) + ResolveUrls(b, sign)
    decreases |a|
  {
    if |a| == 0 {
      assert a + b == b;
    } else {
      ResolveUrlsConcat(a[1..], b, sign);
      assert (a + b)[0] == a[0];
      assert (a + b)[1..] == a[1..] + b;
      var p := a[0];
      var head := if IsUrl(p) then [p] else if sign(p).Some? then [sign(p).value] else [];
      assert ResolveUrls(a + b, sign) == head + ResolveUrls(a[1..] + b, sign);
      assert ResolveUrls(a, sign) == head + ResolveUrls(a[1..], sign);
      assert head + (ResolveUrls(a[1..], sign) + ResolveUrls(b, sign))
          == (head + ResolveUrls(a[1..], sign)) + ResolveUrls(b, sign);
    }
  }

  /** A list of URLs comes back unchanged, whatever signing would do. */
  lemma {:induction false} UrlsPassThrough(paths: seq<string>, sign: string -> Option<string>)
    requires forall i :: 0 <= i < |paths| ==> IsUrl(paths[i])
    ensures ResolveUrls(paths, sign) == paths
    decreases |paths|
  {
    if |paths| > 0 {
      UrlsPassThrough(paths[1..], sign);
    }
  }

  /** When every signing succeeds, nothing is skipped. */
  lemma {:induction false} NothingSkipped(paths: seq<string>, sign: string -> Option<string>)
    requires forall i :: 0 <= i < |paths| ==> sign(paths[i]).Some?
    ensures |ResolveUrls(paths, sign)| == |paths|
    decreases |paths|
  {
    if |paths| > 0 {
      NothingSkipped(paths[1..], sign);
    }
  }

  /** The paths `deleteMemoryImages` asks the bucket to remove, or `None` when it returns
      without a request: for no input, or when every entry is a URL. */
  function DeletionPaths(paths: seq<string>): (r: Option<seq<string>>)
    ensures r.None? <==> forall i :: 0 <= i < |paths| ==> IsUrl(paths[i])
    ensures r.Some? ==> |r.value| > 0 && forall p :: p in r.value <==> p in paths && !IsUrl(p)
  {
    if |paths| == 0 then None
    else
      var storage := Filter(paths, (p: string) => !IsUrl(p));
      FilterMembers(paths, (p: string) => !IsUrl(p));
      if |storage| == 0 then
        assert forall i :: 0 <= i < |paths| ==> paths[i] in paths;
        None
      else
        assert storage[0] in paths && !IsUrl(storage[0]);
        Some(storage)
  }
}

=== FILE: onboarding_flow.dfy ===
/**
 * The sign-up and sign-in screens (src/components/OnboardingFlow.tsx): the username field's
 * normalisation, the availability check's status, the guards of the two submit handlers,
 * and the moves between the welcome, sign-up and sign-in screens. The availability request
 * and the authentication requests are inputs.
 */
module OnboardingFlow {
  import opened Optional
  import opened Strings
  import opened Seqs
  import ServerRoutes

  // ---------------------------------------------------------------------------
  // Username field

  /** `[a-z0-9_]`. */
  predicate NormalChar(c: char) {
    IsAsciiLower(c) || IsDigit(c) || c == '_'
  }

  /** `value.toLowerCase().replace(/[^a-z0-9_]/g, '')`. */
  function NormalizeUsername(typed: string): (r: string)
    ensures |r| <= |typed|
    ensures forall i :: 0 <= i < |r| ==> NormalChar(r[i])
    ensures forall c :: multiset(r)[c] == if NormalChar(c) then multiset(Lower(typed))[c] else 0
  {
    var r := Filter(Lower(typed), NormalChar);
    FilterMembers(Lower(typed), NormalChar);
    KeptCharacters(Lower(typed));
    assert forall i :: 0 <= i < |r| ==> r[i] in r;
    r
  }

  /** The filter keeps every copy of a normal character and nothing else. */
  lemma KeptCharacters(s: string)
    ensures forall c :: multiset(Filter(s, NormalChar))[c] == if NormalChar(c) then multiset(s)[c] else 0
  {
    forall c
      ensures multiset(Filter(s, NormalChar))[c] == if NormalChar(c) then multiset(s)[c] else 0
    {
      FilterMultiset(s, NormalChar, c);
    }
  }

  /** Normalising works character by character: the kept characters stay in the order
      they were typed. */
  lemma NormalizeConcat(a: string, b: string)
    ensures NormalizeUsername(a + b) == NormalizeUsername(a) + NormalizeUsername(b)
  {
    assert Lower(a + b) == Lower(a) + Lower(b);
    FilterConcat(Lower(a), Lower(b), NormalChar);
  }

  /** Normalising twice is normalising once. */
  lemma NormalizeIdempotent(typed: string)
    ensures NormalizeUsername(NormalizeUsername(typed)) == NormalizeUsername(typed)
  {
    var once := NormalizeUsername(typed);
    assert Lower(once) == once;
    FilterKeepsAll(once, NormalChar);
  }

  /** A typed name that is already normal is kept as it is. */
  lemma NormalNameKept(typed: string)
    requires forall i :: 0 <= i < |typed| ==> NormalChar(typed[i])
    ensures NormalizeUsername(typed) == typed
  {
    assert Lower(typed) == typed;
    FilterKeepsAll(typed, NormalChar);
  }

  /** Every normalised name passes the server's character check, so the server can only
      refuse it for its length or because it is taken. */
  lemma NormalizedPassesServerCharacters(typed: string)
    ensures forall i :: 0 <= i < |NormalizeUsername(typed)| ==>
              ServerRoutes.UsernameChar(NormalizeUsername(typed)[i])
  {
  }

  // ---------------------------------------------------------------------------
  // Availability status

  /** `available` is `None` while unknown (`null`). */
  datatype UsernameStatus = UsernameStatus(checking: bool, available: Option<bool>, message: string)

  const Unknown: UsernameStatus := UsernameStatus(false, None, "")
  const Checking: UsernameStatus := UsernameStatus(true, None, "Checking...")

  /** How the availability request settled. */
  datatype CheckReply = Answered(answer: ServerRoutes.UsernameAnswer) | NotOk | NetworkError

  /** The statuses `checkUsernameAvailability` sets, in order. A name shorter than three
      resets the status and sends no request. */
  function CheckStatuses(username: string, reply: CheckReply): (trace: seq<UsernameStatus>)
    ensures Utf16Length(username) < 3 <==> trace == [Unknown]
    ensures Utf16Length(username) >= 3 ==> |trace| == 2 && trace[0] == Checking && !trace[1].checking
    ensures Utf16Length(username) >= 3 ==> (trace[1].available == Some(true) <==> reply.Answered? && reply.answer.available)
    ensures Utf16Length(username) >= 3 && reply.Answered? ==>
              trace[1] == UsernameStatus(false, Some(reply.answer.available), reply.answer.message)
    ensures Utf16Length(username) >= 3 && reply.NotOk? ==>
              trace[1] == UsernameStatus(false, Some(false), "Unable to check username")
    ensures Utf16Length(username) >= 3 && reply.NetworkError? ==>
              trace[1] == UsernameStatus(false, Some(false), "Network error")
  {
    if Utf16Length(username) < 3 then [Unknown]
    else
      var last := match reply
        case Answered(a) => UsernameStatus(false, Some(a.available), a.message)
        case NotOk => UsernameStatus(false, Some(false), "Unable to check username")
        case NetworkError => UsernameStatus(false, Some(false), "Network error");
      [Checking, last]
  }

  /** A well-formed name the server finds free ends up "available"; one it finds taken ends
      up "unavailable" with the server's message. */
  lemma CheckAgreesWithServer(typed: string)
    requires |NormalizeUsername(typed)| >= 3
    ensures var name := NormalizeUsername(typed);
            && CheckStatuses(name, Answered(ServerRoutes.CheckUsername(name, ServerRoutes.NoRow)))[1]
               == UsernameStatus(false, Some(true), ServerRoutes.Available)
            && CheckStatuses(name, Answered(ServerRoutes.CheckUsername(name, ServerRoutes.Row)))[1]
               == UsernameStatus(false, Some(false), ServerRoutes.Taken)
  {
    var name := NormalizeUsername(typed);
    assert Utf16Length(name) >= 3;
    ServerRoutes.WellFormedNameIsLookedUp(name);
  }

  // ---------------------------------------------------------------------------
  // Submit guards

  datatype SignUpForm = SignUpForm(email: string, password: string, name: string, username: string)

  const MissingFields: string := "Please fill in all required fields"
  const UnavailableName: string := "Please choose an available username"
  const MissingSignIn: string := "Please fill in all fields"

  /** `handleSignUp`'s guard: the error it shows, or `None` when it goes on to send the
      request. Fields are checked for emptiness without trimming; only a known-unavailable
      name blocks, an unknown one does not. */
  function SignUpGuard(form: SignUpForm, status: UsernameStatus): (error: Option<string>)
    ensures (form.name == "" || form.username == "" || form.email == "" || form.password == "")
              <==> error == Some(MissingFields)
    ensures error.None? <==> form.name != "" && form.username != "" && form.email != "" && form.password != ""
                             && status.available != Some(false)
  {
    if form.name == "" || form.username == "" || form.email == "" || form.password == "" then Some(MissingFields)
    else if status.available == Some(false) then Some(UnavailableName)
    else None
  }

  /** The "Create Account" button is disabled while loading or when the name is known to be
      unavailable, so a click on the enabled button with every field filled always sends. */
  lemma EnabledButtonSends(form: SignUpForm, status: UsernameStatus, loading: bool)
    requires !(loading || status.available == Some(false))
    requires form.name != "" && form.username != "" && form.email != "" && form.password != ""
    ensures SignUpGuard(form, status).None?
  {
  }

  /** `handleSignIn`'s guard. */
  function SignInGuard(email: string, password: string): (error: Option<string>)
    ensures error.None? <==> email != "" && password != ""
    ensures error.Some? ==> error.value == MissingSignIn
  {
    if email == "" || password == "" then Some(MissingSignIn) else None
  }

  // ---------------------------------------------------------------------------
  // Screens

  datatype Step = Welcome | SignUp | SignIn

  /** The buttons that change the screen: the two on the welcome screen, and the back arrow
      and the cross-link on each form. */
  datatype Button = CreateAccount | HaveAccount | Back | ToSignIn | ToSignUp

  /** The buttons each screen draws. */
  predicate Shows(step: Step, b: Button) {
    match step
    case Welcome => b == CreateAccount || b == HaveAccount
    case SignUp => b == Back || b == ToSignIn
    case SignIn => b == Back || b == ToSignUp
  }

  /** The screen a button names in its label. */
  function Destination(b: Button): Step {
    match b
    case CreateAccount => SignUp
    case ToSignUp => SignUp
    case HaveAccount => SignIn
    case ToSignIn => SignIn
    case Back => Welcome
  }

  /** Pressing a button of the current screen; a button that screen does not show changes
      nothing. */
  function Press(step: Step, b: Button): (next: Step)
    ensures Shows(step, b) ==> next == Destination(b)
    ensures !Shows(step, b) ==> next == step
    ensures next != step ==> Shows(step, b)
  {
    match (step, b)
    case (Welcome, CreateAccount) => SignUp
    case (Welcome, HaveAccount) => SignIn
    case (SignUp, Back) => Welcome
    case (SignUp, ToSignIn) => SignIn
    case (SignIn, Back) => Welcome
    case (SignIn, ToSignUp) => SignUp
    case _ => step
  }

  function PressAll(step: Step, buttons: seq<Button>): Step
    decreases |buttons|
  {
    if |buttons| == 0 then step else PressAll(Press(step, buttons[0]), buttons[1..])
  }

  /** The two forms link to each other, and from anywhere the back arrow and then a welcome
      button reach either form. */
  lemma ScreensConnected(step: Step)
    ensures Press(SignUp, ToSignIn) == SignIn && Press(SignIn, ToSignUp) == SignUp
    ensures Press(Welcome, CreateAccount) == SignUp && Press(Welcome, HaveAccount) == SignIn
    ensures PressAll(SignUp, [ToSignIn, ToSignUp]) == SignUp
    ensures PressAll(step, [Back, CreateAccount]) == SignUp
    ensures PressAll(step, [Back, HaveAccount]) == SignIn
  {
  }

  /** Which screen is drawn for a step value; an unknown value draws the welcome screen. */
  function ScreenFor(step: string): (s: Step)
    ensures step == "signup" <==> s == SignUp
    ensures step == "signin" <==> s == SignIn
  {
    if step == "signup" then SignUp else if step == "signin" then SignIn else Welcome
  }
}

=== FILE: optional.dfy ===
/** The absent-or-present value the source writes as `undefined`/`null` versus a value. */
module Optional {

  datatype Option<+T> = None | Some(value: T) {

    /** Returns the value encapsulated in Some, or `default` when None. */
    function GetOr(default: T): T {
      match this
      case Some(v) => v
      case None => default
    }
  }
}

=== FILE: period_tracker.dfy ===
/**
 * The cycle screen (src/components/features/PeriodTracker.tsx): the day of the cycle, the
 * days left until the next period, and the phase the day falls in. The current time and the
 * start of the last period are inputs, in milliseconds.
 */
module PeriodTracker {
  import opened DayCount

  /** `getDaysSinceLastPeriod`: whole days since the last period began, rounded up. */
  function DaysSinceLastPeriod(nowMs: int, lastPeriodMs: int): (days: nat)
    ensures days * DayMs >= Abs(nowMs - lastPeriodMs)
    ensures nowMs != lastPeriodMs ==> days >= 1
    ensures days == 0 || (days - 1) * DayMs < Abs(nowMs - lastPeriodMs)
  {
    CeilDays(nowMs, lastPeriodMs)
  }

  /** `cycleLength - getDaysSinceLastPeriod()`, with no clamping: it goes negative once the
      period is late. */
  function DaysUntilNext(cycleLength: int, nowMs: int, lastPeriodMs: int): (left: int)
    ensures left < 0 <==> DaysSinceLastPeriod(nowMs, lastPeriodMs) > cycleLength
    ensures left + DaysSinceLastPeriod(nowMs, lastPeriodMs) == cycleLength
  {
    cycleLength - DaysSinceLastPeriod(nowMs, lastPeriodMs)
  }

  datatype Phase = Menstrual | Follicular | Ovulation | Luteal

  /** The position of a phase in the cycle. */
  function Rank(p: Phase): nat {
    match p
    case Menstrual => 0
    case Follicular => 1
    case Ovulation => 2
    case Luteal => 3
  }

  /** `getCurrentPhase`, by the day of the cycle. */
  function PhaseOf(day: int): (p: Phase)
    ensures p == Menstrual <==> day <= 5
    ensures p == Follicular <==> 6 <= day <= 13
    ensures p == Ovulation <==> 14 <= day <= 16
    ensures p == Luteal <==> day >= 17
  {
    if day <= 5 then Menstrual
    else if day <= 13 then Follicular
    else if day <= 16 then Ovulation
    else Luteal
  }

  /** A later day never falls in an earlier phase. */
  lemma PhaseMonotone(d1: int, d2: int)
    requires d1 <= d2
    ensures Rank(PhaseOf(d1)) <= Rank(PhaseOf(d2))
  {
  }

  /** Each phase is one run of consecutive days: a day between two days of a phase is in it
      too. */
  lemma PhasesAreIntervals(d1: int, d: int, d2: int)
    requires d1 <= d <= d2 && PhaseOf(d1) == PhaseOf(d2)
    ensures PhaseOf(d) == PhaseOf(d1)
  {
    PhaseMonotone(d1, d);
    PhaseMonotone(d, d2);
  }

  /** The day count never drops as time passes, so neither does the phase. */
  lemma PhaseAdvancesWithTime(lastPeriodMs: int, t1: int, t2: int)
    requires lastPeriodMs <= t1 <= t2
    ensures DaysSinceLastPeriod(t1, lastPeriodMs) <= DaysSinceLastPeriod(t2, lastPeriodMs)
    ensures Rank(PhaseOf(DaysSinceLastPeriod(t1, lastPeriodMs))) <= Rank(PhaseOf(DaysSinceLastPeriod(t2, lastPeriodMs)))
  {
    var a := DaysSinceLastPeriod(t1, lastPeriodMs);
    var b := DaysSinceLastPeriod(t2, lastPeriodMs);
    if b < a {
      assert b * DayMs >= t2 - lastPeriodMs >= t1 - lastPeriodMs;
      assert (a - 1) * DayMs < t1 - lastPeriodMs;
      assert b <= a - 1;
      MulMonotone(b, a - 1, DayMs);
    }
    PhaseMonotone(a, b);
  }

  lemma MulMonotone(x: nat, y: nat, k: nat)
    requires x <= y
    ensures x * k <= y * k
  {
  }
}

=== FILE: photo_removal.dfy ===
/**
 * Removing one photo from the "add memory" sheet of src/components/Timeline.tsx: the
 * photo, its preview and its upload-progress entry go together, and the progress entries
 * of the photos after it move down by one so that each still sits at its photo's position.
 */
module PhotoRemoval {

  /** Where the entry now at key `k` came from when the photo at `index` is removed. */
  function Origin(k: int, index: int): int {
    if k < index then k else k + 1
  }

  /** Filtering out one position: drops the element at `index`, if there is one. */
  function DropIndex<T>(s: seq<T>, index: int): (r: seq<T>)
    ensures 0 <= index < |s| ==> |r| == |s| - 1
    ensures 0 <= index < |s| ==> forall j :: 0 <= j < |r| ==> r[j] == s[Origin(j, index)]
    ensures !(0 <= index < |s|) ==> r == s
  {
    if 0 <= index < |s| then s[..index] + s[index + 1..] else s
  }

  /** The reindexing half of `removeImage`: key `index` goes, keys above it move down by one,
      keys below it stay, and every value travels with its key. The source walks the keys of
      a plain object in whatever order they come; so does this loop. */
  method ReindexProgress(progress: map<int, int>, index: int) returns (reindexed: map<int, int>)
    ensures forall k :: k in reindexed <==> Origin(k, index) in progress
    ensures forall k :: k in reindexed ==> reindexed[k] == progress[Origin(k, index)]
    ensures index in progress ==> |reindexed| == |progress| - 1
    ensures index !in progress ==> |reindexed| == |progress|
  {
    var pending := progress.Keys - {index};
    reindexed := map[];
    while pending != {}
      invariant pending <= progress.Keys - {index}
      invariant Moved(progress, index, pending, reindexed)
      invariant |reindexed| + |pending| == |progress.Keys - {index}|
      decreases pending
    {
      if forall k :: k !in pending {
        assert false;
      }
      var key :| key in pending;
      var target := Target(key, index);
      MoveOne(progress, index, pending, reindexed, key);
      CountStep(reindexed, target, progress[key], pending, key);
      reindexed := reindexed[target := progress[key]];
      pending := pending - {key};
    }
    AllMoved(progress, index, reindexed);
  }

  /** Once nothing is pending, every entry has moved and none was lost. */
  lemma AllMoved(progress: map<int, int>, index: int, reindexed: map<int, int>)
    requires Moved(progress, index, {}, reindexed)
    requires |reindexed| == |progress.Keys - {index}|
    ensures forall k :: k in reindexed <==> Origin(k, index) in progress
    ensures forall k :: k in reindexed ==> reindexed[k] == progress[Origin(k, index)]
    ensures index in progress ==> |reindexed| == |progress| - 1
    ensures index !in progress ==> |reindexed| == |progress|
  {
    assert |progress.Keys| == |progress|;
    if index in progress {
      assert progress.Keys == (progress.Keys - {index}) + {index};
    } else {
      assert progress.Keys - {index} == progress.Keys;
    }
  }

  /** Where the entry at key `key` goes: one down when it was above the removed photo. */
  function Target(key: int, index: int): (k: int)
    requires key != index
    ensures Origin(k, index) == key
  {
    if key > index then key - 1 else key
  }

  /** The loop's state: exactly the entries no longer pending have moved, each to the key
      it belongs at. */
  ghost predicate Moved(progress: map<int, int>, index: int, pending: set<int>, reindexed: map<int, int>) {
    && (forall k :: k in reindexed <==> Origin(k, index) in progress && Origin(k, index) !in pending)
    && (forall k :: k in reindexed ==> reindexed[k] == progress[Origin(k, index)])
  }

  /** Moving one pending entry keeps the loop's state. */
  lemma MoveOne(progress: map<int, int>, index: int, pending: set<int>, reindexed: map<int, int>, key: int)
    requires pending <= progress.Keys - {index} && key in pending
    requires Moved(progress, index, pending, reindexed)
    ensures Target(key, index) !in reindexed
    ensures Moved(progress, index, pending - {key}, reindexed[Target(key, index) := progress[key]])
  {
    var target := Target(key, index);
    var after := reindexed[target := progress[key]];
    forall k
      ensures k in after <==> Origin(k, index) in progress && Origin(k, index) !in pending - {key}
      ensures k in after ==> after[k] == progress[Origin(k, index)]
    {
      if k != target {
        OriginInjective(k, target, index);
      }
    }
  }

  lemma OriginInjective(a: int, b: int, index: int)
    requires a != b
    ensures Origin(a, index) != Origin(b, index)
  {
  }

  /** One step of the loop: the new key is fresh and the taken key was pending. */
  lemma CountStep(m: map<int, int>, target: int, v: int, pending: set<int>, key: int)
    requires target !in m && key in pending
    ensures |m[target := v]| == |m| + 1
    ensures |pending - {key}| == |pending| - 1
  {
    assert m[target := v].Keys == m.Keys + {target};
  }

  /** `removeImage`: position `index` is dropped from the photo list and from the preview
      list, each on its own terms (an index past a list's end leaves that list alone), and
      the progress entry of every remaining photo still sits at that photo's position. The
      two lists are not assumed to have the same length: previews arrive from asynchronous
      reads, and a read that fails adds none. */
  method RemoveImage<F>(images: seq<F>, previews: seq<string>, progress: map<int, int>, index: int)
    returns (images': seq<F>, previews': seq<string>, progress': map<int, int>)
    ensures 0 <= index < |images| ==> |images'| == |images| - 1
    ensures 0 <= index < |images| ==> forall j :: 0 <= j < |images'| ==> images'[j] == images[Origin(j, index)]
    ensures !(0 <= index < |images|) ==> images' == images
    ensures 0 <= index < |previews| ==> |previews'| == |previews| - 1
    ensures 0 <= index < |previews| ==> forall j :: 0 <= j < |previews'| ==> previews'[j] == previews[Origin(j, index)]
    ensures !(0 <= index < |previews|) ==> previews' == previews
    ensures forall j :: j in progress' <==> Origin(j, index) in progress
    ensures forall j :: j in progress' ==> progress'[j] == progress[Origin(j, index)]
  {
    progress' := ReindexProgress(progress, index);
    images' := DropIndex(images, index);
    previews' := DropIndex(previews, index);
  }
}

=== FILE: profile.dfy ===
/**
 * The profile screen's pairing and settings rules (src/components/Profile.tsx): the join
 * code field and its guard, the invite button's choice, and the notification switches.
 * The pairing requests themselves are left to the server.
 */
module Profile {
  import opened Optional
  import opened Strings

  const InvalidCode: string := "Please enter a valid invite code"

  /** The join code field upper-cases what is typed. */
  function JoinCodeInput(typed: string): (code: string)
    ensures |code| == |typed|
    ensures forall i :: 0 <= i < |code| ==> !IsAsciiLower(code[i])
    ensures forall i :: 0 <= i < |code| ==> code[i] == UpperChar(typed[i])
  {
    Upper(typed)
  }

  /** `handleJoinWithCode`'s guard: an empty code or one shorter than six UTF-16 units is
      refused before any request. */
  function JoinGuard(joinCode: string): (error: Option<string>)
    ensures error.Some? <==> Utf16Length(joinCode) < 6
    ensures error.Some? ==> error.value == InvalidCode
    ensures joinCode == "" ==> error == Some(InvalidCode)
  {
    if joinCode == "" || Utf16Length(joinCode) < 6 then Some(InvalidCode) else None
  }

  /** The "Connect" button is disabled for a short code or while a request runs. */
  predicate ConnectDisabled(joinCode: string, loading: bool) {
    Utf16Length(joinCode) < 6 || loading
  }

  /** Whatever the field holds, the enabled button always gets past the guard. */
  lemma EnabledConnectPassesGuard(typed: string, loading: bool)
    requires !ConnectDisabled(JoinCodeInput(typed), loading)
    ensures JoinGuard(JoinCodeInput(typed)).None?
  {
  }

  /** Six plain letters or digits, typed in either case, pass the guard. */
  lemma SixCharactersSuffice(typed: string)
    requires |typed| == 6 && forall i :: 0 <= i < 6 ==> IsAsciiLower(typed[i]) || IsAsciiUpper(typed[i]) || IsDigit(typed[i])
    ensures JoinGuard(JoinCodeInput(typed)).None?
  {
    var code := JoinCodeInput(typed);
    assert forall i :: 0 <= i < |code| ==> code[i] as int < 0x1_0000;
  }

  datatype InviteAction = ShowExisting | RequestNew

  /** The invite button: an existing code is shown again, otherwise a new one is
      requested. */
  function InviteButton(inviteCode: string): (a: InviteAction)
    ensures a == ShowExisting <==> inviteCode != ""
  {
    if inviteCode != "" then ShowExisting else RequestNew
  }

  // ---------------------------------------------------------------------------
  // Notification switches

  type Notifications = map<string, bool>

  /** The switches and their initial positions: everything on except location sharing. */
  const DefaultNotifications: Notifications :=
    map["partnerMood" := true, "gifts" := true, "milestones" := true, "location" := false]

  /** Flipping one switch (`{ ...prev, [key]: checked }`). */
  function SetNotification(n: Notifications, key: string, checked: bool): (r: Notifications)
    ensures r.Keys == n.Keys + {key}
    ensures key in r && r[key] == checked
    ensures forall k :: k in n && k != key ==> r[k] == n[k]
  {
    n[key := checked]
  }

  /** The switches are drawn from the settings' own keys, so flipping them never adds or
      removes a setting. */
  lemma {:induction false} SwitchesKeepKeys(n: Notifications, flips: seq<(string, bool)>)
    requires forall i :: 0 <= i < |flips| ==> flips[i].0 in n
    ensures Apply(n, flips).Keys == n.Keys
    decreases |flips|
  {
    if |flips| > 0 {
      var next := SetNotification(n, flips[0].0, flips[0].1);
      assert next.Keys == n.Keys;
      SwitchesKeepKeys(next, flips[1..]);
    }
  }

  function Apply(n: Notifications, flips: seq<(string, bool)>): Notifications
    decreases |flips|
  {
    if |flips| == 0 then n else Apply(SetNotification(n, flips[0].0, flips[0].1), flips[1..])
  }

  /** A switch nobody touches keeps its position. */
  lemma {:induction false} UntouchedSwitchKept(n: Notifications, flips: seq<(string, bool)>, key: string)
    requires key in n
    requires forall i :: 0 <= i < |flips| ==> flips[i].0 != key
    ensures key in Apply(n, flips) && Apply(n, flips)[key] == n[key]
    decreases |flips|
  {
    if |flips| > 0 {
      UntouchedSwitchKept(SetNotification(n, flips[0].0, flips[0].1), flips[1..], key);
    }
  }
}

=== FILE: seqs.dfy ===
/**
 * `Array.prototype.filter` and the few list facts the application's list updates rely on.
 */
module Seqs {

  /** `s.filter(p)`: the elements satisfying `p`, in their original order. */
  function Filter<T>(s: seq<T>, p: T -> bool): (r: seq<T>)
    ensures |r| <= |s|
  {
    if |s| == 0 then [] else (if p(s[0]) then [s[0]] else []) + Filter(s[1..], p)
  }

  /** The filter keeps exactly the elements satisfying the predicate. */
  lemma {:induction false} FilterMembers<T>(s: seq<T>, p: T -> bool)
    ensures forall x :: x in Filter(s, p) <==> x in s && p(x)
    decreases |s|
  {
    if |s| > 0 {
      FilterMembers(s[1..], p);
      assert s == [s[0]] + s[1..];
    }
  }

  /** Filtering distributes over concatenation, so it never reorders what it keeps. */
  lemma {:induction false} FilterConcat<T>(a: seq<T>, b: seq<T>, p: T -> bool)
    ensures Filter(a + b, p) == Filter(a, p) + Filter(b, p)
    decreases |a|
  {
    if |a| > 0 {
      var x, rest := a[0], a[1..];
      var head := if p(x) then [x] else [];
      FilterConcat(rest, b, p);
      assert a == [x] + rest;
      assert a + b == [x] + (rest + b);
      FilterCons(x, rest + b, p);
      FilterCons(x, rest, p);
      assert head + (Filter(rest, p) + Filter(b, p)) == (head + Filter(rest, p)) + Filter(b, p);
    } else {
      assert a + b == b;
    }
  }

  /** Filtering a list with a known head. */
  lemma FilterCons<T>(x: T, s: seq<T>, p: T -> bool)
    ensures Filter([x] + s, p) == (if p(x) then [x] else []) + Filter(s, p)
  {
    assert ([x] + s)[0] == x && ([x] + s)[1..] == s;
  }

  /** A filter that keeps every element returns the sequence unchanged. */
  lemma {:induction false} FilterKeepsAll<T>(s: seq<T>, p: T -> bool)
    requires forall i :: 0 <= i < |s| ==> p(s[i])
    ensures Filter(s, p) == s
    decreases |s|
  {
    if |s| > 0 {
      FilterKeepsAll(s[1..], p);
      assert [s[0]] + s[1..] == s;
    }
  }

  /** A filter that keeps nothing returns the empty sequence. */
  lemma {:induction false} FilterKeepsNone<T>(s: seq<T>, p: T -> bool)
    requires forall i :: 0 <= i < |s| ==> !p(s[i])
    ensures Filter(s, p) == []
    decreases |s|
  {
    if |s| > 0 {
      FilterKeepsNone(s[1..], p);
    }
  }

  /** Filtering keeps every copy of an element it accepts and no copy of one it rejects. */
  lemma {:induction false} FilterMultiset<T>(s: seq<T>, p: T -> bool, x: T)
    ensures multiset(Filter(s, p))[x] == if p(x) then multiset(s)[x] else 0
    decreases |s|
  {
    if |s| > 0 {
      FilterMultiset(s[1..], p, x);
      assert s == [s[0]] + s[1..];
    }
  }

  /** The number of elements satisfying `p`. */
  function Count<T>(s: seq<T>, p: T -> bool): nat
  {
    if |s| == 0 then 0 else (if p(s[0]) then 1 else 0) + Count(s[1..], p)
  }

  lemma {:induction false} FilterLength<T>(s: seq<T>, p: T -> bool)
    ensures |Filter(s, p)| == Count(s, p)
    decreases |s|
  {
    if |s| > 0 {
      FilterLength(s[1..], p);
    }
  }

  /** `Array.prototype.slice(0, n)`: at most the first `n` elements. */
  function Take<T>(s: seq<T>, n: nat): (r: seq<T>)
    ensures |r| == if |s| <= n then |s| else n
    ensures r <= s
  {
    if |s| <= n then s else s[..n]
  }

  /** No element occurs twice. */
  predicate NoDuplicates<T(==)>(s: seq<T>) {
    forall i, j :: 0 <= i < j < |s| ==> s[i] != s[j]
  }
}

=== FILE: server_routes.dfy ===
/**
 * Two routes of the server's entry point (src/supabase/functions/server/index.tsx): the
 * memory-image upload, whose checks run in a fixed order before anything is stored, and
 * the username availability check. The signed-in user, the parsed form, the storage
 * outcome and the database lookup are inputs.
 */
module ServerRoutes {
  import opened Optional
  import opened Strings
  import MemoryStorage

  // ---------------------------------------------------------------------------
  // Upload route

  datatype File = File(name: string, size: int, mimeType: string)

  /** What `formData.get('image')` returns: nothing, a text field, or a file. */
  datatype FormValue = Missing | Text(text: string) | Attached(file: File)

  datatype Form = Form(image: FormValue, memoryId: Option<string>)

  datatype UploadResponse =
    | Unauthorized                       // 401
    | BadRequest(error: string)          // 400
    | ServerError(error: string)         // 500
    | Stored(url: string, path: string)  // 200

  const NoImage: string := "No image file provided"
  const NoMemoryId: string := "Memory ID is required"

  /** `!imageFile`: a missing field and an empty text field are both absent. */
  predicate ImagePresent(v: FormValue) {
    v.Attached? || (v.Text? && v.text != "")
  }

  /** The request got past the first three checks: a signed-in user, an image field and a
      memory id, so validation decides what happens next. */
  predicate Ready(userId: Option<string>, form: Option<Form>) {
    && userId.Some? && userId.value != "" && form.Some? && ImagePresent(form.value.image)
    && form.value.memoryId.Some? && form.value.memoryId.value != ""
  }

  /** The validation a text field gets when it stands in for a file: its size is undefined,
      which is not larger than the limit, and its type is undefined, which is not allowed. */
  function ValidateValue(v: FormValue): (r: MemoryStorage.Validation)
    requires ImagePresent(v)
    ensures v.Text? ==> r == MemoryStorage.Invalid(MemoryStorage.TypeError)
  {
    match v
    case Attached(f) => MemoryStorage.ValidateImage(f.size, f.mimeType)
    case Text(_) => MemoryStorage.Invalid(MemoryStorage.TypeError)
  }

  /** The upload route. `form` is `None` when the body is not multipart form data (the
      parser throws); `timestamp` is the upload time; `stored` and `signed` are the
      bucket's answers. */
  function UploadImage(userId: Option<string>, form: Option<Form>, timestamp: nat,
                       stored: MemoryStorage.Answer, signed: string -> MemoryStorage.Answer): (r: UploadResponse)
    ensures (userId.None? || userId.value == "") <==> r.Unauthorized?
    ensures r.BadRequest? && r.error == NoImage <==>
              userId.Some? && userId.value != "" && form.Some? && !ImagePresent(form.value.image)
    ensures r.BadRequest? && r.error == NoMemoryId <==>
              userId.Some? && userId.value != "" && form.Some? && ImagePresent(form.value.image)
              && (form.value.memoryId.None? || form.value.memoryId.value == "")
    ensures r.Stored? ==> && userId.Some? && form.Some? && form.value.image.Attached?
                          && form.value.memoryId.Some?
                          && MemoryStorage.ValidateImage(form.value.image.file.size, form.value.image.file.mimeType).Valid?
                          && r.path == MemoryStorage.StoragePath(userId.value, form.value.memoryId.value, timestamp,
                                                                 form.value.image.file.name)
    ensures Ready(userId, form) && ValidateValue(form.value.image).Invalid? ==>
              r == BadRequest(ValidateValue(form.value.image).error)
    ensures Ready(userId, form) && ValidateValue(form.value.image).Valid? && stored.Error? ==>
              r == ServerError(stored.message)
    ensures Ready(userId, form) && ValidateValue(form.value.image).Valid? && stored.Done? ==>
              var path := MemoryStorage.StoragePath(userId.value, form.value.memoryId.value, timestamp,
                                                    form.value.image.file.name);
              && (signed(path).Error? ==> r == ServerError(signed(path).message))
              && (signed(path).Done? ==> r == Stored(signed(path).value, path))
  {
    if userId.None? || userId.value == "" then Unauthorized
    else if form.None? then ServerError("Failed to upload image")
    else
      var f := form.value;
      if !ImagePresent(f.image) then BadRequest(NoImage)
      else if f.memoryId.None? || f.memoryId.value == "" then BadRequest(NoMemoryId)
      else match ValidateValue(f.image)
        case Invalid(e) => BadRequest(e)
        case Valid =>
          var file := f.image.file;
          match MemoryStorage.UploadMemoryImage(userId.value, f.memoryId.value, timestamp, file.name, stored, signed)
          case UploadFailed(e) => ServerError(e)
          case Uploaded(url, path) => Stored(url, path)
  }

  /** An oversized file with a bad type is reported for its size: validation errors never
      mask the earlier checks and the size check comes before the type check. */
  lemma OversizeReportedFirst(userId: string, name: string, size: int, mimeType: string, memoryId: string,
                              timestamp: nat, stored: MemoryStorage.Answer, signed: string -> MemoryStorage.Answer)
    requires userId != "" && memoryId != "" && size > MemoryStorage.MaxImageBytes
    ensures UploadImage(Some(userId), Some(Form(Attached(File(name, size, mimeType)), Some(memoryId))), timestamp, stored, signed)
            == BadRequest(MemoryStorage.SizeError)
  {
  }

  // ---------------------------------------------------------------------------
  // Username availability

  const TooShort: string := "Username must be at least 3 characters long"
  const BadCharacters: string := "Username can only contain letters, numbers, and underscores"
  const NoTable: string := "Username is available (database table not yet configured)"
  const CannotCheck: string := "Unable to check username availability"
  const Available: string := "Username is available"
  const Taken: string := "Username is already taken"

  /** `[a-zA-Z0-9_]`. */
  predicate UsernameChar(c: char) {
    IsAsciiUpper(c) || IsAsciiLower(c) || IsDigit(c) || c == '_'
  }

  /** How the lookup of the name in `users` went. */
  datatype Lookup = Row | NoRow | LookupError(code: string)

  /** The JSON answer; `username` is echoed only by the answers that looked the name up. */
  datatype UsernameAnswer = UsernameAnswer(available: bool, username: Option<string>, message: string)

  /** The check-username route, in the source's order: length (in UTF-16 units), then the
      character set, then the lookup. A missing-table error counts as available, any other
      error (apart from "no row") as unavailable. */
  function CheckUsername(username: string, lookup: Lookup): (a: UsernameAnswer)
    ensures Utf16Length(username) < 3 ==> a == UsernameAnswer(false, None, TooShort)
    ensures Utf16Length(username) >= 3 && (exists i :: 0 <= i < |username| && !UsernameChar(username[i])) ==>
              a == UsernameAnswer(false, None, BadCharacters)
    ensures a.available ==> |username| >= 3 && forall i :: 0 <= i < |username| ==> UsernameChar(username[i])
    ensures a.username.Some? ==> a.username.value == username
    ensures a.available <==>
              && Utf16Length(username) >= 3
              && (forall i :: 0 <= i < |username| ==> UsernameChar(username[i]))
              && (lookup.NoRow? || lookup == LookupError("PGRST116") || lookup == LookupError("42P01"))
  {
    if Utf16Length(username) < 3 then UsernameAnswer(false, None, TooShort)
    else if exists i :: 0 <= i < |username| && !UsernameChar(username[i]) then
      UsernameAnswer(false, None, BadCharacters)
    else
      assert Utf16Length(username) == |username|;
      match lookup
      case LookupError(code) =>
        if code != "PGRST116" then
          if code == "42P01" then UsernameAnswer(true, Some(username), NoTable)
          else UsernameAnswer(false, None, CannotCheck)
        else UsernameAnswer(true, Some(username), Available)
      case Row => UsernameAnswer(false, Some(username), Taken)
      case NoRow => UsernameAnswer(true, Some(username), Available)
  }

  /** For a well-formed name the lookup decides: a taken name is reported taken, a free
      one available, both with the name echoed. */
  lemma WellFormedNameIsLookedUp(username: string)
    requires |username| >= 3 && forall i :: 0 <= i < |username| ==> UsernameChar(username[i])
    ensures CheckUsername(username, Row) == UsernameAnswer(false, Some(username), Taken)
    ensures CheckUsername(username, NoRow) == UsernameAnswer(true, Some(username), Available)
  {
    assert Utf16Length(username) == |username|;
  }

  /** A two-letter name is refused for its length even when it also has a bad character. */
  lemma LengthCheckedFirst()
    ensures CheckUsername("a!", NoRow) == UsernameAnswer(false, None, TooShort)
  {
  }

  /** Length counts UTF-16 units: a letter and an emoji are long enough, and the name is
      refused for its characters instead. */
  lemma EmojiCountsTwice()
    ensures CheckUsername("a\U{1F600}", NoRow) == UsernameAnswer(false, None, BadCharacters)
  {
    assert !UsernameChar("a\U{1F600}"[1]);
  }
}

=== FILE: signup_form.dfy ===
/**
 * The three-step sign-up wizard (src/components/onboarding/SignupForm.tsx): the table of
 * steps and their fields, the per-field update, the "Continue" guard and the step advance.
 */
module SignupForm {
  import opened Optional
  import opened Strings

  /** The keys of `UserData`. */
  datatype Field = PhoneNumber | Name | Username | DateOfBirth | Gender

  datatype UserData = UserData(phoneNumber: string, name: string, username: string,
                               dateOfBirth: string, gender: string)

  const EmptyForm: UserData := UserData("", "", "", "", "")

  /** `formData[field]`. */
  function Get(d: UserData, f: Field): string {
    match f
    case PhoneNumber => d.phoneNumber
    case Name => d.name
    case Username => d.username
    case DateOfBirth => d.dateOfBirth
    case Gender => d.gender
  }

  /** `handleInputChange(field, value)`: the named field takes the value and no other field
      changes. */
  function HandleInputChange(d: UserData, f: Field, value: string): (r: UserData)
    ensures Get(r, f) == value
    ensures forall g :: g != f ==> Get(r, g) == Get(d, g)
  {
    match f
    case PhoneNumber => d.(phoneNumber := value)
    case Name => d.(name := value)
    case Username => d.(username := value)
    case DateOfBirth => d.(dateOfBirth := value)
    case Gender => d.(gender := value)
  }

  /** The fields each step asks for, in the order the steps are shown. */
  const Steps: seq<seq<Field>> := [[PhoneNumber], [Name, Username], [DateOfBirth, Gender]]

  const LastStep: nat := |Steps| - 1

  /** Every field is asked for by exactly one step. */
  lemma EachFieldOnce(f: Field)
    ensures exists k :: 0 <= k < |Steps| && f in Steps[k]
    ensures forall k, l :: 0 <= k < |Steps| && 0 <= l < |Steps| && f in Steps[k] && f in Steps[l] ==> k == l
  {
    match f
    case PhoneNumber => assert f in Steps[0];
    case Name => assert f in Steps[1];
    case Username => assert f in Steps[1];
    case DateOfBirth => assert f in Steps[2];
    case Gender => assert f in Steps[2];
  }

  /** `value.trim() !== ""`. */
  predicate Filled(value: string) {
    !IsBlank(value)
  }

  /** `canContinue`: every field of the current step is non-empty once trimmed. The step
      index is always one of the three, as `HandleNext` keeps it. */
  function CanContinue(step: nat, d: UserData): (ok: bool)
    requires step < |Steps|
    ensures ok <==> forall f :: f in Steps[step] ==> Filled(Get(d, f))
  {
    AllFilled(d, Steps[step])
  }

  /** Every listed field is filled in. */
  function AllFilled(d: UserData, fields: seq<Field>): (ok: bool)
    ensures ok <==> forall f :: f in fields ==> Filled(Get(d, f))
    decreases |fields|
  {
    if |fields| == 0 then true else Filled(Get(d, fields[0])) && AllFilled(d, fields[1..])
  }

  /** What each step's guard asks for, field by field. */
  lemma CanContinueByStep(d: UserData)
    ensures CanContinue(0, d) <==> Filled(d.phoneNumber)
    ensures CanContinue(1, d) <==> Filled(d.name) && Filled(d.username)
    ensures CanContinue(2, d) <==> Filled(d.dateOfBirth) && Filled(d.gender)
  {
    assert Steps[0] == [PhoneNumber];
    assert Steps[1] == [Name, Username];
    assert Steps[2] == [DateOfBirth, Gender];
  }

  /** A phone number of whitespace only, spaces or tabs or line breaks, does not let the
      wizard continue; one with any other character does. */
  lemma WhitespaceDoesNotContinue(d: UserData)
    ensures CanContinue(0, d) <==> exists i :: 0 <= i < |d.phoneNumber| && !IsWhitespace(d.phoneNumber[i])
  {
    CanContinueByStep(d);
  }

  /** `handleNext`: below the last step the step advances; at the last step the step stays
      and the whole form is handed to `onComplete`. */
  function HandleNext(step: nat, d: UserData): (r: (nat, Option<UserData>))
    requires step < |Steps|
    ensures r.0 < |Steps|
    ensures step < LastStep ==> r == (step + 1, None)
    ensures step == LastStep ==> r == (step, Some(d))
  {
    if step < |Steps| - 1 then (step + 1, None) else (step, Some(d))
  }

  /** What the user does on the wizard: edit one of the fields the current step shows, or
      press the step's button, which is enabled only when `CanContinue` holds. */
  datatype Input = Edit(field: Field, value: string) | Continue

  /** The wizard: the step, the form, and the data handed to `onComplete`, if any. */
  datatype Wizard = Wizard(step: nat, form: UserData, completed: Option<UserData>)

  const Start: Wizard := Wizard(0, EmptyForm, None)

  /** One input. A field the current step does not show cannot be edited, and a disabled
      button cannot be pressed; both leave the wizard as it is. */
  function Apply(w: Wizard, i: Input): (r: Wizard)
    requires w.step < |Steps|
    ensures r.step < |Steps|
  {
    match i
    case Edit(f, v) => if f in Steps[w.step] then w.(form := HandleInputChange(w.form, f, v)) else w
    case Continue =>
      if !CanContinue(w.step, w.form) then w
      else
        var (next, done) := HandleNext(w.step, w.form);
        Wizard(next, w.form, if done.Some? then done else w.completed)
  }

  function ApplyAll(w: Wizard, inputs: seq<Input>): (r: Wizard)
    requires w.step < |Steps|
    ensures r.step < |Steps|
    decreases |inputs|
  {
    if |inputs| == 0 then w else ApplyAll(Apply(w, inputs[0]), inputs[1..])
  }

  /** Every field non-blank. */
  predicate Complete(d: UserData) {
    forall f :: Filled(Get(d, f))
  }

  /** The steps behind the current one are all filled in, and anything handed on is
      complete. */
  predicate Consistent(w: Wizard) {
    && w.step < |Steps|
    && (forall k :: 0 <= k < w.step ==> CanContinue(k, w.form))
    && (w.completed.Some? ==> Complete(w.completed.value))
  }

  /** An edit on the current step leaves the earlier steps' guards as they were. */
  lemma EditKeepsEarlierSteps(w: Wizard, f: Field, v: string, k: nat)
    requires w.step < |Steps| && f in Steps[w.step] && k < w.step
    ensures CanContinue(k, HandleInputChange(w.form, f, v)) == CanContinue(k, w.form)
  {
    EachFieldOnce(f);
    var d' := HandleInputChange(w.form, f, v);
    forall g | g in Steps[k]
      ensures Get(d', g) == Get(w.form, g)
    {
      assert g != f;
    }
  }

  lemma ApplyKeepsConsistent(w: Wizard, i: Input)
    requires Consistent(w)
    ensures Consistent(Apply(w, i))
  {
    match i
    case Edit(f, v) => EditKeepsConsistent(w, f, v);
    case Continue => ContinueKeepsConsistent(w);
  }

  lemma EditKeepsConsistent(w: Wizard, f: Field, v: string)
    requires Consistent(w)
    ensures Consistent(Apply(w, Edit(f, v)))
  {
    if f in Steps[w.step] {
      var r := Apply(w, Edit(f, v));
      forall k | 0 <= k < r.step
        ensures CanContinue(k, r.form)
      {
        EditKeepsEarlierSteps(w, f, v, k);
      }
    }
  }

  lemma ContinueKeepsConsistent(w: Wizard)
    requires Consistent(w)
    ensures Consistent(Apply(w, Continue))
  {
    var r := Apply(w, Continue);
    if !CanContinue(w.step, w.form) {
      assert r == w;
    } else if w.step < LastStep {
      assert r == Wizard(w.step + 1, w.form, w.completed);
      forall k | 0 <= k < r.step
        ensures CanContinue(k, r.form)
      {
        if k == w.step {
          assert CanContinue(w.step, w.form);
        }
      }
    } else {
      assert r == Wizard(w.step, w.form, Some(w.form));
      EveryStepFilled(w.form);
    }
  }

  /** A form that passes every step's guard has every field filled in. */
  lemma EveryStepFilled(d: UserData)
    requires forall k :: 0 <= k < |Steps| ==> CanContinue(k, d)
    ensures Complete(d)
  {
    forall f
      ensures Filled(Get(d, f))
    {
      EachFieldOnce(f);
      var k :| 0 <= k < |Steps| && f in Steps[k];
      assert CanContinue(k, d);
    }
  }

  /** Whatever the user does, the step stays within the table and never goes back, and the
      form is only ever handed on with every field filled in. */
  lemma {:induction false} WizardInvariant(w: Wizard, inputs: seq<Input>)
    requires Consistent(w)
    ensures Consistent(ApplyAll(w, inputs))
    ensures ApplyAll(w, inputs).step >= w.step
    decreases |inputs|
  {
    if |inputs| > 0 {
      ApplyKeepsConsistent(w, inputs[0]);
      WizardInvariant(Apply(w, inputs[0]), inputs[1..]);
    }
  }

  /** From the empty form, whatever is handed on has every field filled in. */
  lemma OnlyCompleteFormsHandedOn(inputs: seq<Input>)
    ensures ApplyAll(Start, inputs).completed.Some? ==> Complete(ApplyAll(Start, inputs).completed.value)
  {
    WizardInvariant(Start, inputs);
  }
}

=== FILE: sorting.dfy ===
/**
 * `Array.prototype.sort` with a numeric comparator `(a, b) => key(a) - key(b)`: the
 * result is ordered by `key` and is a permutation of the input. The ECMAScript sort is
 * stable; the insertion sort below is too (an element is inserted after every element
 * with an equal key), though only order and permutation are stated.
 */
module Sorting {

  predicate SortedBy<T>(s: seq<T>, key: T -> int) {
    forall i, j :: 0 <= i < j < |s| ==> key(s[i]) <= key(s[j])
  }

  /** Puts `x` into the sorted `s` after every element whose key is not larger. */
  function Insert<T>(x: T, s: seq<T>, key: T -> int): (r: seq<T>)
    requires SortedBy(s, key)
    ensures |r| == |s| + 1
    ensures multiset(r) == multiset(s) + multiset{x}
    ensures forall y :: y in r ==> y == x || y in s
    ensures SortedBy(r, key)
    decreases |s|
  {
    if |s| == 0 then [x]
    else if key(x) < key(s[0]) then
      ConsSorted(x, s, key);
      [x] + s
    else
      var rest := Insert(x, s[1..], key);
      assert s == [s[0]] + s[1..];
      HeadBelowRest(x, s, rest, key);
      ConsSorted(s[0], rest, key);
      assert multiset([s[0]] + rest) == multiset{s[0]} + multiset(rest);
      [s[0]] + rest
  }

  /** An element no larger than the first of a sorted sequence can go in front of it. */
  lemma ConsSorted<T>(h: T, s: seq<T>, key: T -> int)
    requires SortedBy(s, key)
    requires |s| > 0 ==> key(h) <= key(s[0])
    ensures SortedBy([h] + s, key)
  {
    var r := [h] + s;
    forall i, j | 0 <= i < j < |r|
      ensures key(r[i]) <= key(r[j])
    {
      assert r[j] == s[j - 1];
      if i > 0 {
        assert r[i] == s[i - 1];
      } else {
        assert r[i] == h;
      }
    }
  }

  /** What is left after the head of a sorted sequence, with `x` put in, lies above that head. */
  lemma HeadBelowRest<T>(x: T, s: seq<T>, rest: seq<T>, key: T -> int)
    requires SortedBy(s, key) && |s| > 0 && key(s[0]) <= key(x)
    requires forall y :: y in rest ==> y == x || y in s[1..]
    ensures |rest| > 0 ==> key(s[0]) <= key(rest[0])
  {
    if |rest| > 0 {
      var y := rest[0];
      assert y in rest;
      if y != x {
        var m :| 0 <= m < |s[1..]| && s[1..][m] == y;
        assert s[m + 1] == y;
      }
    }
  }

  /** Sorts `s` ascending by `key`. */
  function SortBy<T>(s: seq<T>, key: T -> int): (r: seq<T>)
    ensures |r| == |s|
    ensures multiset(r) == multiset(s)
    ensures SortedBy(r, key)
    decreases |s|
  {
    if |s| == 0 then []
    else
      var last := |s| - 1;
      assert s == s[..last] + [s[last]];
      Insert(s[last], SortBy(s[..last], key), key)
  }

  /** Sorting keeps exactly the elements it was given. */
  lemma SortKeepsElements<T>(s: seq<T>, key: T -> int, x: T)
    ensures x in SortBy(s, key) <==> x in s
  {
    assert x in SortBy(s, key) <==> x in multiset(SortBy(s, key));
  }
}

=== FILE: strings.dfy ===
/**
 * The JavaScript string built-ins the application leans on, as pure functions:
 * `trim`, ASCII `toLowerCase`/`toUpperCase`, `includes`, `startsWith`,
 * `split`/`join` on one separator character, and decimal rendering of numbers.
 */
module Strings {

  /** The code points `String.prototype.trim` removes (WhiteSpace and LineTerminator). */
  predicate IsWhitespace(c: char) {
    || c == ' ' || c == '\t' || c == '\n' || c == '\r' || c == '\U{000B}' || c == '\U{000C}'
    || c == '\U{00A0}' || c == '\U{1680}' || ('\U{2000}' <= c <= '\U{200A}')
    || c == '\U{2028}' || c == '\U{2029}' || c == '\U{202F}' || c == '\U{205F}'
    || c == '\U{3000}' || c == '\U{FEFF}'
  }

  predicate IsDigit(c: char) {
    '0' <= c <= '9'
  }

  predicate IsAsciiUpper(c: char) {
    'A' <= c <= 'Z'
  }

  predicate IsAsciiLower(c: char) {
    'a' <= c <= 'z'
  }

  /** Drops leading whitespace. */
  function TrimStart(s: string): (r: string)
    ensures |r| <= |s| && r == s[|s| - |r|..]
    ensures forall i :: 0 <= i < |s| - |r| ==> IsWhitespace(s[i])
    ensures r == [] || !IsWhitespace(r[0])
  {
    if |s| > 0 && IsWhitespace(s[0]) then TrimStart(s[1..]) else s
  }

  /** Drops trailing whitespace. */
  function TrimEnd(s: string): (r: string)
    ensures |r| <= |s| && r == s[..|r|]
    ensures forall i :: |r| <= i < |s| ==> IsWhitespace(s[i])
    ensures r == [] || !IsWhitespace(r[|r| - 1])
  {
    if |s| > 0 && IsWhitespace(s[|s| - 1]) then TrimEnd(s[..|s| - 1]) else s
  }

  /** `r` is the slice of `s` starting at `k` with only whitespace before and after it. */
  predicate TrimmedAt(s: string, r: string, k: nat) {
    && k + |r| <= |s|
    && r == s[k..k + |r|]
    && (forall i :: 0 <= i < k ==> IsWhitespace(s[i]))
    && (forall i :: k + |r| <= i < |s| ==> IsWhitespace(s[i]))
  }

  /** `s.trim()`: a slice of `s` with only whitespace around it, starting and ending with a
      non-whitespace character, and empty exactly when `s` consists of whitespace only. */
  function Trim(s: string): (r: string)
    ensures |r| <= |s|
    ensures TrimmedAt(s, r, LeadingWhitespace(s))
    ensures r == [] || (!IsWhitespace(r[0]) && !IsWhitespace(r[|r| - 1]))
    ensures r == [] <==> forall i :: 0 <= i < |s| ==> IsWhitespace(s[i])
  {
    TrimSlice(s);
    TrimEmpty(s);
    TrimEnds(s);
    TrimEnd(TrimStart(s))
  }

  /** Neither end of the trimmed text is whitespace. */
  lemma TrimEnds(s: string)
    ensures var r := TrimEnd(TrimStart(s));
            |r| <= |s| && (r == [] || (!IsWhitespace(r[0]) && !IsWhitespace(r[|r| - 1])))
  {
    var front := TrimStart(s);
    var r := TrimEnd(front);
    if r != [] {
      assert r[0] == front[0];
    }
  }

  /** How many whitespace characters `s` starts with. */
  function LeadingWhitespace(s: string): (n: nat)
    ensures n <= |s|
  {
    |s| - |TrimStart(s)|
  }

  /** Trimming the front and then the back leaves a slice with whitespace around it. */
  lemma TrimSlice(s: string)
    ensures TrimmedAt(s, TrimEnd(TrimStart(s)), LeadingWhitespace(s))
  {
    TrimSliceText(s);
    TrimSliceTail(s);
  }

  lemma TrimSliceText(s: string)
    ensures var k, r := LeadingWhitespace(s), TrimEnd(TrimStart(s));
            k + |r| <= |s| && s[k..k + |r|] == r
  {
    var front := TrimStart(s);
    var r := TrimEnd(front);
    SliceOfSlice(s, |s| - |front|, |r|);
  }

  lemma SliceOfSlice<T>(s: seq<T>, k: nat, n: nat)
    requires k + n <= |s|
    ensures s[k..][..n] == s[k..k + n]
  {
  }

  lemma TrimSliceTail(s: string)
    ensures var k, r := LeadingWhitespace(s), TrimEnd(TrimStart(s));
            forall i :: k + |r| <= i < |s| ==> IsWhitespace(s[i])
  {
    var front := TrimStart(s);
    var r := TrimEnd(front);
    var k := |s| - |front|;
    assert front == s[k..];
    forall i | k + |r| <= i < |s|
      ensures IsWhitespace(s[i])
    {
      IndexOfSlice(s, k, i);
      assert IsWhitespace(front[i - k]);
    }
  }

  lemma IndexOfSlice<T>(s: seq<T>, k: nat, i: nat)
    requires k <= i < |s|
    ensures s[k..][i - k] == s[i]
  {
  }

  /** Only an all-whitespace string trims to nothing. */
  lemma TrimEmpty(s: string)
    ensures TrimEnd(TrimStart(s)) == [] <==> forall i :: 0 <= i < |s| ==> IsWhitespace(s[i])
  {
    var front := TrimStart(s);
    if front != [] {
      assert s[|s| - |front|] == front[0];
    }
  }

  /** The trimmed text is unique: any slice with only whitespace around it that starts and
      ends with a non-whitespace character is `Trim(s)`. */
  lemma TrimUnique(s: string, r: string, k: nat)
    requires TrimmedAt(s, r, k)
    requires r == [] || (!IsWhitespace(r[0]) && !IsWhitespace(r[|r| - 1]))
    requires r != [] || forall i :: 0 <= i < |s| ==> IsWhitespace(s[i])
    ensures Trim(s) == r
  {
    if r != [] {
      assert s[k] == r[0];
      TrimmedAtUnique(s, r, k, Trim(s), LeadingWhitespace(s));
    }
  }

  /** Two non-empty slices with whitespace around them and non-whitespace ends coincide. */
  lemma TrimmedAtUnique(s: string, r: string, k: nat, t: string, j: nat)
    requires TrimmedAt(s, r, k) && TrimmedAt(s, t, j)
    requires r != [] && !IsWhitespace(r[0]) && !IsWhitespace(r[|r| - 1])
    requires t != [] && !IsWhitespace(t[0]) && !IsWhitespace(t[|t| - 1])
    ensures r == t
  {
    assert s[k] == r[0] && s[j] == t[0];
    assert k == j;
    assert s[k + |r| - 1] == r[|r| - 1] && s[j + |t| - 1] == t[|t| - 1];
    assert |r| == |t|;
  }

  /** A value the source rejects with `!x.trim()`. */
  predicate IsBlank(s: string) {
    Trim(s) == []
  }

  /** A string that neither starts nor ends with whitespace is its own trim. */
  lemma TrimOfTrimmed(s: string)
    requires s == [] || (!IsWhitespace(s[0]) && !IsWhitespace(s[|s| - 1]))
    ensures Trim(s) == s
  {
  }

  lemma TrimIdempotent(s: string)
    ensures Trim(Trim(s)) == Trim(s)
  {
    TrimOfTrimmed(Trim(s));
  }

  function LowerChar(c: char): (r: char)
    ensures !IsAsciiUpper(r)
  {
    if IsAsciiUpper(c) then (c as int + 32) as char else c
  }

  function UpperChar(c: char): (r: char)
    ensures !IsAsciiLower(r)
  {
    if IsAsciiLower(c) then (c as int - 32) as char else c
  }

  /** `s.toLowerCase()` restricted to ASCII letters; every other character is kept. */
  function Lower(s: string): (r: string)
    ensures |r| == |s|
    ensures forall i :: 0 <= i < |s| ==> r[i] == LowerChar(s[i])
  {
    seq(|s|, i requires 0 <= i < |s| => LowerChar(s[i]))
  }

  /** `s.toUpperCase()` restricted to ASCII letters; every other character is kept. */
  function Upper(s: string): (r: string)
    ensures |r| == |s|
    ensures forall i :: 0 <= i < |s| ==> r[i] == UpperChar(s[i])
  {
    seq(|s|, i requires 0 <= i < |s| => UpperChar(s[i]))
  }

  lemma UpperIdempotent(s: string)
    ensures Upper(Upper(s)) == Upper(s)
  {
  }

  /** Case-folding first and then upper-casing is the same as upper-casing. */
  lemma UpperOfLower(s: string)
    ensures Upper(Lower(s)) == Upper(s)
  {
  }

  /** `s.length`: JavaScript counts UTF-16 code units, so a character outside the Basic
      Multilingual Plane counts twice. */
  function Utf16Length(s: string): (n: nat)
    ensures n >= |s|
    ensures (forall i :: 0 <= i < |s| ==> s[i] as int < 0x1_0000) ==> n == |s|
  {
    if |s| == 0 then 0 else (if s[0] as int < 0x1_0000 then 1 else 2) + Utf16Length(s[1..])
  }

  /** `s.startsWith(p)`. */
  predicate StartsWith(s: string, p: string) {
    p <= s
  }

  /** `s.includes(sub)`: `sub` occurs at some position of `s`. */
  predicate Contains(s: string, sub: string)
    ensures Contains(s, sub) ==> |sub| <= |s|
    ensures sub == [] ==> Contains(s, sub)
    decreases |s|
  {
    sub <= s || (|s| > 0 && Contains(s[1..], sub))
  }

  /** `sub` occurs in `s` starting at position `k`. */
  predicate OccursAt(s: string, sub: string, k: nat) {
    k + |sub| <= |s| && s[k..k + |sub|] == sub
  }

  lemma ContainsEmpty(s: string)
    ensures Contains(s, "")
  {
  }

  lemma {:induction false} ContainsAt(s: string, sub: string, k: nat)
    requires k + |sub| <= |s| && s[k..k + |sub|] == sub
    ensures Contains(s, sub)
    decreases k
  {
    if k > 0 {
      assert s[1..][k - 1..k - 1 + |sub|] == sub;
      ContainsAt(s[1..], sub, k - 1);
    }
  }

  /** The converse of `ContainsAt`: `includes` holds only when the substring occurs at some
      position, so `Contains` is exactly "occurs somewhere". */
  lemma {:induction false} ContainsOccurs(s: string, sub: string)
    ensures Contains(s, sub) <==> exists k: nat :: OccursAt(s, sub, k)
    decreases |s|
  {
    if Contains(s, sub) {
      if sub <= s {
        assert OccursAt(s, sub, 0);
      } else {
        ContainsOccurs(s[1..], sub);
        var k: nat :| OccursAt(s[1..], sub, k);
        assert s[k + 1..k + 1 + |sub|] == s[1..][k..k + |sub|];
        assert OccursAt(s, sub, k + 1);
      }
    }
    if exists k: nat :: OccursAt(s, sub, k) {
      var k: nat :| OccursAt(s, sub, k);
      ContainsAt(s, sub, k);
    }
  }

  /** `s.split(sep)` for a one-character separator. The first part is the longest prefix of
      `s` free of `sep`; when it is shorter than `s`, the separator follows it. */
  function Split(s: string, sep: char): (parts: seq<string>)
    ensures |parts| >= 1
    ensures forall i :: 0 <= i < |parts| ==> sep !in parts[i]
    ensures parts[0] <= s
    ensures |parts[0]| < |s| ==> s[|parts[0]|] == sep
    decreases |s|
  {
    if |s| == 0 then [""]
    else
      var rest := Split(s[1..], sep);
      if s[0] == sep then [""] + rest else [[s[0]] + rest[0]] + rest[1..]
  }

  /** `parts.join(sep)`. */
  function Join(parts: seq<string>, sep: char): string
    decreases |parts|
  {
    if |parts| == 0 then ""
    else if |parts| == 1 then parts[0]
    else parts[0] + [sep] + Join(parts[1..], sep)
  }

  /** Splitting and joining again gives back the original string. */
  lemma {:induction false} JoinSplit(s: string, sep: char)
    ensures Join(Split(s, sep), sep) == s
    decreases |s|
  {
    if |s| > 0 {
      var rest := Split(s[1..], sep);
      JoinSplit(s[1..], sep);
      assert s == [s[0]] + s[1..];
      if s[0] == sep {
        SplitSep(s[1..], sep);
        assert Join([""] + rest, sep) == [sep] + Join(rest, sep);
      } else {
        SplitCons(s[0], s[1..], sep);
        var parts := [[s[0]] + rest[0]] + rest[1..];
        if |rest| == 1 {
          assert Join(parts, sep) == [s[0]] + rest[0];
        } else {
          assert parts[1..] == rest[1..];
          assert Join(rest, sep) == rest[0] + [sep] + Join(rest[1..], sep);
          assert Join(parts, sep) == [s[0]] + rest[0] + [sep] + Join(rest[1..], sep);
        }
      }
    }
  }

  lemma {:induction false} SplitWithoutSeparator(a: string, sep: char)
    requires sep !in a
    ensures Split(a, sep) == [a]
    decreases |a|
  {
    if |a| > 0 {
      SplitWithoutSeparator(a[1..], sep);
      assert [a[0]] + a[1..] == a;
    }
  }

  lemma {:induction false} SplitAfterPart(a: string, b: string, sep: char)
    requires sep !in a
    ensures Split(a + [sep] + b, sep) == [a] + Split(b, sep)
    decreases |a|
  {
    if |a| == 0 {
      assert a + [sep] + b == [sep] + b;
      SplitSep(b, sep);
    } else {
      SplitAfterPart(a[1..], b, sep);
      assert a + [sep] + b == [a[0]] + (a[1..] + [sep] + b);
      SplitCons(a[0], a[1..] + [sep] + b, sep);
      assert [a[0]] + a[1..] == a;
    }
  }

  /** A leading separator splits off an empty first part. */
  lemma SplitSep(t: string, sep: char)
    ensures Split([sep] + t, sep) == [""] + Split(t, sep)
  {
    assert ([sep] + t)[1..] == t;
  }

  /** A leading character other than the separator joins the first part. */
  lemma SplitCons(c: char, t: string, sep: char)
    requires c != sep
    ensures Split([c] + t, sep) == [[c] + Split(t, sep)[0]] + Split(t, sep)[1..]
  {
    assert ([c] + t)[1..] == t;
  }

  /** Joining parts that are free of the separator and splitting again gives back the parts. */
  lemma {:induction false} SplitJoin(parts: seq<string>, sep: char)
    requires |parts| >= 1
    requires forall i :: 0 <= i < |parts| ==> sep !in parts[i]
    ensures Split(Join(parts, sep), sep) == parts
    decreases |parts|
  {
    if |parts| == 1 {
      SplitWithoutSeparator(parts[0], sep);
    } else {
      SplitJoin(parts[1..], sep);
      SplitAfterPart(parts[0], Join(parts[1..], sep), sep);
      assert [parts[0]] + parts[1..] == parts;
    }
  }

  /** `s.split(sep)[0]`: the text before the first separator, or all of `s`. */
  function FirstToken(s: string, sep: char): (r: string)
    ensures r <= s && sep !in r
    ensures |r| < |s| ==> s[|r|] == sep
  {
    Split(s, sep)[0]
  }

  function DigitChar(d: nat): (c: char)
    requires d < 10
    ensures IsDigit(c)
  {
    ('0' as int + d) as char
  }

  /** The decimal rendering of a natural number, as template literals produce it. */
  function NatToString(n: nat): (r: string)
    ensures |r| >= 1
    ensures forall i :: 0 <= i < |r| ==> IsDigit(r[i])
    ensures r[0] == '0' <==> n == 0
  {
    if n < 10 then [DigitChar(n)] else NatToString(n / 10) + [DigitChar(n % 10)]
  }

  /** The value of a string of decimal digits, as `parseInt` reads it. */
  function ParseDigits(s: string): nat
    requires forall i :: 0 <= i < |s| ==> IsDigit(s[i])
  {
    if |s| == 0 then 0 else 10 * ParseDigits(s[..|s| - 1]) + DigitValue(s[|s| - 1])
  }

  function DigitValue(c: char): (d: nat)
    requires IsDigit(c)
    ensures d < 10
  {
    c as int - '0' as int
  }

  /** Reading back a rendered number gives the number: `parseInt(String(n)) == n`. */
  lemma {:induction false} ParseNatToString(n: nat)
    ensures ParseDigits(NatToString(n)) == n
  {
    var s := NatToString(n);
    if n >= 10 {
      ParseNatToString(n / 10);
      assert s[..|s| - 1] == NatToString(n / 10);
    }
  }
}

=== FILE: tabs.dfy ===
/**
 * The tabs component (src/components/ui/tabs.tsx): which value is shown, how a change is
 * handled in the controlled and uncontrolled modes, the trigger's state and click, and when
 * a panel is drawn.
 */
module Tabs {
  import opened Optional

  /** The props of `Tabs` that decide its value; `onValueChange` is either given or not. */
  datatype TabsProps = TabsProps(value: Option<string>, defaultValue: Option<string>, hasOnValueChange: bool)

  /** The internal value's initial state: the default value when it is truthy, else "". */
  function InitialInternal(p: TabsProps): (v: string)
    ensures p.defaultValue.Some? ==> v == p.defaultValue.value
    ensures p.defaultValue.None? ==> v == ""
  {
    if p.defaultValue.Some? && p.defaultValue.value != "" then p.defaultValue.value else ""
  }

  /** `value ?? internalValue`: a given value wins, even an empty one. */
  function Current(p: TabsProps, internal: string): (v: string)
    ensures p.value.Some? ==> v == p.value.value
    ensures p.value.None? ==> v == internal
  {
    match p.value
    case Some(v) => v
    case None => internal
  }

  /** What a change does: the internal value afterwards and the value reported to
      `onValueChange`, if that callback is given. */
  datatype Change = Change(internal: string, reported: Option<string>)

  /** `handleValueChange(newValue)`. */
  function HandleValueChange(p: TabsProps, internal: string, newValue: string): (c: Change)
    ensures p.value.None? ==> c.internal == newValue
    ensures p.value.Some? ==> c.internal == internal
    ensures c.reported.Some? <==> p.hasOnValueChange
    ensures c.reported.Some? ==> c.reported.value == newValue
  {
    Change(if p.value.None? then newValue else internal,
           if p.hasOnValueChange then Some(newValue) else None)
  }

  /** A trigger's `data-state`. */
  function DataState(current: string, value: string): (s: string)
    ensures s == "active" <==> current == value
    ensures s == "active" || s == "inactive"
  {
    if current == value then "active" else "inactive"
  }

  /** What a click on a trigger runs, in order. */
  datatype Effect = UserOnClick | ValueChange(value: string)

  /** `handleClick`: the trigger's own `onClick` first, when given, then the change. */
  function ClickEffects(value: string, hasOnClick: bool): (effects: seq<Effect>)
    ensures |effects| >= 1 && effects[|effects| - 1] == ValueChange(value)
    ensures hasOnClick <==> |effects| == 2 && effects[0] == UserOnClick
  {
    (if hasOnClick then [UserOnClick] else []) + [ValueChange(value)]
  }

  /** `TabsContent`: drawn only for the current value. */
  predicate ContentShown(current: string, value: string) {
    current == value
  }

  /** In the uncontrolled mode a click makes its trigger the active one and its panel the
      only one drawn. */
  lemma UncontrolledClickSelects(p: TabsProps, internal: string, value: string, other: string)
    requires p.value.None?
    ensures var after := Current(p, HandleValueChange(p, internal, value).internal);
            && DataState(after, value) == "active"
            && ContentShown(after, value)
            && (other != value ==> !ContentShown(after, other) && DataState(after, other) == "inactive")
  {
  }

  /** In the controlled mode a click changes nothing that is drawn; only the parent, through
      `onValueChange`, can move the tabs. */
  lemma ControlledClickOnlyReports(p: TabsProps, internal: string, value: string)
    requires p.value.Some?
    ensures Current(p, HandleValueChange(p, internal, value).internal) == Current(p, internal)
    ensures p.hasOnValueChange ==> HandleValueChange(p, internal, value).reported == Some(value)
  {
  }

  /** Before any click the uncontrolled tabs show the default value. */
  lemma StartsOnDefault(p: TabsProps)
    requires p.value.None?
    ensures Current(p, InitialInternal(p)) == p.defaultValue.GetOr("")
  {
  }

  /** At most one panel among distinct values is drawn. */
  lemma AtMostOnePanel(current: string, panels: seq<string>)
    requires forall i, j :: 0 <= i < j < |panels| ==> panels[i] != panels[j]
    ensures forall i, j :: (0 <= i < |panels| && 0 <= j < |panels| && ContentShown(current, panels[i])
                            && ContentShown(current, panels[j])) ==> i == j
  {
  }
}

=== FILE: timeline_endpoints.dfy ===
/**
 * The timeline routes of the server (src/supabase/functions/server/timeline-endpoints.tsx).
 * Creating an event: the caller must be signed in, the body must carry a title, a
 * description and a date, and the record written to the database is normalised from the
 * body; when the insert fails because the database has no `is_private` column, it is
 * retried without that key. Listing events: every event with stored images gets its image
 * paths replaced by URLs. Authentication, the relationship lookup, the insert and URL
 * signing are inputs.
 */
module TimelineEndpoints {
  import opened Optional
  import opened Strings
  import opened Json
  import MemoryStorage
  import AddMemory

  /** The body fields the route reads. */
  datatype Body = Body(
    eventType: Json,
    title: Json,
    description: Json,
    eventDate: Json,
    locationName: Json,
    isMilestone: Json,
    mediaUrls: Json,
    isPrivate: Json)

  /** The row inserted into `timeline_events`. `isPrivate` is `None` when the key is absent. */
  datatype EventRecord = EventRecord(
    relationshipId: Option<string>,
    createdBy: string,
    eventType: Json,
    title: string,
    description: string,
    eventDate: Json,
    mediaUrls: seq<Json>,
    locationName: Option<string>,
    isMilestone: bool,
    isPrivate: Option<bool>)

  /** `eventData`: `None` when building it throws, which happens when the title or the
      description is not a string, or the location is neither missing nor a string. */
  function Normalize(userId: string, relationshipId: Option<string>, body: Body): (r: Option<EventRecord>)
    ensures r.Some? <==> body.title.Str? && body.description.Str? && Trimmable(body.locationName)
    ensures r.Some? ==> r.value.createdBy == userId && r.value.relationshipId == relationshipId
    ensures r.Some? ==> r.value.eventType == (if Truthy(body.eventType) then body.eventType else Str("memory"))
    ensures r.Some? ==> r.value.title == Trim(body.title.s) && r.value.description == Trim(body.description.s)
    ensures r.Some? ==> r.value.eventDate == body.eventDate
    ensures r.Some? ==> r.value.mediaUrls == (if body.mediaUrls.Arr? then body.mediaUrls.items else [])
    ensures r.Some? ==> (r.value.locationName.None? <==> !body.locationName.Str? || IsBlank(body.locationName.s))
    ensures r.Some? && r.value.locationName.Some? ==> r.value.locationName.value == Trim(body.locationName.s)
    ensures r.Some? ==> r.value.isMilestone == Truthy(body.isMilestone)
    ensures r.Some? ==> (r.value.isPrivate.Some? <==> !body.isPrivate.Undefined?)
    ensures r.Some? && r.value.isPrivate.Some? ==> r.value.isPrivate.value == Truthy(body.isPrivate)
  {
    if !(body.title.Str? && body.description.Str? && Trimmable(body.locationName)) then None
    else
      var location :=
        if body.locationName.Str? && !IsBlank(body.locationName.s) then Some(Trim(body.locationName.s)) else None;
      Some(EventRecord(
        relationshipId,
        userId,
        if Truthy(body.eventType) then body.eventType else Str("memory"),
        Trim(body.title.s),
        Trim(body.description.s),
        body.eventDate,
        if body.mediaUrls.Arr? then body.mediaUrls.items else [],
        location,
        Truthy(body.isMilestone),
        if body.isPrivate.Undefined? then None else Some(Truthy(body.isPrivate))))
  }

  /** The retry record: the same row without the `is_private` key. */
  function WithoutPrivate(record: EventRecord): (r: EventRecord)
    ensures r.isPrivate.None?
    ensures r.(isPrivate := record.isPrivate) == record
  {
    record.(isPrivate := None)
  }

  /** How the database answered an insert. */
  datatype Insert = Inserted(row: string) | InsertError(message: string)

  datatype Response =
    | Unauthorized      // 401
    | BadRequest        // 400
    | ServerError(error: string)  // 500
    | Created(row: string)

  const CreateFailed: string := "Failed to create timeline event: "

  /** The insert failed on the `is_private` column. */
  predicate PrivateColumnMissing(answer: Insert) {
    answer.InsertError? && Contains(answer.message, "is_private")
  }

  /** The POST route. `userId` is the authenticated user (`None` when there is none or the
      token is rejected), `body` the parsed body (`None` when it is not JSON), `insert` the
      database's answer to each record it is given. */
  function CreateEvent(userId: Option<string>, body: Option<Body>, relationshipId: Option<string>,
                       insert: EventRecord -> Insert): (r: Response)
    ensures (userId.None? || userId.value == "") <==> r.Unauthorized?
    ensures r.BadRequest? <==> (userId.Some? && userId.value != "" && body.Some? &&
                                !(Truthy(body.value.title) && Truthy(body.value.description) && Truthy(body.value.eventDate)))
    ensures r.Created? ==> userId.Some? && body.Some?
    ensures r.Created? ==> exists rec :: Normalize(userId.value, relationshipId, body.value) == Some(rec)
                              && (insert(rec) == Inserted(r.row)
                                  || (PrivateColumnMissing(insert(rec)) && insert(WithoutPrivate(rec)) == Inserted(r.row)))
    ensures r.ServerError? ==> StartsWith(r.error, CreateFailed)
    ensures Guarded(userId, body) && Normalize(userId.value, relationshipId, body.value).Some? ==>
              var rec := Normalize(userId.value, relationshipId, body.value).value;
              && (insert(rec).Inserted? ==> r == Created(insert(rec).row))
              && (insert(rec).InsertError? && !PrivateColumnMissing(insert(rec)) ==>
                    r == ServerError(CreateFailed + insert(rec).message))
              && (PrivateColumnMissing(insert(rec)) && insert(WithoutPrivate(rec)).InsertError? ==>
                    r == ServerError(CreateFailed + insert(WithoutPrivate(rec)).message))
  {
    if userId.None? || userId.value == "" then Unauthorized
    else if body.None? then ServerError(CreateFailed)
    else
      var b := body.value;
      if !(Truthy(b.title) && Truthy(b.description) && Truthy(b.eventDate)) then BadRequest
      else match Normalize(userId.value, relationshipId, b)
        case None => ServerError(CreateFailed)
        case Some(rec) =>
          match insert(rec)
          case Inserted(row) => Created(row)
          case InsertError(message) =>
            if Contains(message, "is_private") then
              match insert(WithoutPrivate(rec))
              case Inserted(row) => Created(row)
              case InsertError(retryMessage) => ServerError(CreateFailed + retryMessage)
            else ServerError(CreateFailed + message)
  }

  /** The request passed authentication and the required-field check. */
  predicate Guarded(userId: Option<string>, body: Option<Body>) {
    && userId.Some? && userId.value != "" && body.Some?
    && Truthy(body.value.title) && Truthy(body.value.description) && Truthy(body.value.eventDate)
  }

  /** A first insert that succeeds is answered with the created row, without a retry. */
  lemma FirstInsertAnswers(userId: string, body: Body, relationshipId: Option<string>,
                           insert: EventRecord -> Insert, rec: EventRecord)
    requires userId != "" && Truthy(body.title) && Truthy(body.description) && Truthy(body.eventDate)
    requires Normalize(userId, relationshipId, body) == Some(rec)
    requires insert(rec).Inserted?
    ensures CreateEvent(Some(userId), Some(body), relationshipId, insert) == Created(insert(rec).row)
  {
  }

  /** A database without the `is_private` column still gets the event: when the first
      insert fails on that column and the record without it is accepted, the route
      answers with the created row. */
  lemma RetryRecovers(userId: string, body: Body, relationshipId: Option<string>,
                      insert: EventRecord -> Insert, rec: EventRecord, row: string)
    requires userId != "" && Truthy(body.title) && Truthy(body.description) && Truthy(body.eventDate)
    requires Normalize(userId, relationshipId, body) == Some(rec)
    requires PrivateColumnMissing(insert(rec)) && insert(WithoutPrivate(rec)) == Inserted(row)
    ensures CreateEvent(Some(userId), Some(body), relationshipId, insert) == Created(row)
  {
  }

  /** Any other insert error is answered with a 500 carrying the database's message, and
      the record is never offered to the database a second time: the answer is the same
      whatever the database would say to the record without `is_private`. */
  lemma OtherErrorsNotRetried(userId: string, body: Body, relationshipId: Option<string>,
                              insert: EventRecord -> Insert, other: EventRecord -> Insert, rec: EventRecord)
    requires userId != "" && Truthy(body.title) && Truthy(body.description) && Truthy(body.eventDate)
    requires Normalize(userId, relationshipId, body) == Some(rec)
    requires insert(rec).InsertError? && !PrivateColumnMissing(insert(rec))
    requires other(rec) == insert(rec)
    ensures CreateEvent(Some(userId), Some(body), relationshipId, insert)
            == ServerError(CreateFailed + insert(rec).message)
    ensures CreateEvent(Some(userId), Some(body), relationshipId, other)
            == CreateEvent(Some(userId), Some(body), relationshipId, insert)
  {
  }

  // ---------------------------------------------------------------------------
  // From the add-memory sheet to the stored row

  /** The body `JSON.stringify` produces for the sheet's request; an omitted location is
      a missing key. */
  function BodyOf(req: AddMemory.CreateRequest): Body {
    Body(
      Str(req.eventType),
      Str(req.title),
      Str(req.description),
      Str(req.eventDate),
      if req.locationName.Some? then Str(req.locationName.value) else Undefined,
      Bool(req.isMilestone),
      Arr(seq(|req.mediaUrls|, i requires 0 <= i < |req.mediaUrls| => Str(req.mediaUrls[i]))),
      Bool(req.isPrivate))
  }

  /** The request the sheet builds once its guard passes. */
  lemma SheetRequest(draft: AddMemory.Draft, urls: seq<string>)
    requires AddMemory.BuildRequest(draft, urls).Some?
    ensures AddMemory.BuildRequest(draft, urls).value
            == AddMemory.CreateRequest(draft.kind, draft.title, draft.description, draft.eventDate,
                                       if draft.locationName == "" then None else Some(draft.locationName),
                                       draft.kind == "milestone", urls, false)
    ensures draft.title != "" && draft.description != ""
  {
    assert IsBlank("") by {
      assert Trim("") == [];
    }
  }

  /** A request built by the sheet passes the route's guard and normalises without
      throwing, provided the date is set. */
  lemma SheetBodyAccepted(draft: AddMemory.Draft, urls: seq<string>, userId: string,
                          relationshipId: Option<string>)
    requires draft.eventDate != ""
    requires AddMemory.BuildRequest(draft, urls).Some?
    ensures var body := BodyOf(AddMemory.BuildRequest(draft, urls).value);
            && Truthy(body.title) && Truthy(body.description) && Truthy(body.eventDate)
            && Normalize(userId, relationshipId, body).Some?
  {
    SheetRequest(draft, urls);
    RequestAccepted(AddMemory.BuildRequest(draft, urls).value, userId, relationshipId);
  }

  /** A request with a title, a description and a date passes the route's guard, and
      its body normalises. */
  lemma RequestAccepted(req: AddMemory.CreateRequest, userId: string, relationshipId: Option<string>)
    requires req.title != "" && req.description != "" && req.eventDate != ""
    ensures var body := BodyOf(req);
            && Truthy(body.title) && Truthy(body.description) && Truthy(body.eventDate)
            && Normalize(userId, relationshipId, body).Some?
  {
    var body := BodyOf(req);
    assert body.title == Str(req.title) && body.description == Str(req.description);
    assert body.eventDate == Str(req.eventDate);
    assert Trimmable(body.locationName);
  }

  /** What the server stores as text for a memory submitted from the sheet: the trimmed
      title and description, and the location trimmed or absent. */
  lemma SheetToRecordText(draft: AddMemory.Draft, urls: seq<string>, userId: string,
                          relationshipId: Option<string>)
    requires draft.eventDate != ""
    requires AddMemory.BuildRequest(draft, urls).Some?
    ensures var rec := Normalize(userId, relationshipId, BodyOf(AddMemory.BuildRequest(draft, urls).value));
            && rec.Some?
            && rec.value.title == Trim(draft.title)
            && rec.value.description == Trim(draft.description)
            && (rec.value.locationName.None? <==> IsBlank(draft.locationName))
  {
    SheetBodyAccepted(draft, urls, userId, relationshipId);
    var body := BodyOf(AddMemory.BuildRequest(draft, urls).value);
    assert body.title == Str(draft.title) && body.description == Str(draft.description);
    assert IsBlank("") by {
      assert Trim("") == [];
    }
  }

  /** The rest of that row: the uploaded URLs in order, a milestone flag that follows the
      type, and an explicit "not private". */
  lemma SheetToRecordFlags(draft: AddMemory.Draft, urls: seq<string>, userId: string,
                           relationshipId: Option<string>)
    requires draft.eventDate != ""
    requires AddMemory.BuildRequest(draft, urls).Some?
    ensures var rec := Normalize(userId, relationshipId, BodyOf(AddMemory.BuildRequest(draft, urls).value));
            && rec.Some?
            && |rec.value.mediaUrls| == |urls|
            && (forall i :: 0 <= i < |urls| ==> rec.value.mediaUrls[i] == Str(urls[i]))
            && rec.value.isMilestone == (draft.kind == "milestone")
            && rec.value.isPrivate == Some(false)
  {
    SheetBodyAccepted(draft, urls, userId, relationshipId);
    SheetRequest(draft, urls);
    RequestFlags(AddMemory.BuildRequest(draft, urls).value, userId, relationshipId);
  }

  /** The flags a normalised request body carries into the row. */
  lemma RequestFlags(req: AddMemory.CreateRequest, userId: string, relationshipId: Option<string>)
    requires Normalize(userId, relationshipId, BodyOf(req)).Some?
    ensures var rec := Normalize(userId, relationshipId, BodyOf(req)).value;
            && |rec.mediaUrls| == |req.mediaUrls|
            && (forall i :: 0 <= i < |req.mediaUrls| ==> rec.mediaUrls[i] == Str(req.mediaUrls[i]))
            && rec.isMilestone == req.isMilestone
            && rec.isPrivate == Some(req.isPrivate)
  {
    var body := BodyOf(req);
    assert body.mediaUrls.Arr? && body.isMilestone == Bool(req.isMilestone);
    assert body.isPrivate == Bool(req.isPrivate);
  }

  // ---------------------------------------------------------------------------
  // Listing events

  /** A stored event; `mediaUrls` is `None` for a null column. */
  datatype StoredEvent = StoredEvent(id: string, title: string, mediaUrls: Option<seq<string>>)

  /** The GET route's rewrite of each event: stored images become URLs; an event without
      images is returned as it is. */
  function ProcessEvent(e: StoredEvent, sign: string -> Option<string>): (r: StoredEvent)
    ensures r.id == e.id && r.title == e.title
    ensures (e.mediaUrls.None? || e.mediaUrls.value == []) ==> r == e
    ensures e.mediaUrls.Some? && e.mediaUrls.value != [] ==>
              r.mediaUrls.Some? && |r.mediaUrls.value| <= |e.mediaUrls.value|
    ensures e.mediaUrls.Some? && e.mediaUrls.value != [] ==>
              r.mediaUrls == Some(MemoryStorage.ResolveUrls(e.mediaUrls.value, sign))
    ensures r.(mediaUrls := e.mediaUrls) == e
  {
    if e.mediaUrls.Some? && |e.mediaUrls.value| > 0 then
      e.(mediaUrls := Some(MemoryStorage.ResolveUrls(e.mediaUrls.value, sign)))
    else e
  }

  /** The listing: one output per event, in order, and none when the query returned
      nothing. */
  function ProcessEvents(events: Option<seq<StoredEvent>>, sign: string -> Option<string>): (r: seq<StoredEvent>)
    ensures events.None? ==> r == []
    ensures events.Some? ==> |r| == |events.value|
    ensures events.Some? ==> forall i :: 0 <= i < |r| ==> r[i] == ProcessEvent(events.value[i], sign)
  {
    if events.None? then []
    else seq(|events.value|, i requires 0 <= i < |events.value| => ProcessEvent(events.value[i], sign))
  }

  /** Events whose images are already URLs come back exactly as stored. */
  lemma UrlsAlreadyResolved(events: seq<StoredEvent>, sign: string -> Option<string>)
    requires forall i, j :: 0 <= i < |events| && events[i].mediaUrls.Some? && 0 <= j < |events[i].mediaUrls.value|
               ==> MemoryStorage.IsUrl(events[i].mediaUrls.value[j])
    ensures ProcessEvents(Some(events), sign) == events
  {
    forall i | 0 <= i < |events|
      ensures ProcessEvent(events[i], sign) == events[i]
    {
      if events[i].mediaUrls.Some? {
        MemoryStorage.UrlsPassThrough(events[i].mediaUrls.value, sign);
      }
    }
  }
}

=== FILE: timeline_memories.dfy ===
/**
 * The memories gallery (src/components/TimelineMemories.tsx): which events appear in the
 * photo grid, the count above it, the grid tile of an event, and the list view's photo
 * layout.
 */
module TimelineMemories {
  import opened Optional
  import opened Seqs
  import MediaGrid

  /** `media_urls` may be missing (`null`). */
  datatype MemoryEvent = MemoryEvent(id: string, title: string, mediaUrls: Option<seq<string>>)

  /** `event.media_urls && event.media_urls.length > 0`. */
  predicate HasImages(e: MemoryEvent) {
    e.mediaUrls.Some? && |e.mediaUrls.value| > 0
  }

  /** `eventsWithImages`: the events with at least one photo, in their order. */
  function EventsWithImages(events: seq<MemoryEvent>): (r: seq<MemoryEvent>)
    ensures forall e :: e in r <==> e in events && HasImages(e)
    ensures |r| == Count(events, HasImages)
  {
    FilterLength(events, HasImages);
    FilterMembers(events, HasImages);
    Filter(events, HasImages)
  }

  /** Adding events at the end adds their photo events at the end of the grid. */
  lemma GridKeepsOrder(a: seq<MemoryEvent>, b: seq<MemoryEvent>)
    ensures EventsWithImages(a + b) == EventsWithImages(a) + EventsWithImages(b)
  {
    FilterConcat(a, b, HasImages);
  }

  /** The number above the grid counts grid tiles, one per event with photos, not the
      photos themselves. */
  function PhotoCount(events: seq<MemoryEvent>): (n: nat)
    ensures n == |EventsWithImages(events)|
    ensures n <= |events|
  {
    |EventsWithImages(events)|
  }

  /** Several photos in one event count once. */
  lemma CountIsPerEvent(e: MemoryEvent)
    requires HasImages(e)
    ensures PhotoCount([e]) == 1
  {
  }

  /** A grid tile: the event's first photo, and whether the several-photos badge shows. */
  datatype GridTile = GridTile(cover: string, manyBadge: bool)

  function Tile(e: MemoryEvent): (t: GridTile)
    requires HasImages(e)
    ensures t.cover == e.mediaUrls.value[0]
    ensures t.manyBadge <==> |e.mediaUrls.value| > 1
  {
    GridTile(e.mediaUrls.value[0], |e.mediaUrls.value| > 1)
  }

  /** The grid, one tile per event with photos. */
  function Grid(events: seq<MemoryEvent>): (tiles: seq<GridTile>)
    ensures |tiles| == PhotoCount(events)
    ensures forall i :: 0 <= i < |tiles| ==> tiles[i] == Tile(EventsWithImages(events)[i])
  {
    var shown := EventsWithImages(events);
    seq(|shown|, i requires 0 <= i < |shown| => Tile(shown[i]))
  }

  /** The list view's photos of one event. */
  function ListMedia(e: MemoryEvent): (l: MediaGrid.Layout)
    ensures l.NoMedia? <==> !HasImages(e)
    ensures HasImages(e) ==> MediaGrid.Accounted(l) == |e.mediaUrls.value|
  {
    if HasImages(e) then
      MediaGrid.EveryPhotoAccounted(e.mediaUrls.value);
      MediaGrid.LayoutOf(e.mediaUrls.value)
    else MediaGrid.NoMedia
  }

  /** A grid tile's badge shows exactly when the list view uses the four-tile layout. */
  lemma BadgeMatchesListLayout(e: MemoryEvent)
    requires HasImages(e)
    ensures Tile(e).manyBadge <==> ListMedia(e).Grid?
  {
  }
}
